=== FILE: README.md ===
# Nottie core in Dafny

Nottie is a browser editor for vector animations. It imports SVG files as
layers of paths, takes keyframes (snapshots of every path's commands at a
frame), previews the frames between keyframes by interpolating path points,
and exports the animation as a Lottie JSON document.

This project models the core of that program as pure functions over
immutable values and proves properties of them:

- `Types` (`types.dfy`): points, path commands (`M L C Q Z`) and their
  arity rule, paths, layers, keyframes, the animation and editor state.
- `SvgPath` (`svg_path.dfy`): the path-data parser `parsePathData` over a
  token stream (letters and numbers), with every command letter, relative
  coordinates, implicit repetition, smooth-curve reflection and the arc
  approximation; and the serializer `commandsToPathString`, with the round
  trip between them.
- `SvgShapes` (`svg_shapes.dfy`): `rectToPath`, `circleToPath`,
  `ellipseToPath`, `polygonToPath`, `polylineToPath`, `lineToPath`,
  `parsePoints`, and `parseSVG` over an already-parsed element list.
- `Keyframes` (`keyframes.dfy`): the frame-sorted keyframe list, the
  snapshot a new keyframe records, and adding or removing a keyframe.
- `Timeline` (`timeline.dfy`): easing, command interpolation, the keyframe
  lookup of `interpolatePathAtFrame`, and the preview `getInterpolatedPaths`.
- `AnimationStore` (`editing.dfy`): the updates of the runes store in
  `animation.svelte.ts`, that is the clamping setters, the layer and path
  edits, import, clear and the keyframe actions.
- `Color` (`color.dfy`): `hexToRgba`.
- `Lottie` (`lottie.dfy`): `commandsToLottiePathData`, `getEasingValues`,
  `createLottiePathShape` and `exportToLottie`.
- `LayerStore` (`layer_store.dfy`): the writable store in
  `animationStore.ts`, that is its initial document, the two layer toggles
  and reset.

Every operation has a partner: the parser has the serializer, the Lottie
vertex arrays have a per-vertex reference definition, the store updates
have their "nothing else changes" and idempotence laws, and the exporter
has the preview it must agree with.

Facts of the code the model keeps, which a reader might not expect:

- A Lottie group lists its items as path, stroke, fill, transform
  (src/lib/utils/lottie-export.ts:137-177).
- `fill="none"` and `stroke="none"` become absent only for `<path>`
  elements (src/lib/utils/svg-parser.ts:57-59). Basic shapes keep the
  literal text (src/lib/utils/svg-parser.ts:395), which `hexToRgba` then
  reads as unreadable channels, written as null in the JSON.
- `interpolatePathAtFrame` looks for the neighbouring keyframes among all
  keyframes, not only those holding the path
  (src/lib/stores/animation.svelte.ts:63-70). A neighbour without the path
  shows the path as it is (src/lib/stores/animation.svelte.ts:89-93).
- A relative repetition resolves all of its values against the current
  point at the start of that repetition
  (src/lib/utils/svg-parser.ts:320-323).
- An exported layer's `ind` is its index among all layers plus one, so
  hidden layers leave gaps (src/lib/utils/lottie-export.ts:127-183).
- The exporter writes the easing's first control point into `i` and its
  second into `o` (src/lib/utils/lottie-export.ts:236-239), the reverse
  of what a Lottie player reads; see "## Findings". `Lottie.Entry`, and so
  `Lottie.CreateLottiePathShape` and `Lottie.ExportToLottie`, write them
  in that order; `Lottie.CorrectedPathShape` is the shape with the handles
  swapped.

## Model

| member | source | states |
|---|---|---|
| SvgPath.Repetition | src/lib/utils/svg-parser.ts:134-294 | one argument group emits one command of the letter's kind, well formed, whose end point becomes the current point; only `M` moves the subpath start; `S`/`T` reflect the previous control point through the current point when the previous command is of the matching kind and use the current point otherwise |
| SvgPath.RelativeOffsetsByCurrentPoint | src/lib/utils/svg-parser.ts:320-323 | a lower-case letter gives the same command kind and point count as the upper-case one, with each x (or y) value offset by the current point's coordinate exactly where the letter reads one (`H` only x, `V` only y) |
| SvgPath.ArcIgnoresRadiiAndFlags | src/lib/utils/svg-parser.ts:271-288 | an arc becomes a single lineto to its end point: radii, rotation and flags do not change the result |
| SvgPath.MoveToStartsSubpath | src/lib/utils/svg-parser.ts:134-150 | a moveto's first pair becomes both the current point and the subpath start, and further pairs are read as linetos in the same relative or absolute mode |
| SvgPath.ClosePathResets | src/lib/utils/svg-parser.ts:289-294 | a closepath emits `Z` and puts the current point back at the subpath start |
| SvgPath.ParseFrom | src/lib/utils/svg-parser.ts:117-302 | parsing only appends to the output, and every command it emits satisfies the arity rule |
| SvgPath.ParsePathData | src/lib/utils/svg-parser.ts:117-302 | every parsed path satisfies the arity rule of its command kinds |
| SvgPath.ParseSerializedFrom | src/lib/utils/svg-parser.ts:554-573 | parsing the serialized tokens of well-formed commands from any parser state appends exactly those commands |
| SvgPath.RoundTrip | src/lib/utils/svg-parser.ts:554-573 | `parsePathData(commandsToPathString(cs)) == cs` for every well-formed command list |
| SvgPath.SerializedWellFormed | src/lib/utils/svg-parser.ts:554-573 | the serializer writes each command's letter followed by exactly its arguments, so its output is accepted by the parser |
| SvgShapes.Clamp | src/lib/utils/svg-parser.ts:348-349 | the corner radius is the smaller of the radius and half the side |
| SvgShapes.RectToPath | src/lib/utils/svg-parser.ts:327-399 | no path exactly when the width or the height is zero; otherwise a well-formed path of at least five commands with the element's id |
| SvgShapes.RectRyDefaultsToRx | src/lib/utils/svg-parser.ts:333 | an absent `ry` behaves as `ry` equal to `rx` |
| SvgShapes.SharpRectCorners | src/lib/utils/svg-parser.ts:339-345 | a rectangle without rounding is M to the top-left, L to the other three corners clockwise, then Z |
| SvgShapes.RoundedRectClosedAndSmooth | src/lib/utils/svg-parser.ts:346-390 | a rounded rectangle is M, then four side-and-corner pairs (L then C), then Z; the last corner ends where the path started and every corner's handles line up with the adjacent sides |
| SvgShapes.RoundedSmooth | src/lib/utils/svg-parser.ts:352-389 | the same shape and smoothness facts for any clamped radii and handle lengths |
| SvgShapes.RectInsideBox | src/lib/utils/svg-parser.ts:327-399 | every point of a rectangle's outline, control points included, lies within the rectangle |
| SvgShapes.RoundedInsideBox | src/lib/utils/svg-parser.ts:352-389 | the rounded outline stays in the box whenever the radii are at most half the sides and the handles at most the radii |
| SvgShapes.KappaShrinks | src/lib/utils/svg-parser.ts:350 | the quarter-circle constant scales a length into [0, length] |
| SvgShapes.EllipseToPath | src/lib/utils/svg-parser.ts:411-420 | no path exactly when a radius is zero; otherwise a well-formed six-command path with the element's id |
| SvgShapes.CircleToPath | src/lib/utils/svg-parser.ts:401-409 | no path exactly when the radius is zero |
| SvgShapes.CircleIsEllipse | src/lib/utils/svg-parser.ts:401-409 | a circle converts as the ellipse with both radii equal to r |
| SvgShapes.EllipseCommands | src/lib/utils/svg-parser.ts:422-477 | the ellipse outline is a well-formed six-command path |
| SvgShapes.EllipseAnchorsOnEllipse | src/lib/utils/svg-parser.ts:422-477 | the start point and the four curve end points lie on the ellipse, and the last curve ends at the start |
| SvgShapes.EllipseSmoothAtAnchors | src/lib/utils/svg-parser.ts:422-477 | at every anchor the incoming and outgoing handles are symmetric about it, so the outline has no corner |
| SvgShapes.EllipsePointSymmetric | src/lib/utils/svg-parser.ts:422-477 | the third and fourth curves are the first and second mirrored through the centre |
| SvgShapes.EllipseInsideBox | src/lib/utils/svg-parser.ts:422-477 | every point of the outline, handles included, lies in the ellipse's bounding box |
| SvgShapes.EllipseOutlineInsideBox | src/lib/utils/svg-parser.ts:422-477 | the outline stays in the box for any handle lengths up to the radii |
| SvgShapes.ParsePoints | src/lib/utils/svg-parser.ts:542-551 | a number list gives one point per full pair, and a trailing odd value is dropped |
| SvgShapes.ParsePointsFlatten | src/lib/utils/svg-parser.ts:542-551 | writing the points back out gives the number list without its trailing odd value |
| SvgShapes.FlattenParsePoints | src/lib/utils/svg-parser.ts:542-551 | reading a point list written out as numbers gives the same points |
| SvgShapes.PolylineToPath | src/lib/utils/svg-parser.ts:501-520 | no path exactly when the attribute is absent or has fewer than four numbers; otherwise one command per point |
| SvgShapes.PolylineVisitsPoints | src/lib/utils/svg-parser.ts:501-520 | a polyline moves to its first point and draws lines through the rest, in order |
| SvgShapes.LinesThroughVertices | src/lib/utils/svg-parser.ts:508-511 | the linetos drawn through a point list end at exactly those points |
| SvgShapes.PolygonToPath | src/lib/utils/svg-parser.ts:479-499 | no path exactly when the attribute is absent or has fewer than four numbers |
| SvgShapes.PolygonClosesPolyline | src/lib/utils/svg-parser.ts:479-520 | a polygon is the polyline of the same points with a closing Z appended |
| SvgShapes.LineToPath | src/lib/utils/svg-parser.ts:522-540 | a line is always a well-formed M then L |
| SvgShapes.LineIsTwoPointPolyline | src/lib/utils/svg-parser.ts:522-540 | a line from (x1, y1) to (x2, y2) is the polyline through those two points |
| SvgShapes.PathElementToPath | src/lib/utils/svg-parser.ts:42-62 | a `<path>` gives no path exactly when `d` is missing or parses to nothing; otherwise its commands are the parsed ones and `none` colours are absent |
| SvgShapes.ElementToPath | src/lib/utils/svg-parser.ts:42-99 | any converted element keeps its id and gives a non-empty well-formed path |
| SvgShapes.Collect | src/lib/utils/svg-parser.ts:40-99 | the paths gathered for one tag are conversions of elements of that tag, each non-empty and well formed, and each carries the id of such an element; CollectConcat and CollectOne give their order |
| SvgShapes.CollectConcat | src/lib/utils/svg-parser.ts:40-99 | gathering from two runs of elements is gathering from the first run followed by gathering from the second, so paths come in document order, one per converting element |
| SvgShapes.CollectOne | src/lib/utils/svg-parser.ts:40-99 | a single element gives its conversion when it has the tag and converts, and nothing otherwise |
| SvgShapes.PathElementsComeFirst | src/lib/utils/svg-parser.ts:38-99 | the imported paths start with all `<path>` elements, before any basic shape |
| SvgShapes.CollectComplete | src/lib/utils/svg-parser.ts:40-99 | every element of the tag that converts has its path among those gathered for the tag |
| SvgShapes.NoneFillKeptByShapes | src/lib/utils/svg-parser.ts:42-62 | `fill="none"` on a `<line>` (as on every basic shape) stays the text `none`, while on a `<path>` it becomes absent |
| SvgShapes.ParseSvg | src/lib/utils/svg-parser.ts:12-115 | the viewBox is read exactly when it has four numbers, as x, y, width, height; the width is the given one, 800 when blank, the viewBox width when missing with a viewBox and 800 when missing without one, and likewise the height with 600; there is one layer, named `Imported SVG`, visible and unlocked, holding all converted paths, exactly when some element converted, and no layer otherwise |
| SvgShapes.ImportedPathsWellFormed | src/lib/utils/svg-parser.ts:12-115 | every imported path is non-empty, well formed and carries the id of some element |
| SvgShapes.ImportedPathsAreConversions | src/lib/utils/svg-parser.ts:38-99 | a path is imported exactly when it is the conversion of some element: every converting element's path is in the layer, and every path in the layer is some element's conversion |
| Keyframes.SortByFrame | src/lib/stores/animation.svelte.ts:53 | the sorted keyframes are a permutation of the input, ordered by frame |
| Keyframes.SortStable | src/lib/stores/animation.svelte.ts:53 | sorting keeps keyframes of equal frame in their original order |
| Keyframes.SortSortedIdentity | src/lib/stores/animation.svelte.ts:53 | sorting an already sorted list changes nothing |
| Keyframes.SortKeepsMembers | src/lib/stores/animation.svelte.ts:53 | a keyframe is in the sorted list exactly when it is in the input |
| Keyframes.Snapshot | src/lib/stores/animation.svelte.ts:195-201 | the snapshot has exactly the ids of the paths of all layers as keys |
| Keyframes.SnapshotRecordsUniquePath | src/lib/stores/animation.svelte.ts:195-201 | a path whose id no other path shares is recorded with its own commands |
| Keyframes.AddKeyframe | src/lib/stores/animation.svelte.ts:190-210 | the result is sorted by frame and holds the old keyframes off that frame plus the new one |
| Keyframes.AddKeyframeFrames | src/lib/stores/animation.svelte.ts:190-210 | after adding, the frame holds exactly the new keyframe and every other frame holds what it held |
| Keyframes.AddKeyframeStrict | src/lib/stores/animation.svelte.ts:190-210 | adding keeps at most one keyframe per frame |
| Keyframes.AddKeyframeReplaces | src/lib/stores/animation.svelte.ts:190-210 | adding at a frame twice is adding once with the second easing |
| Keyframes.RemoveKeyframe | src/lib/stores/animation.svelte.ts:212-214 | what remains was there before and is off the frame |
| Keyframes.RemoveKeyframeFrames | src/lib/stores/animation.svelte.ts:212-214 | removing empties that frame, keeps every other frame as it was, and keeps the list sorted |
| Keyframes.RemoveUndoesAdd | src/lib/stores/animation.svelte.ts:190-214 | removing a keyframe just added leaves the list as removing alone would |
| Keyframes.WithoutFrameIdempotent | src/lib/stores/animation.svelte.ts:192 | dropping a frame's keyframes twice is dropping them once |
| Timeline.EasingEnds | src/lib/stores/animation.svelte.ts:130-142 | every easing maps 0 to 0 and 1 to 1, and ease-in-out's two branches meet at one half |
| Timeline.EasingMonotone | src/lib/stores/animation.svelte.ts:130-142 | every easing is non-decreasing on [0, 1] |
| Timeline.EasingInUnit | src/lib/stores/animation.svelte.ts:130-142 | every easing maps [0, 1] into [0, 1] |
| Timeline.EasingSymmetry | src/lib/stores/animation.svelte.ts:130-142 | ease-out is ease-in reflected, and ease-in-out is symmetric about the middle |
| Timeline.InterpolateCommand | src/lib/stores/animation.svelte.ts:110-126 | commands of the same kind and point count blend point by point into that kind; otherwise one of the two is kept unchanged |
| Timeline.InterpolateCommands | src/lib/stores/animation.svelte.ts:102-128 | lists of equal length blend command by command; lists of different length are kept unchanged |
| Timeline.MismatchPicksNearer | src/lib/stores/animation.svelte.ts:108-116 | lists of different length, and mismatched command pairs, are taken whole from the earlier keyframe below t = 0.5 and from the later one from t = 0.5 on |
| Timeline.InterpolateAtZero | src/lib/stores/animation.svelte.ts:102-128 | blending at t = 0 gives the earlier commands |
| Timeline.InterpolateAtOne | src/lib/stores/animation.svelte.ts:102-128 | blending at t = 1 gives the later commands |
| Timeline.InterpolateWellFormed | src/lib/stores/animation.svelte.ts:102-128 | blending well-formed commands gives well-formed commands of the same kinds |
| Timeline.InterpolateBetween | src/lib/stores/animation.svelte.ts:118-123 | for t in [0, 1] each blended coordinate lies between the two it blends |
| Timeline.Leading | src/lib/stores/animation.svelte.ts:60-70 | the keyframe scan stops at the first keyframe after the frame |
| Timeline.ScanIsSplit | src/lib/stores/animation.svelte.ts:60-70 | the previous keyframe is the last one at or before the frame, and the next one is the first after it |
| Timeline.InterpolatePathAtFrame | src/lib/stores/animation.svelte.ts:51-100 | only the commands of the path change |
| Timeline.BeforeFirstKeyframe | src/lib/stores/animation.svelte.ts:51-76 | before every keyframe a path is shown as it is |
| Timeline.AtKeyframe | src/lib/stores/animation.svelte.ts:76-85 | at the frame of the only keyframe there, a path shows that keyframe's snapshot when it has one |
| Timeline.AfterLastKeyframe | src/lib/stores/animation.svelte.ts:76-85 | after the last keyframe a path holds that keyframe's snapshot |
| Timeline.BetweenKeyframes | src/lib/stores/animation.svelte.ts:87-99 | strictly between two neighbouring keyframes a path blends their snapshots at a progress strictly inside (0, 1) |
| Timeline.InterpolatedPathsAreVisiblePaths | src/lib/stores/animation.svelte.ts:36-49 | the preview is the paths of the visible layers, in layer order, each interpolated |
| Timeline.PathsOfAppendedLayer | src/lib/stores/animation.svelte.ts:36-49 | appending a layer appends its interpolated paths to the preview when it is visible and leaves the preview as it was when it is hidden |
| Timeline.ShownBeforeAnyKeyframe | src/lib/stores/animation.svelte.ts:36-49 | before every keyframe the preview is the visible paths as they are |
| AnimationStore.InitialValid | src/lib/stores/animation.svelte.ts:15-33 | the store starts empty at frame 0 of 60, with zoom 1 and nothing selected |
| AnimationStore.SetCurrentFrame | src/lib/stores/animation.svelte.ts:216-218 | the frame becomes the one in [0, totalFrames − 1] nearest to the one asked for, and nothing else changes |
| AnimationStore.SetCurrentFrameExact | src/lib/stores/animation.svelte.ts:216-218 | a frame in range is taken as given, setting twice is setting once, and the frame invariant is kept |
| AnimationStore.SetTotalFrames | src/lib/stores/animation.svelte.ts:250-255 | the length becomes the larger of 1 and the request; the current frame is kept if it still fits and becomes the last frame otherwise; nothing else changes |
| AnimationStore.SetTotalFramesValid | src/lib/stores/animation.svelte.ts:250-255 | after changing the length the current frame is a frame of the animation |
| AnimationStore.SetFps | src/lib/stores/animation.svelte.ts:257-259 | the rate becomes the one in [1, 120] nearest to the one asked for |
| AnimationStore.SetZoom | src/lib/stores/animation.svelte.ts:230-232 | the zoom becomes the one in [0.1, 5] nearest to the one asked for |
| AnimationStore.AddLayer | src/lib/stores/animation.svelte.ts:144-154 | a new empty, visible, unlocked layer with the given id and name is appended and returned, and since it has no paths the preview does not change |
| AnimationStore.AddPathToLayer | src/lib/stores/animation.svelte.ts:156-163 | the path is appended to every layer with the id and no other layer changes |
| AnimationStore.AddPathToUnknownLayer | src/lib/stores/animation.svelte.ts:156-163 | an unknown layer id changes nothing |
| AnimationStore.AddLayerThenPath | src/lib/stores/animation.svelte.ts:144-163 | a path added to a new layer lands in that layer only |
| AnimationStore.MergeFields | src/lib/stores/animation.svelte.ts:168 | the spread update keeps absent fields and takes present ones, and applying it twice is applying it once |
| AnimationStore.UpdatePath | src/lib/stores/animation.svelte.ts:165-170 | every path with the id is merged with the update, in every layer, and nothing else changes |
| AnimationStore.UpdatePathIdempotent | src/lib/stores/animation.svelte.ts:165-170 | the same update twice is the update once, and an empty update changes nothing |
| AnimationStore.SetCommandPointOnly | src/lib/stores/animation.svelte.ts:172-188 | a point inside the list is replaced and every other point, kind and count is kept, so the path stays well formed |
| AnimationStore.SetCommandPointOutside | src/lib/stores/animation.svelte.ts:178-185 | a command index outside the list changes nothing |
| AnimationStore.UpdatePathPoint | src/lib/stores/animation.svelte.ts:172-188 | the point is set in every path with the id, and nothing else changes |
| AnimationStore.UpdatePathPointUnknown | src/lib/stores/animation.svelte.ts:172-188 | an unknown path id changes nothing |
| AnimationStore.MovePointIsUpdate | src/lib/stores/animation.svelte.ts:165-188 | moving a point is the same as updating the path with its moved commands |
| AnimationStore.ImportLayers | src/lib/stores/animation.svelte.ts:239-243 | import replaces the layers, drops all keyframes and returns to frame 0, keeping the rest; the preview becomes the visible paths of the imported layers as they are, and the frame invariant holds |
| AnimationStore.ClearAll | src/lib/stores/animation.svelte.ts:261-268 | clear drops layers and keyframes, returns to frame 0 and clears the selection, keeping zoom and pan; the preview is then empty and the frame invariant holds |
| AnimationStore.StoreAddKeyframe | src/lib/stores/animation.svelte.ts:190-210 | the store's add action changes only the keyframes, which stay sorted; the frame then holds exactly the new keyframe, a snapshot of the layers' paths with the easing, and every other frame keeps its keyframes in their order |
| AnimationStore.StoreRemoveKeyframe | src/lib/stores/animation.svelte.ts:212-214 | the store's remove action changes only the keyframes: the frame is emptied, every other frame keeps its keyframes in their order, and a sorted list stays sorted |
| AnimationStore.KeyframeAtCurrentFrameShowsSame | src/lib/stores/animation.svelte.ts:36-49 | with unique path ids, right after a keyframe is taken at the current frame the canvas there shows the paths as they are, as with no keyframes at all |
| AnimationStore.NewKeyframeAlone | src/lib/stores/animation.svelte.ts:190-210 | a keyframe just added is the only one at its frame |
| Color.ToLower | src/lib/utils/lottie-export.ts:376 | lower-casing keeps the length and lowers A to Z and the Kelvin sign, the characters whose lower case is an ASCII letter |
| Color.HexToRgba | src/lib/utils/lottie-export.ts:363-396 | four channels, the last one 1; for a colour whose text (after name lookup, `#` strip and expansion) starts with six hex digits every channel is read and lies in [0, 1] |
| Color.PairValue | src/lib/utils/lottie-export.ts:391-393 | `parseInt` of two hex digits in base 16 is the byte they spell |
| Color.ChannelOfDigits | src/lib/utils/lottie-export.ts:391-393 | a channel whose two characters are hex digits is their byte over 255 |
| Color.ValidColorReads | src/lib/utils/lottie-export.ts:379-395 | a colour starting with six hex digits reads as its three bytes over 255, with alpha 1 |
| Color.HashSixDigits | src/lib/utils/lottie-export.ts:379-395 | `#` followed by six hex digits is a readable colour with exactly those bytes |
| Color.ParseHexPrefixes | src/lib/utils/lottie-export.ts:391-393 | `parseInt` skips leading space, takes a sign, reads only the leading hex run, and gives NaN for `0x` alone or empty text |
| Color.NoneHasNoChannels | src/lib/utils/lottie-export.ts:363-396 | the text `none` gives three unreadable (NaN) channels and alpha 1 |
| Color.UnknownNameReadsPartly | src/lib/utils/lottie-export.ts:363-396 | an unknown name such as `orange` is read as hex text: `or` and `ge` are NaN and `an` reads its leading `a` as 10 |
| Color.NamedColors | src/lib/utils/lottie-export.ts:365-378 | each of the eight colour names, in any letter case, gives its primary or secondary colour at full strength |
| Color.KelvinSignNamesBlack | src/lib/utils/lottie-export.ts:376 | `BLAC` followed by the Kelvin sign lower-cases to `black` and exports as black |
| Color.ShorthandExpands | src/lib/utils/lottie-export.ts:384-388 | three hex digits read as the six digits with each one doubled |
| Color.HashIsOptional | src/lib/utils/lottie-export.ts:379-382 | a colour reads the same with and without its leading `#` |
| Color.BytesRoundTrip | src/lib/utils/lottie-export.ts:391-395 | three bytes written as `#rrggbb` read back as each byte over 255, with alpha 1 |
| Color.HexIsNoName | src/lib/utils/lottie-export.ts:365-378 | text made of hex digits, or starting with `#`, is never taken for a colour name |
| Lottie.CommandsToLottiePathData | src/lib/utils/lottie-export.ts:261-351 | the vertex, in-tangent and out-tangent arrays have equal length |
| Lottie.PathDataPerVertex | src/lib/utils/lottie-export.ts:261-351 | one vertex per drawing command at its end point, with the in-tangent and out-tangent each curve puts on its two ends (Origin elsewhere), and `c` set exactly when the path has a Z |
| Lottie.BuildDescribes | src/lib/utils/lottie-export.ts:268-341 | the conversion loop keeps the per-vertex description as an invariant, command by command |
| Lottie.Drawing | src/lib/utils/lottie-export.ts:339-341 | the vertices come from the drawing commands, none of which is a Z |
| Lottie.QuadExportExact | src/lib/utils/lottie-export.ts:309-336 | the cubic written for a quadratic traces exactly the same curve |
| Lottie.ElevationExact1 | src/lib/utils/lottie-export.ts:314-321 | the two-thirds degree elevation of one coordinate is exact |
| Lottie.GetEasingValues | src/lib/utils/lottie-export.ts:398-415 | every handle coordinate is in [0, 1], and the handles are diagonal exactly for linear |
| Lottie.PreviewRest | src/lib/stores/animation.svelte.ts:130-142 | the preview easing starts at rest (at most 2t²) exactly for ease-in and ease-in-out, and ends at rest exactly for ease-out and ease-in-out |
| Lottie.ExportedEasingDisagreesWithPreview | src/lib/utils/lottie-export.ts:236-239 | for every easing other than linear, the curve a player reads from the handles as written starts at rest when the preview does not, or the other way round, at the start or at the end |
| Lottie.ExportedEaseInOutStartsAhead | src/lib/utils/lottie-export.ts:236-239 | with the handles as written, ease-in-out at curve parameter 0.1 is at time 0.15328 with progress 0.244, ahead of linear, where the preview is behind it |
| Lottie.LottieEasingValues | src/lib/utils/lottie-export.ts:398-415 | the corrected handles: each coordinate in [0, 1], the first control point in `o` and the second in `i` |
| Lottie.CorrectedEasingFollowsPreview | src/lib/stores/animation.svelte.ts:130-142 | with the corrected handles the player's curve starts at rest exactly when the preview does, ends at rest exactly when the preview does, keeps its time in [0, 1], and at every curve parameter in [0, 1] lies on the same side of linear progress as the preview at that time |
| Lottie.PathKeyframes | src/lib/utils/lottie-export.ts:207-209 | the keyframes holding the path, sorted by frame, each as many times as it occurs among all keyframes and no others |
| Lottie.CreateLottiePathShape | src/lib/utils/lottie-export.ts:201-259 | static exactly when fewer than two keyframes hold the path, with the path's own converted commands; otherwise one entry per such keyframe plus a closing hold |
| Lottie.AnimatedShape | src/lib/utils/lottie-export.ts:223-250 | entry j is keyframe j's snapshot at its frame with the handles `getEasingValues` gives for its easing, as written (first control point in `i`), and the hold repeats the last entry without handles |
| Lottie.CorrectedShapeFollowsPreview | src/lib/utils/lottie-export.ts:223-250 | in the shape with the handles swapped, entry j keeps keyframe j's frame and snapshot, carries the corrected handles, and the curve a player reads from them rests where the preview rests and stays on the preview's side of linear progress |
| Lottie.AnimatedInOrder | src/lib/utils/lottie-export.ts:223-250 | the animated entries are in non-decreasing time order |
| Lottie.UnkeyedShapeIsStatic | src/lib/utils/lottie-export.ts:211-221 | a path that no keyframe holds exports its own commands, static |
| Lottie.ExportAgreesWithPreview | src/lib/utils/lottie-export.ts:201-259 | at a keyframe holding the path, the export has an entry at that frame whose shape is the converted path the preview shows there |
| Lottie.StrokeWidthOf | src/lib/utils/lottie-export.ts:147 | an absent or zero stroke width exports as 1, any other as itself |
| Lottie.ItemsLayout | src/lib/utils/lottie-export.ts:134-176 | a group holds the shape, then a stroke exactly when a stroke is set, then a fill exactly when a fill is set, then the transform |
| Lottie.NoneFillExportsNull | src/lib/utils/lottie-export.ts:151-159 | a path whose fill is the text `none` exports a fill item with three null channels and alpha 1 |
| Lottie.GroupLayout | src/lib/utils/lottie-export.ts:161-177 | the j-th group of a layer is numbered j + 1 and laid out as above |
| Lottie.ExportToLottie | src/lib/utils/lottie-export.ts:112-199 | for any animation whose paths have well-formed commands, the document has version 5.7.4, the export's name, the animation's rate, frame range 0 to totalFrames and its size |
| Lottie.VisibleIndices | src/lib/utils/lottie-export.ts:127-128 | the indices of exactly the visible layers, increasing |
| Lottie.ExportLayersAreVisible | src/lib/utils/lottie-export.ts:127-196 | one exported layer per visible layer, in order, each built from that layer |
| Lottie.ExportedLayers | src/lib/utils/lottie-export.ts:180-195 | exported layer j has index (position among all layers) + 1, the layer's name, frames 0 to totalFrames and one group per path, with indices increasing |
| Lottie.NoKeyframesStatic | src/lib/utils/lottie-export.ts:211-221 | without keyframes every exported path is its own converted commands, static |
| LayerStore.ToggleLayerVisibility | src/lib/stores/animationStore.ts:42-49 | exactly the layers with the id flip `visible`, and nothing else changes |
| LayerStore.ToggleLayerLock | src/lib/stores/animationStore.ts:50-57 | exactly the layers with the id flip `locked`, and nothing else changes |
| LayerStore.Reset | src/lib/stores/animationStore.ts:59 | reset gives the initial document: three empty layers `layer-1` "Layer 1", `layer-2` "Layer 2" and `layer-3` "Background", the second locked and the third hidden, 100 frames at 30 fps on 1920 × 1080 |
| LayerStore.ToggleTwice | src/lib/stores/animationStore.ts:42-57 | toggling the same layer twice restores the state |
| LayerStore.ToggleUnknown | src/lib/stores/animationStore.ts:42-57 | an id no layer has changes nothing |
| LayerStore.TogglesCommute | src/lib/stores/animationStore.ts:42-57 | the two toggles commute |
| LayerStore.LockKeepsCanvas | src/lib/stores/animationStore.ts:50-57 | locking does not change the visible paths |
| LayerStore.LockKeepsExport | src/lib/stores/animationStore.ts:50-57 | locking does not change the exported Lottie document |
| LayerStore.ResetShowsNothing | src/lib/stores/animationStore.ts:4-35 | the initial document shows no path, and its frame is inside its range |

## Left out

- Text: the tokenizer of path data (`tokenizePathData`) and `parseFloat`
  are not modelled. Path data is a token list of letters and numbers,
  numbers are reals, and attributes are given already read. `parseInt` in
  base 16 is modelled, after section 19.2.5 of the ECMAScript 2024
  language specification.
- SvgPath.ParsePathData: requires every letter's numbers to come in whole
  groups. The source checks only that the first token of a group is a
  number (and, for `C`, `S`, `Q`, `T` and `A`, that enough tokens
  follow), then reads the rest of the group whatever it is, so a letter
  inside an incomplete group becomes a NaN argument and its command is
  lost: `L 1 2 3 Z` gives `L(1, 2)`, `L(3, NaN)` and no `Z`, and
  `C 1 2 3 4 5 6 7 8 L 0 0 0 0` gives two `C` and no `L`
  (src/lib/utils/svg-parser.ts:143-158, 181, 202, 230, 273). At the end
  of the tokens, `M`'s first pair, which no guard protects, and the y of
  a pair after `M` or `L` can read `undefined` as NaN
  (src/lib/utils/svg-parser.ts:136-137, 145, 155); `H` and `V` read one
  number per group and only under the guard (163, 172).
  None of this is modelled.
- Floating point is modelled as exact reals. NaN (apart from the
  unreadable colour channels), infinities and rounding are not modelled,
  so `Math.min`, the easing curves and the blends are exact here.
- Frames and rates are integers: keyframe frames, `currentFrame`,
  `totalFrames` and `fps` are `int`, while the source's `number`
  (src/lib/types.ts:42, 54-56) also admits fractions such as
  `setFps(29.97)` or `setCurrentFrame(2.5)`, at which the preview blends
  at a fractional progress. Fractional frames are not modelled.
- The DOM (`DOMParser`, `querySelectorAll`, `getAttribute`) and `uuid()`
  are not modelled. `SvgShapes.ParseSvg` takes the elements in document
  order and their ids as inputs. The missing-`<svg>` error is left out.
- Color.ToLower: lowers A to Z and the Kelvin sign only. Every other
  character JavaScript's `toLowerCase` changes keeps a lower case outside
  ASCII, so it cannot make one of the eight (ASCII) names; characters
  whose lower case has a different length are kept as they are.
- Color.HexToRgba: a signed read such as `-0` is the real 0 here, where
  JavaScript has negative zero; JSON writes both as `0`.
- Color.HexToRgba: measures, expands and slices the text by Unicode
  scalar values, while JavaScript's `length`, `split('')` and `slice` count
  UTF-16 code units (src/lib/utils/lottie-export.ts:384-393). For
  `#😀12ab` the source reads NaN, 18/255 and 171/255 and the model None,
  42/255 and 11/255; `#😀a` has length 3 in JavaScript and is expanded,
  but length 2 here and is not. Text outside the Basic Multilingual Plane
  is not modelled faithfully.
- The colour table lookup ignores keys inherited by JavaScript objects,
  such as `constructor`. The source would return a function for them.
- `downloadLottie` (Blob, URL, anchor click) is I/O and is left out.
- `createDefaultTransform` and the constant Lottie fields (`ddd`, `ty`,
  `sr`, `ao`, `bm`, `ks` of a layer, the item type tags and `nm` strings
  other than the layer name) are not modelled. A group is identified by
  its number, the `N` of its name `Path N`.
- AnimationStore.UpdatePathPoint: a point index inside the list replaces
  the point and the index just past the end appends one. Any other index
  (a hole the JavaScript array would get) leaves the points unchanged.
- `setPlaying`, `setSelection`, `setPan` and `setCanvasSize` are plain
  field writes with nothing to prove, and are left out. So is the
  playback timer of the UI.
- `editorStore.ts` and `changelog.ts` are not part of this model.
- `backgroundColor` (declared in the types, never set by either store) is
  not modelled.
- The Svelte store plumbing (`$state`, `writable`, `update`, subscribers)
  is modelled as plain values: each update is a function from the old
  state to the new one. The JSON deep copy `addKeyframe` takes of each
  path's commands (src/lib/stores/animation.svelte.ts:199) is a value
  copy here. `importLayers` stores the array it is given as is
  (src/lib/stores/animation.svelte.ts:240), so later changes to that
  array by the caller, which values cannot express, are not modelled.

## Findings

| source | as written | input that shows it | evidently intended | confidence | as-written member | corrected member |
|---|---|---|---|---|---|---|
| src/lib/utils/lottie-export.ts:236-239 | the keyframe's `i` handle gets the CSS curve's first control point and `o` its second (src/lib/utils/lottie-export.ts:398-415), while a Lottie player reads `o` as the first control point of the segment leaving the keyframe and `i` as its second | an `ease-in-out` keyframe: the player eases along cubic-bezier(0.58, 1, 0.42, 0), which at curve parameter 0.1 is at time 0.15328 with progress 0.244, ahead of linear, where the preview's ease-in-out (2t² there) is behind it; ease-in comes out starting fast and ease-out ending fast | `o` = (0.42, 0) and `i` = (1, 1) for ease-in, `o` = (0, 0) and `i` = (0.58, 1) for ease-out, `o` = (0.42, 0) and `i` = (0.58, 1) for ease-in-out, so the exported segment rests where the preview rests | not executed | Lottie.ExportedEasingDisagreesWithPreview | Lottie.CorrectedShapeFollowsPreview |

=== FILE: color.dfy ===
/** hexToRgba of the Lottie exporter (src/lib/utils/lottie-export.ts): a
    CSS colour name or hex colour turned into red, green, blue and alpha
    channels. A channel `parseInt` cannot read is NaN, written `None` here
    (JSON writes NaN as null). */
module Color {
  import opened Types

  /** `toLowerCase` on the characters whose lower case is an ASCII letter:
      A to Z, and U+212A KELVIN SIGN, which lowers to k. Every other
      character keeps a non-ASCII lower case, so keeping it as it is does
      not change whether a text is one of the (ASCII) colour names. */
  function LowerChar(c: char): char
  {
    if 'A' <= c <= 'Z' then (c as int + 32) as char
    else if c == '\U{212A}' then 'k'
    else c
  }

  function ToLower(s: string): (r: string)
    ensures |r| == |s| && forall k | 0 <= k < |s| :: r[k] == LowerChar(s[k])
  {
    seq(|s|, k requires 0 <= k < |s| => LowerChar(s[k]))
  }

  /** The eight colour names the exporter knows, with their hex values. */
  const Names: map<string, string> := map[
    "black" := "#000000", "white" := "#ffffff", "red" := "#ff0000", "green" := "#00ff00",
    "blue" := "#0000ff", "yellow" := "#ffff00", "cyan" := "#00ffff", "magenta" := "#ff00ff"]

  /** The name lookup: a known name in any case gives its hex value; any
      other text is kept, in its own case. */
  function Named(hex: string): string
  {
    if ToLower(hex) in Names then Names[ToLower(hex)] else hex
  }

  /** The colour text after the name lookup, the `#` strip and the
      expansion of three digits to six. */
  function Normalize(hex: string): (c: string)
  {
    Expand(Strip(Named(hex)))
  }

  function Strip(s: string): string
  {
    if |s| > 0 && s[0] == '#' then s[1..] else s
  }

  function Expand(s: string): string
  {
    if |s| == 3 then [s[0], s[0], s[1], s[1], s[2], s[2]] else s
  }

  predicate IsHexDigit(c: char)
  {
    '0' <= c <= '9' || 'a' <= c <= 'f' || 'A' <= c <= 'F'
  }

  function HexValue(c: char): (v: nat)
    requires IsHexDigit(c)
    ensures v < 16
  {
    if '0' <= c <= '9' then c as int - '0' as int
    else if 'a' <= c <= 'f' then c as int - 'a' as int + 10
    else c as int - 'A' as int + 10
  }

  // ---------------------------------------------------------------------------
  // parseInt(s, 16), after section 19.2.5 of the ECMAScript 2024 language
  // specification
  // ---------------------------------------------------------------------------

  /** The white space and line terminators `parseInt` skips: tab, line
      feed, vertical tab, form feed, carriage return, the byte order mark,
      the line and paragraph separators and the space separators (Zs). */
  predicate IsWhiteSpace(c: char)
  {
    if c <= ' ' then
      c == '\t' || c == '\n' || c == '\U{B}' || c == '\U{C}' || c == '\r' || c == ' '
    else
      '\U{A0}' <= c &&
      (c == '\U{A0}' || c == '\U{1680}' || '\U{2000}' <= c <= '\U{200A}' || c == '\U{2028}' ||
       c == '\U{2029}' || c == '\U{202F}' || c == '\U{205F}' || c == '\U{3000}' || c == '\U{FEFF}')
  }

  function TrimStart(s: string): string
  {
    if |s| > 0 && IsWhiteSpace(s[0]) then TrimStart(s[1..]) else s
  }

  predicate AllHex(s: string)
  {
    forall k | 0 <= k < |s| :: IsHexDigit(s[k])
  }

  /** The number spelled by the run of hex digits `s` starts with, most
      significant first, after the digits already read into `acc`. */
  function HexPrefixValue(s: string, acc: nat): nat
  {
    if |s| > 0 && IsHexDigit(s[0]) then HexPrefixValue(s[1..], 16 * acc + HexValue(s[0])) else acc
  }

  /** `parseInt(s, 16)`: leading white space is skipped, then one sign and
      one `0x` prefix; the longest run of hex digits that follows is the
      number, and none at all is NaN. */
  function ParseHex(s: string): Option<int>
  {
    var t := TrimStart(s);
    var negative := |t| > 0 && t[0] == '-';
    var u := if |t| > 0 && (t[0] == '-' || t[0] == '+') then t[1..] else t;
    var w := if |u| >= 2 && u[0] == '0' && (u[1] == 'x' || u[1] == 'X') then u[2..] else u;
    if |w| == 0 || !IsHexDigit(w[0]) then None
    else
      var m: int := HexPrefixValue(w, 0);
      Some(if negative then -m else m)
  }

  /** `s.slice(lo, hi)`: the bounds are cut down to the length. */
  function Slice(s: string, lo: nat, hi: nat): string
    requires lo <= hi
  {
    s[(if lo <= |s| then lo else |s|)..(if hi <= |s| then hi else |s|)]
  }

  /** `parseInt(c.slice(2k, 2k + 2), 16) / 255`. */
  function Channel(c: string, k: nat): Option<real>
  {
    var v := ParseHex(Slice(c, 2 * k, 2 * k + 2));
    if v.Some? then Some(v.value as real / 255.0) else None
  }

  /** A colour whose normalized text starts with six hex digits, so every
      channel reads two digits. */
  predicate ValidColor(hex: string)
  {
    var c := Normalize(hex);
    |c| >= 6 && forall k | 0 <= k < 6 :: IsHexDigit(c[k])
  }

  /** The byte two hex digits spell. */
  function ByteAt(c: string, k: nat): (b: nat)
    requires 2 * k + 1 < |c| && IsHexDigit(c[2 * k]) && IsHexDigit(c[2 * k + 1])
    ensures b < 256
  {
    16 * HexValue(c[2 * k]) + HexValue(c[2 * k + 1])
  }

  /** Two hex digits read as the byte they spell. */
  lemma PairValue(a: char, b: char)
    requires IsHexDigit(a) && IsHexDigit(b)
    ensures ParseHex([a, b]) == Some(16 * HexValue(a) + HexValue(b))
  {
    var pair := [a, b];
    assert TrimStart(pair) == pair;
    assert pair[1..] == [b] && [b][1..] == [];
    assert HexPrefixValue(pair, 0) == HexPrefixValue([b], HexValue(a)) == 16 * HexValue(a) + HexValue(b);
  }

  /** A channel whose two characters are hex digits is their byte over 255. */
  lemma ChannelOfDigits(c: string, k: nat)
    requires 2 * k + 1 < |c| && IsHexDigit(c[2 * k]) && IsHexDigit(c[2 * k + 1])
    ensures Channel(c, k) == Some(ByteAt(c, k) as real / 255.0)
  {
    assert Slice(c, 2 * k, 2 * k + 2) == [c[2 * k], c[2 * k + 1]];
    PairValue(c[2 * k], c[2 * k + 1]);
  }

  /** Of a valid colour, channel k is read and lies in [0, 1]. */
  lemma ChannelInUnit(hex: string, k: nat)
    requires k < 3
    ensures ValidColor(hex) ==>
              Channel(Normalize(hex), k).Some? && 0.0 <= Channel(Normalize(hex), k).value <= 1.0
  {
    if ValidColor(hex) {
      var c := Normalize(hex);
      assert IsHexDigit(c[2 * k]) && IsHexDigit(c[2 * k + 1]);
      ChannelOfDigits(c, k);
    }
  }

  /** hexToRgba: three channels and an opaque alpha; a valid colour has
      every channel, each a byte over 255. */
  function HexToRgba(hex: string): (r: seq<Option<real>>)
    ensures |r| == 4 && r[3] == Some(1.0)
    ensures ValidColor(hex) ==> forall k | 0 <= k < 3 :: r[k].Some? && 0.0 <= r[k].value <= 1.0
  {
    var c := Normalize(hex);
    ChannelInUnit(hex, 0);
    ChannelInUnit(hex, 1);
    ChannelInUnit(hex, 2);
    [Channel(c, 0), Channel(c, 1), Channel(c, 2), Some(1.0)]
  }

  // ---------------------------------------------------------------------------
  // Properties
  // ---------------------------------------------------------------------------

  /** Three read channels and the opaque alpha. */
  function Opaque(r: real, g: real, b: real): seq<Option<real>>
  {
    [Some(r), Some(g), Some(b), Some(1.0)]
  }

  /** The channels each colour name stands for. */
  function NamedChannels(name: string): seq<Option<real>>
  {
    match name
    case "black" => Opaque(0.0, 0.0, 0.0)
    case "white" => Opaque(1.0, 1.0, 1.0)
    case "red" => Opaque(1.0, 0.0, 0.0)
    case "green" => Opaque(0.0, 1.0, 0.0)
    case "blue" => Opaque(0.0, 0.0, 1.0)
    case "yellow" => Opaque(1.0, 1.0, 0.0)
    case "cyan" => Opaque(0.0, 1.0, 1.0)
    case _ => Opaque(1.0, 0.0, 1.0)
  }

  /** A colour name in any letter case gives its primary or secondary
      colour at full strength. */
  lemma NamedColors(s: string)
    requires ToLower(s) in Names
    ensures ValidColor(s) && HexToRgba(s) == NamedChannels(ToLower(s))
  {
    var n := ToLower(s);
    var h := Names[n];
    NamedValue(n);
    assert Named(s) == h == Named(h);
    SameNormalForm(h, s);
  }

  /** U+212A KELVIN SIGN lowers to k, so "BLAC" followed by it names
      black. */
  lemma KelvinSignNamesBlack()
    ensures ToLower("BLAC\U{212A}") == "black"
    ensures HexToRgba("BLAC\U{212A}") == Opaque(0.0, 0.0, 0.0)
  {
    assert ToLower("BLAC\U{212A}") == "black";
    NamedColors("BLAC\U{212A}");
  }

  /** `parseInt` skips leading white space, takes one sign and one `0x`,
      and reads only the hex digits that follow. */
  lemma ParseHexPrefixes()
    ensures ParseHex(" f") == Some(15) && ParseHex("-f") == Some(-15) && ParseHex("+f") == Some(15)
    ensures ParseHex("a?") == Some(10) && ParseHex("0x") == None && ParseHex("") == None
  {
    assert " f"[1..] == "f" && "f"[1..] == [];
    assert "-f"[1..] == "f" && "+f"[1..] == "f";
    assert "a?"[1..] == "?";
    assert "0x"[2..] == [];
  }

  /** "none", which basic shapes keep as their fill, is neither a name nor
      hex digits: every channel is NaN. */
  lemma NoneHasNoChannels()
    ensures HexToRgba("none") == [None, None, None, Some(1.0)]
  {
    assert ToLower("none") == "none";
    assert Normalize("none") == "none";
    NoneChannels();
  }

  /** The three channels of "none". */
  lemma NoneChannels()
    ensures Channel("none", 0) == None && Channel("none", 1) == None && Channel("none", 2) == None
  {
    NonePairs();
    assert Slice("none", 0, 2) == "no" && Slice("none", 2, 4) == "ne" && Slice("none", 4, 6) == "";
  }

  /** The three digit pairs of "none", the last one empty. */
  lemma NonePairs()
    ensures ParseHex("no") == None && ParseHex("ne") == None && ParseHex("") == None
  {
  }

  /** A name the exporter does not know reads channel by channel: "orange"
      keeps only the channel that starts at its hex digit a. */
  lemma UnknownNameReadsPartly()
    ensures HexToRgba("orange") == [None, Some(10.0 / 255.0), None, Some(1.0)]
  {
    assert ToLower("orange") == "orange";
    assert Normalize("orange") == "orange";
    OrangeChannels();
  }

  /** The three channels of "orange". */
  lemma OrangeChannels()
    ensures Channel("orange", 0) == None && Channel("orange", 1) == Some(10.0 / 255.0) && Channel("orange", 2) == None
  {
    OrangePairs();
    assert Slice("orange", 0, 2) == "or" && Slice("orange", 2, 4) == "an" && Slice("orange", 4, 6) == "ge";
  }

  /** The three digit pairs of "orange". */
  lemma OrangePairs()
    ensures ParseHex("or") == None && ParseHex("an") == Some(10) && ParseHex("ge") == None
  {
    assert "an"[1..] == "n";
  }

  /** Colours with the same normalized text read the same. */
  lemma SameNormalForm(a: string, b: string)
    requires ValidColor(a) && Normalize(a) == Normalize(b)
    ensures ValidColor(b) && HexToRgba(b) == HexToRgba(a)
  {
  }

  /** Each name's hex value reads as the name's channels. */
  lemma NamedValue(n: string)
    requires n in Names
    ensures ValidColor(Names[n]) && HexToRgba(Names[n]) == NamedChannels(n)
    ensures Named(Names[n]) == Names[n]
  {
    assert ByteHex(0) == "00" && ByteHex(255) == "ff";
    if n == "black" || n == "white" || n == "red" || n == "green" {
      GreyAndPrimary(n);
    } else {
      BlueAndMixed(n);
    }
  }

  lemma GreyAndPrimary(n: string)
    requires n == "black" || n == "white" || n == "red" || n == "green"
    requires ByteHex(0) == "00" && ByteHex(255) == "ff"
    ensures n in Names && ValidColor(Names[n]) && HexToRgba(Names[n]) == NamedChannels(n)
    ensures Named(Names[n]) == Names[n]
  {
    if n == "black" {
      NamedBytes(n, 0, 0, 0);
    } else if n == "white" {
      NamedBytes(n, 255, 255, 255);
    } else if n == "red" {
      NamedBytes(n, 255, 0, 0);
    } else {
      NamedBytes(n, 0, 255, 0);
    }
  }

  lemma BlueAndMixed(n: string)
    requires n in Names && n != "black" && n != "white" && n != "red" && n != "green"
    requires ByteHex(0) == "00" && ByteHex(255) == "ff"
    ensures ValidColor(Names[n]) && HexToRgba(Names[n]) == NamedChannels(n)
    ensures Named(Names[n]) == Names[n]
  {
    if n == "blue" {
      NamedBytes(n, 0, 0, 255);
    } else if n == "yellow" {
      NamedBytes(n, 255, 255, 0);
    } else if n == "cyan" {
      NamedBytes(n, 0, 255, 255);
    } else {
      assert n == "magenta";
      NamedBytes(n, 255, 0, 255);
    }
  }

  lemma NamedBytes(n: string, r: nat, g: nat, b: nat)
    requires n in Names && r < 256 && g < 256 && b < 256
    requires Names[n] == "#" + (ByteHex(r) + ByteHex(g) + ByteHex(b))
    requires NamedChannels(n) == Opaque(r as real / 255.0, g as real / 255.0, b as real / 255.0)
    ensures ValidColor(Names[n]) && HexToRgba(Names[n]) == NamedChannels(n)
    ensures Named(Names[n]) == Names[n]
  {
    BytesRoundTrip(r, g, b);
    HexIsNoName(Names[n]);
  }

  /** Hex digits never spell a colour name, with or without a `#`. */
  lemma HexIsNoName(s: string)
    requires AllHex(s) || (|s| > 0 && s[0] == '#')
    ensures ToLower(s) !in Names
  {
    var n := ToLower(s);
    // no name starts with '#', and every name has a letter that is no hex
    // digit among its first two
    if AllHex(s) {
      assert |n| < 1 || IsHexDigit(s[0]);
      assert |n| < 2 || IsHexDigit(s[1]);
    } else {
      assert n[0] == '#';
    }
  }

  /** Three digits stand for six: each digit is doubled. */
  lemma ShorthandExpands(a: char, b: char, c: char)
    requires IsHexDigit(a) && IsHexDigit(b) && IsHexDigit(c)
    ensures ValidColor([a, b, c]) && ValidColor([a, a, b, b, c, c])
    ensures HexToRgba([a, b, c]) == HexToRgba([a, a, b, b, c, c])
  {
    HexIsNoName([a, b, c]);
    HexIsNoName([a, a, b, b, c, c]);
  }

  /** The leading `#` is optional. */
  lemma HashIsOptional(s: string)
    requires AllHex(s) && (|s| == 3 || |s| == 6)
    ensures ValidColor(s) && ValidColor("#" + s)
    ensures HexToRgba("#" + s) == HexToRgba(s)
  {
    HexIsNoName(s);
    HexIsNoName("#" + s);
    assert ("#" + s)[1..] == s;
  }

  /** The two lower-case hex digits of a byte. */
  function ByteHex(b: nat): (s: string)
    requires b < 256
    ensures |s| == 2 && AllHex(s)
  {
    [Digit(b / 16), Digit(b % 16)]
  }

  function Digit(d: nat): (c: char)
    requires d < 16
    ensures IsHexDigit(c) && HexValue(c) == d
  {
    if d < 10 then ('0' as int + d) as char else ('a' as int + d - 10) as char
  }

  /** A valid colour reads as the three bytes its normalized text starts
      with. */
  lemma ValidColorReads(hex: string)
    requires ValidColor(hex)
    ensures var c := Normalize(hex);
            HexToRgba(hex) == Opaque(ByteAt(c, 0) as real / 255.0, ByteAt(c, 1) as real / 255.0, ByteAt(c, 2) as real / 255.0)
  {
    ReadsChannels(hex);
    SixDigitsRead(Normalize(hex));
  }

  /** hexToRgba reads the channels of the normalized text. */
  lemma ReadsChannels(hex: string)
    ensures var c := Normalize(hex); HexToRgba(hex) == [Channel(c, 0), Channel(c, 1), Channel(c, 2), Some(1.0)]
  {
  }

  /** The channels of text starting with six hex digits. */
  lemma SixDigitsRead(c: string)
    requires |c| >= 6 && forall k | 0 <= k < 6 :: IsHexDigit(c[k])
    ensures [Channel(c, 0), Channel(c, 1), Channel(c, 2), Some(1.0)]
            == Opaque(ByteAt(c, 0) as real / 255.0, ByteAt(c, 1) as real / 255.0, ByteAt(c, 2) as real / 255.0)
  {
    assert IsHexDigit(c[0]) && IsHexDigit(c[1]) && IsHexDigit(c[2]);
    assert IsHexDigit(c[3]) && IsHexDigit(c[4]) && IsHexDigit(c[5]);
    ChannelOfDigits(c, 0);
    ChannelOfDigits(c, 1);
    ChannelOfDigits(c, 2);
  }

  /** `#` and six hex digits read as the three bytes the digits spell. */
  lemma HashSixDigits(body: string)
    requires |body| == 6 && AllHex(body)
    ensures ValidColor("#" + body)
    ensures HexToRgba("#" + body) == Opaque(ByteAt(body, 0) as real / 255.0, ByteAt(body, 1) as real / 255.0, ByteAt(body, 2) as real / 255.0)
  {
    var hex := "#" + body;
    HexIsNoName(hex);
    assert Named(hex) == hex;
    assert hex[1..] == body;
    assert Normalize(hex) == body;
    ReadsChannels(hex);
    SixDigitsRead(body);
  }

  /** Writing three bytes as `#rrggbb` and reading them back gives each
      byte over 255. */
  lemma BytesRoundTrip(r: nat, g: nat, b: nat)
    requires r < 256 && g < 256 && b < 256
    ensures var hex := "#" + (ByteHex(r) + ByteHex(g) + ByteHex(b));
            ValidColor(hex) &&
            HexToRgba(hex) == Opaque(r as real / 255.0, g as real / 255.0, b as real / 255.0)
  {
    BytesSpelled(r, g, b);
    HashBytes(ByteHex(r) + ByteHex(g) + ByteHex(b), r, g, b);
  }

  /** `#` and six hex digits spelling three given bytes read as those
      bytes over 255. */
  lemma HashBytes(body: string, r: nat, g: nat, b: nat)
    requires |body| == 6 && AllHex(body)
    requires ByteAt(body, 0) == r && ByteAt(body, 1) == g && ByteAt(body, 2) == b
    ensures ValidColor("#" + body)
    ensures HexToRgba("#" + body) == Opaque(r as real / 255.0, g as real / 255.0, b as real / 255.0)
  {
    var hex := "#" + body;
    HexIsNoName(hex);
    assert hex[1..] == body;
    assert Normalize(hex) == body;
    ReadsChannels(hex);
    SixDigitsRead(body);
  }

  /** Six hex digits that spell three bytes. */
  lemma BytesSpelled(r: nat, g: nat, b: nat)
    requires r < 256 && g < 256 && b < 256
    ensures var body := ByteHex(r) + ByteHex(g) + ByteHex(b);
            |body| == 6 && AllHex(body) &&
            ByteAt(body, 0) == r && ByteAt(body, 1) == g && ByteAt(body, 2) == b
  {
    var x, y, z := ByteHex(r), ByteHex(g), ByteHex(b);
    var body := x + y + z;
    assert body[0] == x[0] && body[1] == x[1] && body[2] == y[0] && body[3] == y[1] && body[4] == z[0] && body[5] == z[1];
    ByteHexValue(r);
    ByteHexValue(g);
    ByteHexValue(b);
  }

  lemma ByteHexValue(b: nat)
    requires b < 256
    ensures 16 * HexValue(ByteHex(b)[0]) + HexValue(ByteHex(b)[1]) == b
  {
    assert 16 * (b / 16) + b % 16 == b;
  }
}

=== FILE: editing.dfy ===
/** The state updates of the animation store
    (src/lib/stores/animation.svelte.ts): the clamping setters, the
    structural edits of layers and paths, import and clear, and the store's
    keyframe actions. Each update is a function from the old state to the
    new one; generated ids are parameters. */
module AnimationStore {
  import opened Types
  import Keyframes
  import Timeline

  /** The store's starting animation state. */
  const InitialState: AnimationState := AnimationState([], [], 0, 60, 30, 800.0, 600.0, false)

  /** The store's starting editor state: nothing selected, zoom 1, no pan. */
  const InitialEditor: EditorState := EditorState(None, None, None, 1.0, 0.0, 0.0)

  /** The frame invariant the setters keep: the current frame is a frame of
      the animation. */
  predicate FramesValid(st: AnimationState)
  {
    0 <= st.currentFrame < st.totalFrames
  }

  lemma InitialValid()
    ensures FramesValid(InitialState) && InitialState.layers == [] && InitialState.keyframes == []
    ensures InitialEditor.zoom == 1.0 && InitialEditor.selectedLayerId.None?
  {
  }

  // ---------------------------------------------------------------------------
  // Clamping setters
  // ---------------------------------------------------------------------------

  function IntMax(a: int, b: int): int { if a >= b then a else b }

  function IntMin(a: int, b: int): int { if a <= b then a else b }

  function Dist(a: int, b: int): nat { if a >= b then a - b else b - a }

  /** `r` is the value of [lo, hi] closest to `v`. */
  predicate NearestIn(v: int, lo: int, hi: int, r: int)
  {
    lo <= r <= hi && forall g | lo <= g <= hi :: Dist(r, v) <= Dist(g, v)
  }

  /** `max(lo, min(v, hi))` is the value of a non-empty range nearest to `v`. */
  lemma ClampNearest(v: int, lo: int, hi: int)
    ensures lo <= hi ==> NearestIn(v, lo, hi, IntMax(lo, IntMin(v, hi)))
  {
  }

  /** setCurrentFrame: the frame of the animation nearest to the one asked
      for; frame 0 when the animation has no frames. */
  function SetCurrentFrame(st: AnimationState, frame: int): (r: AnimationState)
    ensures r == st.(currentFrame := r.currentFrame)
    ensures st.totalFrames >= 1 ==> NearestIn(frame, 0, st.totalFrames - 1, r.currentFrame)
    ensures st.totalFrames < 1 ==> r.currentFrame == 0
  {
    ClampNearest(frame, 0, st.totalFrames - 1);
    st.(currentFrame := IntMax(0, IntMin(frame, st.totalFrames - 1)))
  }

  /** A frame of the animation is taken as is, and setting twice is setting once. */
  lemma SetCurrentFrameExact(st: AnimationState, frame: int)
    ensures 0 <= frame < st.totalFrames ==> SetCurrentFrame(st, frame).currentFrame == frame
    ensures SetCurrentFrame(SetCurrentFrame(st, frame), frame) == SetCurrentFrame(st, frame)
    ensures FramesValid(st) ==> FramesValid(SetCurrentFrame(st, frame))
  {
  }

  /** setTotalFrames: at least one frame; a current frame past the new end
      moves to the last frame. */
  function SetTotalFrames(st: AnimationState, frames: int): (r: AnimationState)
    ensures r == st.(totalFrames := r.totalFrames, currentFrame := r.currentFrame)
    ensures r.totalFrames == IntMax(1, frames)
    ensures r.totalFrames >= 1 && (frames >= 1 ==> r.totalFrames == frames)
    ensures r.currentFrame < r.totalFrames
    ensures st.currentFrame < r.totalFrames ==> r.currentFrame == st.currentFrame
    ensures st.currentFrame >= r.totalFrames ==> r.currentFrame == r.totalFrames - 1
  {
    var total := IntMax(1, frames);
    st.(totalFrames := total, currentFrame := if st.currentFrame >= total then total - 1 else st.currentFrame)
  }

  lemma SetTotalFramesValid(st: AnimationState, frames: int)
    requires 0 <= st.currentFrame
    ensures FramesValid(SetTotalFrames(st, frames))
  {
  }

  /** setFps: the rate in [1, 120] nearest to the one asked for. */
  function SetFps(st: AnimationState, fps: int): (r: AnimationState)
    ensures r == st.(fps := r.fps)
    ensures NearestIn(fps, 1, 120, r.fps)
  {
    ClampNearest(fps, 1, 120);
    st.(fps := IntMax(1, IntMin(fps, 120)))
  }

  function RealMax(a: real, b: real): real { if a >= b then a else b }

  function RealMin(a: real, b: real): real { if a <= b then a else b }

  function RealDist(a: real, b: real): real { if a >= b then a - b else b - a }

  /** setZoom: the zoom in [0.1, 5] nearest to the one asked for. */
  function SetZoom(ed: EditorState, zoom: real): (r: EditorState)
    ensures r == ed.(zoom := r.zoom)
    ensures 0.1 <= r.zoom <= 5.0
    ensures forall z | 0.1 <= z <= 5.0 :: RealDist(r.zoom, zoom) <= RealDist(z, zoom)
  {
    ed.(zoom := RealMax(0.1, RealMin(zoom, 5.0)))
  }

  // ---------------------------------------------------------------------------
  // Layers and paths
  // ---------------------------------------------------------------------------

  /** addLayer: a visible, unlocked, empty layer with the given id, appended
      after the others; being empty, it leaves the preview as it was. */
  function AddLayer(st: AnimationState, id: string, name: string): (r: (AnimationState, Layer))
    ensures r.0 == st.(layers := st.layers + [r.1])
    ensures r.1.id == id && r.1.name == name && r.1.paths == [] && r.1.visible && !r.1.locked
    ensures Timeline.GetInterpolatedPaths(r.0) == Timeline.GetInterpolatedPaths(st)
  {
    var layer := Layer(id, name, [], true, false);
    Timeline.PathsOfAppendedLayer(st.keyframes, st.layers, layer, st.currentFrame);
    (st.(layers := st.layers + [layer]), layer)
  }

  /** addPathToLayer: the path is appended to every layer with the id. */
  function AddPathToLayer(st: AnimationState, layerId: string, path: PathData): (r: AnimationState)
    ensures r == st.(layers := r.layers) && |r.layers| == |st.layers|
    ensures forall i | 0 <= i < |st.layers| ::
              r.layers[i] == if st.layers[i].id == layerId
                             then st.layers[i].(paths := st.layers[i].paths + [path])
                             else st.layers[i]
  {
    st.(layers := seq(|st.layers|, i requires 0 <= i < |st.layers| =>
          var l := st.layers[i];
          if l.id == layerId then l.(paths := l.paths + [path]) else l))
  }

  /** Adding to an unknown layer changes nothing. */
  lemma AddPathToUnknownLayer(st: AnimationState, layerId: string, path: PathData)
    requires forall l | l in st.layers :: l.id != layerId
    ensures AddPathToLayer(st, layerId, path) == st
  {
    var r := AddPathToLayer(st, layerId, path);
    assert r.layers == st.layers;
  }

  /** A layer created by addLayer receives exactly the paths added to it,
      when no earlier layer shares its id. */
  lemma AddLayerThenPath(st: AnimationState, id: string, name: string, path: PathData)
    requires forall l | l in st.layers :: l.id != id
    ensures var (s1, layer) := AddLayer(st, id, name);
            var s2 := AddPathToLayer(s1, id, path);
            s2.layers == st.layers + [layer.(paths := [path])]
  {
    var (s1, layer) := AddLayer(st, id, name);
    var s2 := AddPathToLayer(s1, id, path);
    forall i | 0 <= i < |st.layers| ensures s2.layers[i] == st.layers[i] {
      assert s1.layers[i] == st.layers[i];
      assert st.layers[i] in st.layers;
    }
    assert s2.layers[|st.layers|] == layer.(paths := [path]);
  }

  /** A partial path record: each present field replaces the path's own.
      For the optional fields, `Some(None)` is a key present with an
      undefined value, which clears the field as the object spread does. */
  datatype PathUpdate = PathUpdate(
    id: Option<string>,
    commands: Option<seq<Command>>,
    fill: Option<Option<string>>,
    stroke: Option<Option<string>>,
    strokeWidth: Option<Option<real>>)

  const NoChange: PathUpdate := PathUpdate(None, None, None, None, None)

  function Pick<T>(given: Option<T>, own: T): T
  {
    if given.Some? then given.value else own
  }

  /** `{ ...path, ...updates }`. */
  function Merge(p: PathData, u: PathUpdate): (r: PathData)
  {
    PathData(Pick(u.id, p.id), Pick(u.commands, p.commands), Pick(u.fill, p.fill),
             Pick(u.stroke, p.stroke), Pick(u.strokeWidth, p.strokeWidth))
  }

  /** Merging keeps the absent fields and takes the present ones, and
      merging the same update twice is merging it once. */
  lemma MergeFields(p: PathData, u: PathUpdate)
    ensures Merge(p, NoChange) == p
    ensures Merge(Merge(p, u), u) == Merge(p, u)
    ensures u.fill.None? ==> Merge(p, u).fill == p.fill
    ensures u.commands.Some? ==> Merge(p, u).commands == u.commands.value
  {
  }

  function UpdateLayerPaths(l: Layer, pathId: string, u: PathUpdate): (r: Layer)
    ensures r == l.(paths := r.paths) && |r.paths| == |l.paths|
    ensures forall k | 0 <= k < |l.paths| ::
              r.paths[k] == if l.paths[k].id == pathId then Merge(l.paths[k], u) else l.paths[k]
  {
    l.(paths := seq(|l.paths|, k requires 0 <= k < |l.paths| =>
          var p := l.paths[k];
          if p.id == pathId then Merge(p, u) else p))
  }

  /** updatePath: every path with the id, in every layer, is merged with
      the update; layers and other paths are kept. */
  function UpdatePath(st: AnimationState, pathId: string, u: PathUpdate): (r: AnimationState)
    ensures r == st.(layers := r.layers) && |r.layers| == |st.layers|
    ensures forall i | 0 <= i < |st.layers| :: r.layers[i] == UpdateLayerPaths(st.layers[i], pathId, u)
  {
    st.(layers := seq(|st.layers|, i requires 0 <= i < |st.layers| => UpdateLayerPaths(st.layers[i], pathId, u)))
  }

  /** Applying an update twice is applying it once, even when it renames
      the path; an empty update changes nothing. */
  lemma UpdatePathIdempotent(st: AnimationState, pathId: string, u: PathUpdate)
    ensures UpdatePath(UpdatePath(st, pathId, u), pathId, u) == UpdatePath(st, pathId, u)
    ensures UpdatePath(st, pathId, NoChange) == st
  {
    var r1 := UpdatePath(st, pathId, u);
    var r2 := UpdatePath(r1, pathId, u);
    forall i | 0 <= i < |st.layers| ensures r2.layers[i] == r1.layers[i] {
      LayerUpdateIdempotent(st.layers[i], pathId, u);
    }
    var r0 := UpdatePath(st, pathId, NoChange);
    forall i | 0 <= i < |st.layers| ensures r0.layers[i] == st.layers[i] {
      var l := st.layers[i];
      var m := UpdateLayerPaths(l, pathId, NoChange);
      forall k | 0 <= k < |l.paths| ensures m.paths[k] == l.paths[k] {
        MergeFields(l.paths[k], NoChange);
      }
    }
  }

  lemma LayerUpdateIdempotent(l: Layer, pathId: string, u: PathUpdate)
    ensures UpdateLayerPaths(UpdateLayerPaths(l, pathId, u), pathId, u) == UpdateLayerPaths(l, pathId, u)
  {
    var m1 := UpdateLayerPaths(l, pathId, u);
    var m2 := UpdateLayerPaths(m1, pathId, u);
    forall k | 0 <= k < |l.paths| ensures m2.paths[k] == m1.paths[k] {
      MergeFields(l.paths[k], u);
    }
  }

  /** `newPoints[j] = p` on a copy: a write inside the list replaces one
      point, a write just past the end appends, a negative index adds no
      element. */
  function SetPoint(ps: seq<Point>, j: int, p: Point): (r: seq<Point>)
  {
    if 0 <= j < |ps| then ps[j := p]
    else if j == |ps| then ps + [p]
    else ps
  }

  /** The commands with point `pi` of command `ci` replaced. */
  function SetCommandPoint(cs: seq<Command>, ci: int, pi: int, p: Point): (r: seq<Command>)
    ensures |r| == |cs|
  {
    seq(|cs|, i requires 0 <= i < |cs| =>
      if i == ci then cs[i].(points := SetPoint(cs[i].points, pi, p)) else cs[i])
  }

  /** Exactly the one addressed point changes: every other command and every
      other point keeps its value, and tags and point counts are kept. */
  lemma SetCommandPointOnly(cs: seq<Command>, ci: int, pi: int, p: Point)
    requires 0 <= ci < |cs| && 0 <= pi < |cs[ci].points|
    ensures var r := SetCommandPoint(cs, ci, pi, p);
            r[ci].points[pi] == p &&
            (forall i | 0 <= i < |cs| :: r[i].kind == cs[i].kind && |r[i].points| == |cs[i].points|) &&
            (forall i, j | 0 <= i < |cs| && 0 <= j < |cs[i].points| && (i, j) != (ci, pi) ::
               r[i].points[j] == cs[i].points[j])
    ensures WellFormedPath(cs) ==> WellFormedPath(SetCommandPoint(cs, ci, pi, p))
  {
  }

  /** An out-of-range command index changes nothing. */
  lemma SetCommandPointOutside(cs: seq<Command>, ci: int, pi: int, p: Point)
    requires !(0 <= ci < |cs|)
    ensures SetCommandPoint(cs, ci, pi, p) == cs
  {
  }

  function MovePointInLayer(l: Layer, pathId: string, ci: int, pi: int, p: Point): (r: Layer)
    ensures r == l.(paths := r.paths) && |r.paths| == |l.paths|
    ensures forall k | 0 <= k < |l.paths| ::
              r.paths[k] == if l.paths[k].id == pathId
                            then l.paths[k].(commands := SetCommandPoint(l.paths[k].commands, ci, pi, p))
                            else l.paths[k]
  {
    l.(paths := seq(|l.paths|, k requires 0 <= k < |l.paths| =>
          var q := l.paths[k];
          if q.id == pathId then q.(commands := SetCommandPoint(q.commands, ci, pi, p)) else q))
  }

  /** updatePathPoint: in every path with the id, the one addressed point
      takes the new value. */
  function UpdatePathPoint(st: AnimationState, pathId: string, ci: int, pi: int, p: Point): (r: AnimationState)
    ensures r == st.(layers := r.layers) && |r.layers| == |st.layers|
    ensures forall i | 0 <= i < |st.layers| :: r.layers[i] == MovePointInLayer(st.layers[i], pathId, ci, pi, p)
  {
    st.(layers := seq(|st.layers|, i requires 0 <= i < |st.layers| => MovePointInLayer(st.layers[i], pathId, ci, pi, p)))
  }

  /** No path with the id: nothing changes. */
  lemma UpdatePathPointUnknown(st: AnimationState, pathId: string, ci: int, pi: int, p: Point)
    requires forall l, q | l in st.layers && q in l.paths :: q.id != pathId
    ensures UpdatePathPoint(st, pathId, ci, pi, p) == st
  {
    var r := UpdatePathPoint(st, pathId, ci, pi, p);
    forall i | 0 <= i < |st.layers| ensures r.layers[i] == st.layers[i] {
      var l := st.layers[i];
      assert l in st.layers;
      var m := MovePointInLayer(l, pathId, ci, pi, p);
      forall k | 0 <= k < |l.paths| ensures m.paths[k] == l.paths[k] {
        assert l.paths[k] in l.paths;
      }
    }
  }

  /** Moving a point is the commands update of updatePath with the moved
      commands, for a path whose id no other path shares. */
  lemma MovePointIsUpdate(st: AnimationState, path: PathData, li: nat, ci: int, pi: int, p: Point)
    requires li < |st.layers| && path in st.layers[li].paths
    requires forall l, q | l in st.layers && q in l.paths && q.id == path.id :: q == path
    ensures var moved := SetCommandPoint(path.commands, ci, pi, p);
            UpdatePathPoint(st, path.id, ci, pi, p)
            == UpdatePath(st, path.id, NoChange.(commands := Some(moved)))
  {
    var moved := SetCommandPoint(path.commands, ci, pi, p);
    var u := NoChange.(commands := Some(moved));
    var a := UpdatePathPoint(st, path.id, ci, pi, p);
    var b := UpdatePath(st, path.id, u);
    forall i | 0 <= i < |st.layers| ensures a.layers[i] == b.layers[i] {
      var l := st.layers[i];
      assert l in st.layers;
      var ma, mb := MovePointInLayer(l, path.id, ci, pi, p), UpdateLayerPaths(l, path.id, u);
      forall k | 0 <= k < |l.paths| ensures ma.paths[k] == mb.paths[k] {
        assert l.paths[k] in l.paths;
      }
    }
  }

  // ---------------------------------------------------------------------------
  // Import, clear and the keyframe actions
  // ---------------------------------------------------------------------------

  /** importLayers: the layers replace the old ones and nothing is animated
      any more: the preview shows exactly the visible imported paths,
      untouched, at frame 0. Only layers, keyframes and the current frame
      change. */
  function ImportLayers(st: AnimationState, layers: seq<Layer>): (r: AnimationState)
    ensures r == st.(layers := r.layers, keyframes := r.keyframes, currentFrame := r.currentFrame)
    ensures r.layers == layers && r.keyframes == [] && r.currentFrame == 0
    ensures Timeline.GetInterpolatedPaths(r) == Timeline.VisiblePaths(layers)
    ensures st.totalFrames >= 1 ==> FramesValid(r)
  {
    var r := st.(layers := layers, keyframes := [], currentFrame := 0);
    Timeline.ShownBeforeAnyKeyframe(r);
    r
  }

  /** clearAll: an empty animation, so an empty preview, at frame 0, with no
      selection; frame count, rate, canvas, zoom and pan are kept. */
  function ClearAll(st: AnimationState, ed: EditorState): (r: (AnimationState, EditorState))
    ensures r.0 == st.(layers := r.0.layers, keyframes := r.0.keyframes, currentFrame := r.0.currentFrame)
    ensures r.0.layers == [] && r.0.keyframes == []
    ensures Timeline.GetInterpolatedPaths(r.0) == []
    ensures st.totalFrames >= 1 ==> FramesValid(r.0)
    ensures r.1.selectedLayerId.None? && r.1.selectedPathId.None? && r.1.selectedPointIndex.None?
    ensures r.1.zoom == ed.zoom && r.1.panX == ed.panX && r.1.panY == ed.panY
  {
    (st.(layers := [], keyframes := [], currentFrame := 0),
     ed.(selectedLayerId := None, selectedPathId := None, selectedPointIndex := None))
  }

  /** The store's addKeyframe: the frame holds just the new keyframe, a
      snapshot of every layer's paths, and every other frame keeps its
      keyframes in their order. */
  function StoreAddKeyframe(st: AnimationState, frame: int, easing: Easing): (r: AnimationState)
    ensures r == st.(keyframes := r.keyframes)
    ensures Keyframes.SortedByFrame(r.keyframes)
    ensures forall g :: Keyframes.AtFrame(r.keyframes, g)
              == if g == frame then [Keyframe(frame, Keyframes.Snapshot(st.layers), easing)] else Keyframes.AtFrame(st.keyframes, g)
  {
    AddedFrames(st.keyframes, st.layers, frame, easing);
    st.(keyframes := Keyframes.AddKeyframe(st.keyframes, st.layers, frame, easing))
  }

  lemma AddedFrames(kfs: seq<Keyframe>, layers: seq<Layer>, frame: int, easing: Easing)
    ensures forall g :: Keyframes.AtFrame(Keyframes.AddKeyframe(kfs, layers, frame, easing), g)
              == if g == frame then [Keyframe(frame, Keyframes.Snapshot(layers), easing)] else Keyframes.AtFrame(kfs, g)
  {
    forall g
      ensures Keyframes.AtFrame(Keyframes.AddKeyframe(kfs, layers, frame, easing), g)
              == if g == frame then [Keyframe(frame, Keyframes.Snapshot(layers), easing)] else Keyframes.AtFrame(kfs, g)
    {
      Keyframes.AddKeyframeFrames(kfs, layers, frame, easing, g);
    }
  }

  /** The store's removeKeyframe: the frame is emptied, every other frame
      keeps its keyframes in their order, and a sorted list stays sorted. */
  function StoreRemoveKeyframe(st: AnimationState, frame: int): (r: AnimationState)
    ensures r == st.(keyframes := r.keyframes)
    ensures forall k | k in r.keyframes :: k in st.keyframes && k.frame != frame
    ensures forall g :: Keyframes.AtFrame(r.keyframes, g) == if g == frame then [] else Keyframes.AtFrame(st.keyframes, g)
    ensures Keyframes.SortedByFrame(st.keyframes) ==> Keyframes.SortedByFrame(r.keyframes)
  {
    RemovedFrames(st.keyframes, frame);
    st.(keyframes := Keyframes.RemoveKeyframe(st.keyframes, frame))
  }

  lemma RemovedFrames(kfs: seq<Keyframe>, frame: int)
    ensures forall g :: Keyframes.AtFrame(Keyframes.RemoveKeyframe(kfs, frame), g)
              == if g == frame then [] else Keyframes.AtFrame(kfs, g)
    ensures Keyframes.SortedByFrame(kfs) ==> Keyframes.SortedByFrame(Keyframes.RemoveKeyframe(kfs, frame))
  {
    forall g
      ensures Keyframes.AtFrame(Keyframes.RemoveKeyframe(kfs, frame), g) == if g == frame then [] else Keyframes.AtFrame(kfs, g)
    {
      Keyframes.RemoveKeyframeFrames(kfs, frame, g);
    }
    Keyframes.RemoveKeyframeFrames(kfs, frame, frame);
  }

  /** Every path of every layer, hidden ones included, has an id no other
      path shares. */
  predicate UniquePathIds(layers: seq<Layer>)
  {
    forall p, q | p in Keyframes.LayerPaths(layers) && q in Keyframes.LayerPaths(layers) && p.id == q.id :: p == q
  }

  /** Right after a keyframe is recorded at the current frame, the canvas
      at that frame shows every visible path as it is, just as with no
      keyframes at all, when path ids are unique. */
  lemma KeyframeAtCurrentFrameShowsSame(st: AnimationState, easing: Easing)
    requires UniquePathIds(st.layers)
    ensures Timeline.GetInterpolatedPaths(StoreAddKeyframe(st, st.currentFrame, easing))
            == Timeline.GetInterpolatedPaths(st.(keyframes := []))
  {
    var f := st.currentFrame;
    var r := StoreAddKeyframe(st, f, easing);
    var k := Keyframe(f, Keyframes.Snapshot(st.layers), easing);
    NewKeyframeAlone(st.keyframes, st.layers, f, easing);
    var ps := Timeline.VisiblePaths(st.layers);
    Timeline.InterpolatedPathsAreVisiblePaths(r.keyframes, st.layers, f);
    Timeline.InterpolatedPathsAreVisiblePaths([], st.layers, f);
    forall i | 0 <= i < |ps|
      ensures Timeline.InterpolatePathAtFrame(r.keyframes, ps[i], f) == Timeline.InterpolatePathAtFrame([], ps[i], f)
    {
      Timeline.AtKeyframe(r.keyframes, ps[i], k);
      Timeline.BeforeFirstKeyframe([], ps[i], f);
      VisibleIsAmongAll(st.layers, ps[i]);
      Keyframes.SnapshotRecordsUniquePath(st.layers, ps[i]);
    }
  }

  /** The keyframe just added is the only one at its frame. */
  lemma NewKeyframeAlone(kfs: seq<Keyframe>, layers: seq<Layer>, f: int, easing: Easing)
    ensures Timeline.AloneAtFrame(Keyframes.AddKeyframe(kfs, layers, f, easing),
                                  Keyframe(f, Keyframes.Snapshot(layers), easing))
  {
    var r := Keyframes.AddKeyframe(kfs, layers, f, easing);
    var k := Keyframe(f, Keyframes.Snapshot(layers), easing);
    Keyframes.AddKeyframeFrames(kfs, layers, f, easing, f);
    assert k in Keyframes.AtFrame(r, f);
    forall x | x in r && x.frame == f ensures x == k {
      Keyframes.AtFrameComplete(r, x);
    }
  }

  /** A visible path is a path of some layer. */
  lemma {:induction false} VisibleIsAmongAll(layers: seq<Layer>, p: PathData)
    requires p in Timeline.VisiblePaths(layers)
    ensures exists l | l in layers :: p in l.paths
  {
    var head := if layers[0].visible then layers[0].paths else [];
    assert Timeline.VisiblePaths(layers) == head + Timeline.VisiblePaths(layers[1..]);
    if p !in head {
      VisibleIsAmongAll(layers[1..], p);
      var l :| l in layers[1..] && p in l.paths;
      assert l in layers;
    }
  }
}

=== FILE: keyframes.dfy ===
/** The keyframe list of the animation store
    (src/lib/stores/animation.svelte.ts): the stable sort by frame, the
    snapshot of every path, adding a keyframe (replacing any at the same
    frame) and removing one. */
module Keyframes {
  import opened Types

  // ---------------------------------------------------------------------------
  // Order and per-frame views
  // ---------------------------------------------------------------------------

  predicate SortedByFrame(s: seq<Keyframe>)
  {
    forall i, j | 0 <= i < j < |s| :: s[i].frame <= s[j].frame
  }

  /** Ascending with no two keyframes at one frame. */
  predicate StrictlySorted(s: seq<Keyframe>)
  {
    forall i, j | 0 <= i < j < |s| :: s[i].frame < s[j].frame
  }

  /** The keyframes at frame `f`, in list order. */
  function AtFrame(s: seq<Keyframe>, f: int): (r: seq<Keyframe>)
    ensures forall k | k in r :: k in s && k.frame == f
    ensures (forall k | k in s :: k.frame != f) ==> r == []
  {
    if s == [] then []
    else (if s[0].frame == f then [s[0]] else []) + AtFrame(s[1..], f)
  }

  /** `filter(kf => kf.frame !== f)`. */
  function WithoutFrame(s: seq<Keyframe>, f: int): (r: seq<Keyframe>)
    ensures forall k | k in r :: k in s && k.frame != f
    ensures |r| <= |s|
  {
    if s == [] then []
    else (if s[0].frame != f then [s[0]] else []) + WithoutFrame(s[1..], f)
  }

  /** Every keyframe at `f` is in the view of frame `f`. */
  lemma {:induction false} AtFrameComplete(s: seq<Keyframe>, x: Keyframe)
    requires x in s
    ensures x in AtFrame(s, x.frame)
  {
    if s[0] != x {
      assert x in s[1..];
      AtFrameComplete(s[1..], x);
    }
  }

  lemma {:induction false} AtFrameAppend(a: seq<Keyframe>, b: seq<Keyframe>, f: int)
    ensures AtFrame(a + b, f) == AtFrame(a, f) + AtFrame(b, f)
  {
    if a == [] {
      assert a + b == b;
    } else {
      assert (a + b)[0] == a[0];
      assert (a + b)[1..] == a[1..] + b;
      AtFrameAppend(a[1..], b, f);
    }
  }

  /** Removing frame `f` leaves nothing at `f` and every other frame's
      keyframes as they were, in order. */
  lemma {:induction false} AtFrameWithout(s: seq<Keyframe>, f: int, g: int)
    ensures AtFrame(WithoutFrame(s, f), g) == (if g == f then [] else AtFrame(s, g))
  {
    if s != [] {
      AtFrameWithout(s[1..], f, g);
      var head := if s[0].frame != f then [s[0]] else [];
      AtFrameAppend(head, WithoutFrame(s[1..], f), g);
    }
  }

  /** Filtering out a frame keeps the list's order. */
  lemma WithoutFrameSorted(s: seq<Keyframe>, f: int)
    ensures SortedByFrame(s) ==> SortedByFrame(WithoutFrame(s, f))
    ensures StrictlySorted(s) ==> StrictlySorted(WithoutFrame(s, f))
  {
    if SortedByFrame(s) {
      WithoutFrameKeepsSorted(s, f);
    }
    if StrictlySorted(s) {
      WithoutFrameKeepsStrict(s, f);
    }
  }

  lemma {:induction false} WithoutFrameKeepsSorted(s: seq<Keyframe>, f: int)
    requires SortedByFrame(s)
    ensures SortedByFrame(WithoutFrame(s, f))
  {
    if s != [] {
      WithoutFrameKeepsSorted(s[1..], f);
      var r := WithoutFrame(s[1..], f);
      if s[0].frame != f {
        HeadLeast(s);
        assert forall x | x in r :: x in s;
        ConsSorted(s[0], r);
      } else {
        assert WithoutFrame(s, f) == [] + r;
      }
    }
  }

  lemma {:induction false} WithoutFrameKeepsStrict(s: seq<Keyframe>, f: int)
    requires StrictlySorted(s)
    ensures StrictlySorted(WithoutFrame(s, f))
  {
    if s != [] {
      assert StrictlySorted(s[1..]);
      WithoutFrameKeepsStrict(s[1..], f);
      var r := WithoutFrame(s[1..], f);
      if s[0].frame != f {
        HeadStrictlyLeast(s);
        ConsStrict(s[0], r);
      } else {
        assert WithoutFrame(s, f) == [] + r;
      }
    }
  }

  lemma HeadStrictlyLeast(s: seq<Keyframe>)
    requires StrictlySorted(s) && s != []
    ensures forall x | x in s[1..] :: s[0].frame < x.frame
  {
    forall x | x in s[1..] ensures s[0].frame < x.frame {
      var i :| 0 <= i < |s[1..]| && s[1..][i] == x;
      assert s[i + 1] == x;
    }
  }

  lemma ConsStrict(h: Keyframe, t: seq<Keyframe>)
    requires StrictlySorted(t) && forall x | x in t :: h.frame < x.frame
    ensures StrictlySorted([h] + t)
  {
    var r := [h] + t;
    forall i, j | 0 <= i < j < |r| ensures r[i].frame < r[j].frame {
      assert r[j] == t[j - 1];
      if i > 0 { assert r[i] == t[i - 1]; }
    }
  }

  /** Removing a frame twice is removing it once. */
  lemma {:induction false} WithoutFrameIdempotent(s: seq<Keyframe>, f: int)
    ensures WithoutFrame(WithoutFrame(s, f), f) == WithoutFrame(s, f)
  {
    if s != [] {
      WithoutFrameIdempotent(s[1..], f);
      var head := if s[0].frame != f then [s[0]] else [];
      WithoutFrameAppend(head, WithoutFrame(s[1..], f), f);
    }
  }

  lemma {:induction false} WithoutFrameAppend(a: seq<Keyframe>, b: seq<Keyframe>, f: int)
    ensures WithoutFrame(a + b, f) == WithoutFrame(a, f) + WithoutFrame(b, f)
  {
    if a == [] {
      assert a + b == b;
    } else {
      var head := if a[0].frame != f then [a[0]] else [];
      assert (a + b)[0] == a[0];
      assert (a + b)[1..] == a[1..] + b;
      assert WithoutFrame(a + b, f) == head + WithoutFrame(a[1..] + b, f);
      WithoutFrameAppend(a[1..], b, f);
      assert WithoutFrame(a, f) == head + WithoutFrame(a[1..], f);
      Assoc(head, WithoutFrame(a[1..], f), WithoutFrame(b, f));
    }
  }

  // ---------------------------------------------------------------------------
  // The stable sort by frame
  // ---------------------------------------------------------------------------

  /** Places `k` after every keyframe whose frame is at most its own. */
  function Insert(s: seq<Keyframe>, k: Keyframe): (r: seq<Keyframe>)
    ensures |r| == |s| + 1
    ensures multiset(r) == multiset(s) + multiset{k}
    ensures forall x | x in r :: x in s || x == k
  {
    if s == [] then [k]
    else if k.frame < s[0].frame then [k] + s
    else
      assert s == [s[0]] + s[1..];
      [s[0]] + Insert(s[1..], k)
  }

  /** The head of a sorted list has the least frame. */
  lemma HeadLeast(s: seq<Keyframe>)
    requires SortedByFrame(s) && s != []
    ensures forall x | x in s :: s[0].frame <= x.frame
  {
    forall x | x in s ensures s[0].frame <= x.frame {
      var i :| 0 <= i < |s| && s[i] == x;
      assert i == 0 || s[0].frame <= s[i].frame;
    }
  }

  /** A list whose head is no later than anything after it, and whose tail
      is sorted, is sorted. */
  lemma ConsSorted(h: Keyframe, t: seq<Keyframe>)
    requires SortedByFrame(t) && forall x | x in t :: h.frame <= x.frame
    ensures SortedByFrame([h] + t)
  {
    var r := [h] + t;
    forall i, j | 0 <= i < j < |r| ensures r[i].frame <= r[j].frame {
      assert r[j] == t[j - 1];
      if i > 0 { assert r[i] == t[i - 1]; }
    }
  }

  lemma {:induction false} InsertSorted(s: seq<Keyframe>, k: Keyframe)
    requires SortedByFrame(s)
    ensures SortedByFrame(Insert(s, k))
  {
    if s == [] {
    } else if k.frame < s[0].frame {
      HeadLeast(s);
      ConsSorted(k, s);
    } else {
      assert SortedByFrame(s[1..]);
      InsertSorted(s[1..], k);
      var tail := Insert(s[1..], k);
      HeadLeast(s);
      assert forall x | x in s[1..] :: x in s;
      ConsSorted(s[0], tail);
    }
  }

  /** `[...keyframes].sort((a, b) => a.frame - b.frame)`: JavaScript's sort
      is stable, and so is this insertion sort. */
  function SortByFrame(s: seq<Keyframe>): (r: seq<Keyframe>)
    ensures |r| == |s|
    ensures multiset(r) == multiset(s)
    ensures SortedByFrame(r)
  {
    if s == [] then []
    else
      assert s == s[..|s| - 1] + [s[|s| - 1]];
      var sorted := SortByFrame(s[..|s| - 1]);
      InsertSorted(sorted, s[|s| - 1]);
      Insert(sorted, s[|s| - 1])
  }

  lemma SortKeepsMembers(s: seq<Keyframe>)
    ensures forall k :: k in SortByFrame(s) <==> k in s
  {
    var r := SortByFrame(s);
    forall k ensures k in r <==> k in s {
      assert k in r <==> k in multiset(r);
      assert k in s <==> k in multiset(s);
    }
  }

  /** At a frame no keyframe of a sorted list exceeds, insertion appends. */
  lemma {:induction false} InsertAtEnd(s: seq<Keyframe>, k: Keyframe)
    requires forall x | x in s :: x.frame <= k.frame
    ensures Insert(s, k) == s + [k]
  {
    if s != [] {
      InsertAtEnd(s[1..], k);
      assert s == [s[0]] + s[1..];
    }
  }

  lemma AtFrameSingle(k: Keyframe, f: int)
    ensures AtFrame([k], f) == (if k.frame == f then [k] else [])
  {
    assert [k][1..] == [];
  }

  /** A keyframe in front of a list. */
  lemma AtFrameCons(k: Keyframe, s: seq<Keyframe>, f: int)
    ensures AtFrame([k] + s, f) == (if k.frame == f then [k] else []) + AtFrame(s, f)
  {
    AtFrameAppend([k], s, f);
    AtFrameSingle(k, f);
  }

  lemma {:induction false} InsertAtFrame(s: seq<Keyframe>, k: Keyframe, f: int)
    requires SortedByFrame(s)
    ensures AtFrame(Insert(s, k), f) == AtFrame(s, f) + (if k.frame == f then [k] else [])
  {
    if s == [] {
      AtFrameSingle(k, f);
    } else if k.frame < s[0].frame {
      assert Insert(s, k) == [k] + s;
      AtFrameCons(k, s, f);
      if k.frame == f {
        forall x | x in s ensures x.frame != f {
          var i :| 0 <= i < |s| && s[i] == x;
          assert s[0].frame <= s[i].frame;
        }
        assert AtFrame(s, f) == [];
      }
    } else {
      assert s == [s[0]] + s[1..];
      var tail := Insert(s[1..], k);
      assert Insert(s, k) == [s[0]] + tail;
      assert SortedByFrame(s[1..]);
      InsertAtFrame(s[1..], k, f);
      AtFrameCons(s[0], tail, f);
      AtFrameCons(s[0], s[1..], f);
      var h := if s[0].frame == f then [s[0]] else [];
      Assoc(h, AtFrame(s[1..], f), if k.frame == f then [k] else []);
    }
  }

  lemma Assoc(a: seq<Keyframe>, b: seq<Keyframe>, c: seq<Keyframe>)
    ensures a + (b + c) == (a + b) + c
  {
  }

  /** Stability: sorting keeps the keyframes of each frame in their
      original relative order. */
  lemma {:induction false} SortStable(s: seq<Keyframe>, f: int)
    ensures AtFrame(SortByFrame(s), f) == AtFrame(s, f)
  {
    if s != [] {
      var init, last := s[..|s| - 1], s[|s| - 1];
      assert s == init + [last];
      var sorted := SortByFrame(init);
      assert SortByFrame(s) == Insert(sorted, last);
      SortStable(init, f);
      InsertAtFrame(sorted, last, f);
      AtFrameAppend(init, [last], f);
      AtFrameSingle(last, f);
    }
  }

  /** The last keyframe of a sorted list has the greatest frame. */
  lemma LastGreatest(s: seq<Keyframe>)
    requires SortedByFrame(s) && s != []
    ensures forall x | x in s[..|s| - 1] :: x.frame <= s[|s| - 1].frame
  {
    forall x | x in s[..|s| - 1] ensures x.frame <= s[|s| - 1].frame {
      var i :| 0 <= i < |s| - 1 && s[..|s| - 1][i] == x;
      assert s[i] == x;
    }
  }

  /** Sorting an already sorted list changes nothing. */
  lemma {:induction false} SortSortedIdentity(s: seq<Keyframe>)
    requires SortedByFrame(s)
    ensures SortByFrame(s) == s
  {
    if s != [] {
      var init, last := s[..|s| - 1], s[|s| - 1];
      assert s == init + [last];
      assert SortByFrame(s) == Insert(SortByFrame(init), last);
      assert SortedByFrame(init);
      SortSortedIdentity(init);
      LastGreatest(s);
      InsertAtEnd(init, last);
    }
  }

  /** Inserting a keyframe at a frame the strictly sorted list does not hold
      keeps it strictly sorted. */
  lemma {:induction false} InsertStrict(s: seq<Keyframe>, k: Keyframe)
    requires StrictlySorted(s) && forall x | x in s :: x.frame != k.frame
    ensures StrictlySorted(Insert(s, k))
  {
    if s != [] && k.frame > s[0].frame {
      assert StrictlySorted(s[1..]);
      assert forall x | x in s[1..] :: x in s;
      InsertStrict(s[1..], k);
      var tail := Insert(s[1..], k);
      forall x | x in tail ensures s[0].frame < x.frame {
        if x != k {
          var i :| 0 <= i < |s[1..]| && s[1..][i] == x;
          assert s[i + 1] == x;
        }
      }
    } else if s != [] {
      forall x | x in s ensures k.frame < x.frame {
        var i :| 0 <= i < |s| && s[i] == x;
        assert i == 0 || s[0].frame < s[i].frame;
      }
    }
  }

  // ---------------------------------------------------------------------------
  // Snapshots
  // ---------------------------------------------------------------------------

  /** Every path of every layer, visible or not, layer by layer. */
  function LayerPaths(layers: seq<Layer>): (ps: seq<PathData>)
    ensures forall l, p | l in layers && p in l.paths :: p in ps
    ensures forall p | p in ps :: exists l | l in layers :: p in l.paths
  {
    if layers == [] then []
    else
      var rest := LayerPaths(layers[1..]);
      assert forall l | l in layers[1..] :: l in layers;
      layers[0].paths + rest
  }

  /** The keys of a snapshot: one entry per path id; a later path with an id
      already seen overwrites the earlier entry, as `Map.set` does. */
  function SnapshotOf(ps: seq<PathData>): (m: map<string, seq<Command>>)
    ensures m.Keys == set p | p in ps :: p.id
    ensures forall i | 0 <= i < |ps| && (forall j | i < j < |ps| :: ps[j].id != ps[i].id) ::
              m[ps[i].id] == ps[i].commands
  {
    if ps == [] then map[]
    else
      var init, last := ps[..|ps| - 1], ps[|ps| - 1];
      assert ps == init + [last];
      var m0 := SnapshotOf(init);
      m0[last.id := last.commands]
  }

  /** The snapshot of all current path states taken by addKeyframe. */
  function Snapshot(layers: seq<Layer>): (m: map<string, seq<Command>>)
    ensures forall l, p | l in layers && p in l.paths :: p.id in m
    ensures forall id | id in m :: exists l, p | l in layers && p in l.paths :: p.id == id
  {
    SnapshotOf(LayerPaths(layers))
  }

  /** The last position of `p` in `ps`. */
  lemma {:induction false} LastIndex(ps: seq<PathData>, p: PathData) returns (i: nat)
    requires p in ps
    ensures i < |ps| && ps[i] == p && forall j | i < j < |ps| :: ps[j] != p
  {
    if ps[|ps| - 1] == p {
      i := |ps| - 1;
    } else {
      var init := ps[..|ps| - 1];
      assert p in init by {
        var k :| 0 <= k < |ps| && ps[k] == p;
        assert init[k] == p;
      }
      i := LastIndex(init, p);
      assert ps[i] == init[i];
    }
  }

  /** A path whose id no other path shares is recorded with exactly its
      commands, whether or not its layer is visible. */
  lemma SnapshotRecordsUniquePath(layers: seq<Layer>, p: PathData)
    requires exists l | l in layers :: p in l.paths
    requires forall q | q in LayerPaths(layers) && q.id == p.id :: q == p
    ensures p.id in Snapshot(layers) && Snapshot(layers)[p.id] == p.commands
  {
    var ps := LayerPaths(layers);
    var i := LastIndex(ps, p);
    forall j | i < j < |ps| ensures ps[j].id != ps[i].id {
      assert ps[j] in ps;
    }
  }

  // ---------------------------------------------------------------------------
  // addKeyframe and removeKeyframe
  // ---------------------------------------------------------------------------

  /** addKeyframe: drop any keyframe at `f`, snapshot every path, append the
      new keyframe and sort. */
  function AddKeyframe(kfs: seq<Keyframe>, layers: seq<Layer>, f: int, easing: Easing): (r: seq<Keyframe>)
    ensures SortedByFrame(r)
    ensures multiset(r) == multiset(WithoutFrame(kfs, f)) + multiset{Keyframe(f, Snapshot(layers), easing)}
  {
    SortByFrame(WithoutFrame(kfs, f) + [Keyframe(f, Snapshot(layers), easing)])
  }

  /** removeKeyframe: `filter(kf => kf.frame !== f)`. */
  function RemoveKeyframe(kfs: seq<Keyframe>, f: int): (r: seq<Keyframe>)
    ensures forall k | k in r :: k in kfs && k.frame != f
  {
    WithoutFrame(kfs, f)
  }

  /** After adding at `f` exactly one keyframe sits at `f` — the new one —
      and every other frame keeps its keyframes, in the same order. */
  lemma AddKeyframeFrames(kfs: seq<Keyframe>, layers: seq<Layer>, f: int, easing: Easing, g: int)
    ensures AtFrame(AddKeyframe(kfs, layers, f, easing), g)
            == (if g == f then [Keyframe(f, Snapshot(layers), easing)] else AtFrame(kfs, g))
  {
    var k := Keyframe(f, Snapshot(layers), easing);
    var x := WithoutFrame(kfs, f);
    assert AddKeyframe(kfs, layers, f, easing) == SortByFrame(x + [k]);
    SortStable(x + [k], g);
    AtFrameAppend(x, [k], g);
    AtFrameSingle(k, g);
    AtFrameWithout(kfs, f, g);
    if g == f {
      assert AtFrame(x, g) + AtFrame([k], g) == [] + [k];
    } else {
      assert AtFrame(x, g) + AtFrame([k], g) == AtFrame(kfs, g) + [];
    }
  }

  /** Adding keeps a list ascending with unique frames. */
  lemma AddKeyframeStrict(kfs: seq<Keyframe>, layers: seq<Layer>, f: int, easing: Easing)
    requires StrictlySorted(kfs)
    ensures StrictlySorted(AddKeyframe(kfs, layers, f, easing))
  {
    var k := Keyframe(f, Snapshot(layers), easing);
    var x := WithoutFrame(kfs, f);
    WithoutFrameSorted(kfs, f);
    assert SortByFrame(x + [k]) == Insert(SortByFrame(x), k) by {
      assert (x + [k])[..|x + [k]| - 1] == x;
    }
    SortSortedIdentity(x);
    InsertStrict(x, k);
  }

  /** Removing `f` leaves nothing at `f` and every other frame's keyframes
      unchanged and in order; order and uniqueness are kept. */
  lemma RemoveKeyframeFrames(kfs: seq<Keyframe>, f: int, g: int)
    ensures AtFrame(RemoveKeyframe(kfs, f), g) == (if g == f then [] else AtFrame(kfs, g))
    ensures SortedByFrame(kfs) ==> SortedByFrame(RemoveKeyframe(kfs, f))
    ensures StrictlySorted(kfs) ==> StrictlySorted(RemoveKeyframe(kfs, f))
  {
    AtFrameWithout(kfs, f, g);
    WithoutFrameSorted(kfs, f);
  }

  /** On a sorted list, removing the frame just added gives the list with
      that frame removed. */
  lemma RemoveUndoesAdd(kfs: seq<Keyframe>, layers: seq<Layer>, f: int, easing: Easing)
    requires SortedByFrame(kfs)
    ensures RemoveKeyframe(AddKeyframe(kfs, layers, f, easing), f) == RemoveKeyframe(kfs, f)
  {
    var k := Keyframe(f, Snapshot(layers), easing);
    var x := WithoutFrame(kfs, f);
    WithoutFrameSorted(kfs, f);
    assert SortByFrame(x + [k]) == Insert(SortByFrame(x), k) by {
      assert (x + [k])[..|x + [k]| - 1] == x;
    }
    SortSortedIdentity(x);
    InsertWithout(x, k);
    WithoutFrameIdempotent(kfs, f);
  }

  lemma {:induction false} InsertWithout(s: seq<Keyframe>, k: Keyframe)
    ensures WithoutFrame(Insert(s, k), k.frame) == WithoutFrame(s, k.frame)
  {
    if s == [] {
    } else if k.frame < s[0].frame {
      WithoutFrameAppend([k], s, k.frame);
    } else {
      InsertWithout(s[1..], k);
      WithoutFrameAppend([s[0]], Insert(s[1..], k), k.frame);
      WithoutFrameAppend([s[0]], s[1..], k.frame);
      assert s == [s[0]] + s[1..];
    }
  }

  /** Adding twice at one frame is adding once with the second call's
      snapshot and easing. */
  lemma AddKeyframeReplaces(kfs: seq<Keyframe>, layers: seq<Layer>, f: int, e1: Easing, e2: Easing)
    requires SortedByFrame(kfs)
    ensures AddKeyframe(AddKeyframe(kfs, layers, f, e1), layers, f, e2) == AddKeyframe(kfs, layers, f, e2)
  {
    RemoveUndoesAdd(kfs, layers, f, e1);
  }
}

=== FILE: layer_store.dfy ===
/** The legacy writable store (src/lib/stores/animationStore.ts): its
    initial document, the two layer toggles and reset. */
module LayerStore {
  import opened Types
  import Timeline
  import Lottie

  /** The store's initial document: two visible layers, the second locked,
      and a hidden background. */
  const InitialStoreState: AnimationState := AnimationState(
    [Layer("layer-1", "Layer 1", [], true, false),
     Layer("layer-2", "Layer 2", [], true, true),
     Layer("layer-3", "Background", [], false, false)],
    [], 0, 100, 30, 1920.0, 1080.0, false)

  /** toggleLayerVisibility: the layers with the id have `visible` flipped;
      nothing else changes. */
  function ToggleLayerVisibility(st: AnimationState, id: string): (r: AnimationState)
    ensures r == st.(layers := r.layers) && |r.layers| == |st.layers|
    ensures forall i | 0 <= i < |st.layers| ::
      r.layers[i] == st.layers[i].(visible := r.layers[i].visible) &&
      (r.layers[i].visible <==> (st.layers[i].visible != (st.layers[i].id == id)))
  {
    st.(layers := seq(|st.layers|, i requires 0 <= i < |st.layers| =>
      if st.layers[i].id == id then st.layers[i].(visible := !st.layers[i].visible) else st.layers[i]))
  }

  /** toggleLayerLock: the layers with the id have `locked` flipped;
      nothing else changes, `visible` included. */
  function ToggleLayerLock(st: AnimationState, id: string): (r: AnimationState)
    ensures r == st.(layers := r.layers) && |r.layers| == |st.layers|
    ensures forall i | 0 <= i < |st.layers| ::
      r.layers[i] == st.layers[i].(locked := r.layers[i].locked) &&
      (r.layers[i].locked <==> (st.layers[i].locked != (st.layers[i].id == id)))
  {
    st.(layers := seq(|st.layers|, i requires 0 <= i < |st.layers| =>
      if st.layers[i].id == id then st.layers[i].(locked := !st.layers[i].locked) else st.layers[i]))
  }

  /** reset: back to the initial document, whatever the state was. */
  function Reset(st: AnimationState): (r: AnimationState)
    ensures |r.layers| == 3 && r.keyframes == [] && forall i | 0 <= i < 3 :: r.layers[i].paths == []
    ensures r.layers[0].id == "layer-1" && r.layers[0].name == "Layer 1"
    ensures r.layers[1].id == "layer-2" && r.layers[1].name == "Layer 2"
    ensures r.layers[2].id == "layer-3" && r.layers[2].name == "Background"
    ensures r.layers[0].visible && !r.layers[0].locked
    ensures r.layers[1].visible && r.layers[1].locked
    ensures !r.layers[2].visible && !r.layers[2].locked
    ensures r.currentFrame == 0 && r.totalFrames == 100 && r.fps == 30
    ensures r.width == 1920.0 && r.height == 1080.0 && !r.playing
  {
    InitialStoreState
  }

  // ---------------------------------------------------------------------------
  // Properties
  // ---------------------------------------------------------------------------

  /** Toggling the same layer twice restores the state, for either flag. */
  lemma ToggleTwice(st: AnimationState, id: string)
    ensures ToggleLayerVisibility(ToggleLayerVisibility(st, id), id) == st
    ensures ToggleLayerLock(ToggleLayerLock(st, id), id) == st
  {
    var v := ToggleLayerVisibility(ToggleLayerVisibility(st, id), id);
    assert v.layers == st.layers;
    var l := ToggleLayerLock(ToggleLayerLock(st, id), id);
    assert l.layers == st.layers;
  }

  /** An id no layer has leaves the state as it is. */
  lemma ToggleUnknown(st: AnimationState, id: string)
    requires forall i | 0 <= i < |st.layers| :: st.layers[i].id != id
    ensures ToggleLayerVisibility(st, id) == st && ToggleLayerLock(st, id) == st
  {
    assert ToggleLayerVisibility(st, id).layers == st.layers;
    assert ToggleLayerLock(st, id).layers == st.layers;
  }

  /** The two toggles act on different flags, so their order does not
      matter. */
  lemma TogglesCommute(st: AnimationState, a: string, b: string)
    ensures ToggleLayerLock(ToggleLayerVisibility(st, a), b) == ToggleLayerVisibility(ToggleLayerLock(st, b), a)
  {
    var x := ToggleLayerLock(ToggleLayerVisibility(st, a), b);
    var y := ToggleLayerVisibility(ToggleLayerLock(st, b), a);
    assert x.layers == y.layers;
  }

  /** Locking only guards editing: the paths shown on the canvas do not
      change. */
  lemma LockKeepsCanvas(st: AnimationState, id: string)
    ensures Timeline.VisiblePaths(ToggleLayerLock(st, id).layers) == Timeline.VisiblePaths(st.layers)
  {
    SameViewSameVisiblePaths(ToggleLayerLock(st, id).layers, st.layers);
  }

  /** Layer lists that agree on visibility and paths show the same paths. */
  lemma {:induction false} SameViewSameVisiblePaths(a: seq<Layer>, b: seq<Layer>)
    requires |a| == |b| && forall i | 0 <= i < |a| :: a[i].visible == b[i].visible && a[i].paths == b[i].paths
    ensures Timeline.VisiblePaths(a) == Timeline.VisiblePaths(b)
  {
    if a != [] {
      SameViewSameVisiblePaths(a[1..], b[1..]);
    }
  }

  /** Locking does not change the exported animation either. */
  lemma LockKeepsExport(st: AnimationState, id: string)
    requires Lottie.Exportable(st)
    ensures Lottie.Exportable(ToggleLayerLock(st, id))
    ensures Lottie.ExportToLottie(ToggleLayerLock(st, id)) == Lottie.ExportToLottie(st)
  {
    var t := ToggleLayerLock(st, id);
    forall i | 0 <= i < |t.layers| && t.layers[i].visible
      ensures Lottie.MakeLayer(t.layers[i], i, t) == Lottie.MakeLayer(st.layers[i], i, st)
    {
      assert t.layers[i].paths == st.layers[i].paths && t.layers[i].name == st.layers[i].name;
    }
    SameExport(t, st, 0);
  }

  /** Two exportable states that differ only in what the exporter does not
      read export the same layers. */
  lemma {:induction false} SameExport(s: AnimationState, t: AnimationState, from: nat)
    requires Lottie.Exportable(s) && Lottie.Exportable(t)
    requires |s.layers| == |t.layers|
    requires forall i | 0 <= i < |s.layers| :: s.layers[i].visible == t.layers[i].visible
    requires forall i | 0 <= i < |s.layers| && s.layers[i].visible ::
      Lottie.MakeLayer(s.layers[i], i, s) == Lottie.MakeLayer(t.layers[i], i, t)
    ensures Lottie.ExportLayers(s, from) == Lottie.ExportLayers(t, from)
    decreases |s.layers| - from
  {
    if from < |s.layers| {
      SameExport(s, t, from + 1);
    }
  }

  /** After a reset the canvas shows nothing and the frame invariant holds. */
  lemma ResetShowsNothing(st: AnimationState)
    ensures Timeline.VisiblePaths(Reset(st).layers) == []
    ensures 0 <= Reset(st).currentFrame < Reset(st).totalFrames
  {
    var ls := Reset(st).layers;
    assert ls[1..][1..][1..] == [];
  }
}

=== FILE: lottie.dfy ===
/** The Lottie exporter (src/lib/utils/lottie-export.ts): command lists
    become Lottie path data (vertices with tangents relative to them), a path
    held by two or more keyframes becomes an animated shape ending in a hold,
    and every visible layer becomes a shape layer of groups. */
module Lottie {
  import opened Types
  import Keyframes
  import Timeline
  import Color

  // ---------------------------------------------------------------------------
  // commandsToLottiePathData
  // ---------------------------------------------------------------------------

  /** Lottie path data: in-tangents, out-tangents, vertices, closed flag.
      Tangents are offsets from their vertex. */
  datatype ShapeData = ShapeData(i: seq<Point>, o: seq<Point>, v: seq<Point>, c: bool)

  /** The converter's working state: the three lists, the closed flag and
      the current point. */
  datatype Builder = Builder(v: seq<Point>, i: seq<Point>, o: seq<Point>, closed: bool, cur: Point)

  predicate Aligned(b: Builder)
  {
    |b.v| == |b.i| == |b.o|
  }

  /** The cubic handle two thirds of the way from an end point toward a
      quadratic control point. */
  function Elevate(p: Point, ctrl: Point): Point
  {
    Point(Elevate1(p.x, ctrl.x), Elevate1(p.y, ctrl.y))
  }

  function Elevate1(p: real, ctrl: real): real
  {
    p + (2.0 / 3.0) * (ctrl - p)
  }

  /** A curve to `e` with handles `c1`, `c2`: the previous vertex, if any,
      gets its out-tangent toward `c1`; `e` is appended with its in-tangent
      toward `c2`. */
  function Curve(b: Builder, c1: Point, c2: Point, e: Point): (r: Builder)
    requires Aligned(b)
    ensures Aligned(r) && |r.v| == |b.v| + 1
  {
    var o := if |b.v| > 0 then b.o[|b.o| - 1 := Minus(c1, b.v[|b.v| - 1])] else b.o;
    Builder(b.v + [e], b.i + [Minus(c2, e)], o + [Origin], b.closed, e)
  }

  function Step(b: Builder, c: Command): (r: Builder)
    requires Aligned(b) && WellFormed(c)
    ensures Aligned(r)
  {
    match c.kind
    case MoveTo => Builder(b.v + [c.points[0]], b.i + [Origin], b.o + [Origin], b.closed, c.points[0])
    case LineTo => Builder(b.v + [c.points[0]], b.i + [Origin], b.o + [Origin], b.closed, c.points[0])
    case CubicTo => Curve(b, c.points[0], c.points[1], c.points[2])
    case QuadTo => Curve(b, Elevate(b.cur, c.points[0]), Elevate(c.points[1], c.points[0]), c.points[1])
    case ClosePath => b.(closed := true)
  }

  function Build(cs: seq<Command>): (b: Builder)
    requires WellFormedPath(cs)
    ensures Aligned(b)
  {
    if cs == [] then Builder([], [], [], false, Origin)
    else Step(Build(cs[..|cs| - 1]), cs[|cs| - 1])
  }

  /** commandsToLottiePathData. */
  function CommandsToLottiePathData(cs: seq<Command>): (d: ShapeData)
    requires WellFormedPath(cs)
    ensures |d.v| == |d.i| == |d.o|
  {
    var b := Build(cs);
    ShapeData(b.i, b.o, b.v, b.closed)
  }

  // ---------------------------------------------------------------------------
  // Reference definition: one vertex per drawing command
  // ---------------------------------------------------------------------------

  /** The commands that draw, that is all but Z, in order. */
  function Drawing(cs: seq<Command>): (ds: seq<Command>)
    requires WellFormedPath(cs)
    ensures WellFormedPath(ds) && |ds| <= |cs|
    ensures forall k | 0 <= k < |ds| :: ds[k].kind != ClosePath
  {
    if cs == [] then []
    else
      var c := cs[|cs| - 1];
      Drawing(cs[..|cs| - 1]) + (if c.kind == ClosePath then [] else [c])
  }

  predicate HasClose(cs: seq<Command>)
  {
    exists k | 0 <= k < |cs| :: cs[k].kind == ClosePath
  }

  predicate IsCurve(c: Command)
  {
    c.kind == CubicTo || c.kind == QuadTo
  }

  predicate DrawingPath(ds: seq<Command>)
  {
    WellFormedPath(ds) && forall k | 0 <= k < |ds| :: ds[k].kind != ClosePath
  }

  /** Where drawing command `k` starts: the end of the one before it, or the
      origin for the first. */
  function Before(ds: seq<Command>, k: nat): Point
    requires DrawingPath(ds) && k <= |ds|
  {
    if k == 0 then Origin else EndPoint(ds[k - 1])
  }

  /** The first and second cubic handles of curve `k` in absolute terms; a
      quadratic is raised to a cubic from where it starts. */
  function Handle1(ds: seq<Command>, k: nat): Point
    requires DrawingPath(ds) && k < |ds| && IsCurve(ds[k])
  {
    if ds[k].kind == CubicTo then ds[k].points[0] else Elevate(Before(ds, k), ds[k].points[0])
  }

  function Handle2(ds: seq<Command>, k: nat): Point
    requires DrawingPath(ds) && k < |ds| && IsCurve(ds[k])
  {
    if ds[k].kind == CubicTo then ds[k].points[1] else Elevate(ds[k].points[1], ds[k].points[0])
  }

  /** The in-tangent of vertex `k`: toward its curve's second handle, zero
      after a straight segment. */
  function InAt(ds: seq<Command>, k: nat): Point
    requires DrawingPath(ds) && k < |ds|
  {
    if IsCurve(ds[k]) then Minus(Handle2(ds, k), EndPoint(ds[k])) else Origin
  }

  /** The out-tangent of vertex `k`: toward the first handle of the next
      drawing command when that is a curve, zero otherwise. */
  function OutAt(ds: seq<Command>, k: nat): Point
    requires DrawingPath(ds) && k < |ds|
  {
    if k + 1 < |ds| && IsCurve(ds[k + 1]) then Minus(Handle1(ds, k + 1), EndPoint(ds[k])) else Origin
  }

  /** Vertex `k` is where the `k`-th drawing command ends, with the
      tangents above. */
  predicate Vertices(b: Builder, ds: seq<Command>)
    requires DrawingPath(ds) && Aligned(b) && |b.v| == |ds|
  {
    forall k | 0 <= k < |ds| :: b.v[k] == EndPoint(ds[k]) && b.i[k] == InAt(ds, k) && b.o[k] == OutAt(ds, k)
  }

  /** What the converter builds: the vertices above, a closed flag set
      exactly when some command is Z, and the last vertex as current point. */
  predicate Describes(b: Builder, cs: seq<Command>)
    requires WellFormedPath(cs)
  {
    var ds := Drawing(cs);
    Aligned(b) && |b.v| == |ds| && b.closed == HasClose(cs) && b.cur == Before(ds, |ds|) && Vertices(b, ds)
  }

  lemma {:induction false} BuildDescribes(cs: seq<Command>)
    requires WellFormedPath(cs)
    ensures Describes(Build(cs), cs)
  {
    if cs != [] {
      var init := cs[..|cs| - 1];
      var c := cs[|cs| - 1];
      assert init + [c] == cs;
      assert WellFormedPath(init) && WellFormed(c);
      BuildDescribes(init);
      CloseStep(init, c);
      DrawingSnoc(init, c);
      var b := Build(init);
      var ds := Drawing(init);
      assert Build(cs) == Step(b, c);
      if c.kind == ClosePath {
        assert Drawing(cs) == ds;
      } else {
        assert Drawing(cs) == ds + [c];
        if IsCurve(c) {
          CurveVertices(b, ds, c);
        } else {
          StraightVertices(b, ds, c);
        }
      }
    }
  }

  /** Appending a command sets the closed flag exactly when it is Z or the
      flag was already set. */
  lemma CloseStep(cs: seq<Command>, c: Command)
    ensures HasClose(cs + [c]) == (HasClose(cs) || c.kind == ClosePath)
  {
    var s := cs + [c];
    assert s[|cs|] == c;
    if HasClose(cs) {
      var k :| 0 <= k < |cs| && cs[k].kind == ClosePath;
      assert s[k] == cs[k];
    }
  }

  lemma DrawingSnoc(cs: seq<Command>, c: Command)
    requires WellFormedPath(cs) && WellFormed(c)
    ensures WellFormedPath(cs + [c])
    ensures Drawing(cs + [c]) == Drawing(cs) + (if c.kind == ClosePath then [] else [c])
  {
    var s := cs + [c];
    assert s[..|s| - 1] == cs;
  }

  /** The reference values of the old vertices do not change when a drawing
      command is appended, except the out-tangent of the last one. */
  lemma ExtendKeeps(ds: seq<Command>, c: Command)
    requires DrawingPath(ds) && WellFormed(c) && c.kind != ClosePath
    ensures DrawingPath(ds + [c])
    ensures Before(ds + [c], |ds|) == Before(ds, |ds|)
    ensures forall k | 0 <= k < |ds| ::
      EndPoint((ds + [c])[k]) == EndPoint(ds[k]) && InAt(ds + [c], k) == InAt(ds, k)
    ensures forall k | 0 <= k + 1 < |ds| :: OutAt(ds + [c], k) == OutAt(ds, k)
  {
    var e := ds + [c];
    assert forall k | 0 <= k < |ds| :: e[k] == ds[k];
    forall k | 0 <= k < |ds|
      ensures InAt(e, k) == InAt(ds, k)
    {
      if k > 0 {
        assert e[k - 1] == ds[k - 1];
      }
    }
    forall k | 0 <= k + 1 < |ds|
      ensures OutAt(e, k) == OutAt(ds, k)
    {
      assert e[k + 1] == ds[k + 1];
    }
  }

  lemma StraightVertices(b: Builder, ds: seq<Command>, c: Command)
    requires DrawingPath(ds) && Aligned(b) && |b.v| == |ds| && Vertices(b, ds)
    requires WellFormed(c) && (c.kind == MoveTo || c.kind == LineTo)
    ensures DrawingPath(ds + [c]) && |Step(b, c).v| == |ds| + 1
    ensures Vertices(Step(b, c), ds + [c]) && Step(b, c).cur == EndPoint(c)
  {
    var e := ds + [c];
    var r := Step(b, c);
    var n := |ds|;
    ExtendKeeps(ds, c);
    assert r.v == b.v + [c.points[0]] && r.i == b.i + [Origin] && r.o == b.o + [Origin];
    forall k | 0 <= k < |e|
      ensures r.v[k] == EndPoint(e[k]) && r.i[k] == InAt(e, k) && r.o[k] == OutAt(e, k)
    {
      if k < n {
        assert r.v[k] == b.v[k] && r.i[k] == b.i[k] && r.o[k] == b.o[k];
        if k + 1 == n {
          assert e[n] == c;
        }
      } else {
        assert e[k] == c;
      }
    }
  }

  lemma CurveVertices(b: Builder, ds: seq<Command>, c: Command)
    requires DrawingPath(ds) && Aligned(b) && |b.v| == |ds| && Vertices(b, ds)
    requires b.cur == Before(ds, |ds|)
    requires WellFormed(c) && IsCurve(c)
    ensures DrawingPath(ds + [c]) && |Step(b, c).v| == |ds| + 1
    ensures Vertices(Step(b, c), ds + [c]) && Step(b, c).cur == EndPoint(c)
  {
    var e := ds + [c];
    var n := |ds|;
    ExtendKeeps(ds, c);
    assert e[n] == c;
    var c1 := Handle1(e, n);
    var c2 := Handle2(e, n);
    assert Step(b, c) == Curve(b, c1, c2, EndPoint(c));
    var r := Curve(b, c1, c2, EndPoint(c));
    assert r.v == b.v + [EndPoint(c)] && r.i == b.i + [Minus(c2, EndPoint(c))];
    forall k | 0 <= k < |e|
      ensures r.v[k] == EndPoint(e[k]) && r.i[k] == InAt(e, k) && r.o[k] == OutAt(e, k)
    {
      if k + 1 < n {
        assert r.v[k] == b.v[k] && r.i[k] == b.i[k] && r.o[k] == b.o[k];
      } else if k + 1 == n {
        assert r.v[k] == b.v[k] && r.i[k] == b.i[k];
        assert r.o[k] == Minus(c1, b.v[k]);
      } else {
        assert r.o[k] == Origin;
      }
    }
  }

  /** Path data per vertex: vertex `k` is the end of the `k`-th command
      that is not Z; its in-tangent points to the curve's second handle and
      its out-tangent to the next curve's first handle, both relative to the
      vertex and both zero next to a straight segment; the path is closed
      exactly when a Z occurs. */
  lemma PathDataPerVertex(cs: seq<Command>)
    requires WellFormedPath(cs)
    ensures var d := CommandsToLottiePathData(cs); var ds := Drawing(cs);
      |d.v| == |ds| && d.c == HasClose(cs) &&
      forall k | 0 <= k < |ds| :: d.v[k] == EndPoint(ds[k]) && d.i[k] == InAt(ds, k) && d.o[k] == OutAt(ds, k)
  {
    BuildDescribes(cs);
  }

  // ---------------------------------------------------------------------------
  // Quadratic-to-cubic conversion is exact
  // ---------------------------------------------------------------------------

  function Quad1(a: real, q: real, b: real, t: real): real
  {
    (1.0 - t) * (1.0 - t) * a + 2.0 * (1.0 - t) * t * q + t * t * b
  }

  function Cubic1(a: real, p: real, q: real, b: real, t: real): real
  {
    (1.0 - t) * (1.0 - t) * (1.0 - t) * a + 3.0 * (1.0 - t) * (1.0 - t) * t * p
      + 3.0 * (1.0 - t) * t * t * q + t * t * t * b
  }

  /** The cubic with handles two thirds toward the quadratic control traces
      the quadratic exactly, in one coordinate. */
  lemma ElevationExact1(a: real, q: real, b: real, t: real)
    ensures Cubic1(a, Elevate1(a, q), Elevate1(b, q), b, t) == Quad1(a, q, b, t)
  {
    var s := 1.0 - t;
    var p1 := Elevate1(a, q);
    var p2 := Elevate1(b, q);
    assert 3.0 * p1 == a + 2.0 * q;
    assert 3.0 * p2 == b + 2.0 * q;
    assert 3.0 * s * s * t * p1 == s * s * t * (3.0 * p1);
    assert 3.0 * s * t * t * p2 == s * t * t * (3.0 * p2);
    assert s * s * s * a + s * s * t * a == s * s * a * (s + t);
    assert s * s * t * (2.0 * q) + s * t * t * (2.0 * q) == 2.0 * s * t * q * (s + t);
    assert s * t * t * b + t * t * t * b == t * t * b * (s + t);
  }

  /** A quadratic segment of the command list and the cubic written for it in the
      Lottie data trace the same points, for every parameter `t`. */
  lemma QuadExportExact(cs: seq<Command>, k: nat, t: real)
    requires WellFormedPath(cs) && k < |Drawing(cs)| && Drawing(cs)[k].kind == QuadTo
    ensures var ds := Drawing(cs); var a := Before(ds, k); var q := ds[k].points[0]; var b := ds[k].points[1];
      var h1 := Handle1(ds, k); var h2 := Handle2(ds, k);
      Cubic1(a.x, h1.x, h2.x, b.x, t) == Quad1(a.x, q.x, b.x, t) &&
      Cubic1(a.y, h1.y, h2.y, b.y, t) == Quad1(a.y, q.y, b.y, t)
  {
    var ds := Drawing(cs);
    var a := Before(ds, k);
    var q := ds[k].points[0];
    var b := ds[k].points[1];
    assert Handle1(ds, k) == Elevate(a, q) && Handle2(ds, k) == Elevate(b, q);
    ElevationExact1(a.x, q.x, b.x, t);
    ElevationExact1(a.y, q.y, b.y, t);
  }

  // ---------------------------------------------------------------------------
  // getEasingValues
  // ---------------------------------------------------------------------------

  /** The temporal handles written on a keyframe. */
  datatype EasingHandles = EasingHandles(inX: real, inY: real, outX: real, outY: real)

  /** getEasingValues as the exporter writes it: each named easing gets the
      control points of the CSS timing curve of that name, the first in `i`
      and the second in `o`. */
  function GetEasingValues(e: Easing): (h: EasingHandles)
    ensures 0.0 <= h.inX <= 1.0 && 0.0 <= h.inY <= 1.0 && 0.0 <= h.outX <= 1.0 && 0.0 <= h.outY <= 1.0
    ensures e == Linear <==> (h.inX == h.inY && h.outX == h.outY)
  {
    match e
    case EaseIn => EasingHandles(0.42, 0.0, 1.0, 1.0)
    case EaseOut => EasingHandles(0.0, 0.0, 0.58, 1.0)
    case EaseInOut => EasingHandles(0.42, 0.0, 0.58, 1.0)
    case Linear => EasingHandles(0.167, 0.167, 0.167, 0.167)
  }

  /** A timing curve: the cubic from (0, 0) to (1, 1) with control points
      `p1` and `p2`, where x is the elapsed part of a segment and y the
      progress made. */
  datatype TimingCurve = TimingCurve(p1: Point, p2: Point)

  /** A Lottie player eases the segment that leaves a keyframe along the
      curve whose first control point is the keyframe's `o` handle and
      whose second is its `i` handle. */
  function SegmentCurve(h: EasingHandles): TimingCurve
  {
    TimingCurve(Point(h.outX, h.outY), Point(h.inX, h.inY))
  }

  function CurveX(c: TimingCurve, s: real): real
  {
    Cubic1(0.0, c.p1.x, c.p2.x, 1.0, s)
  }

  function CurveY(c: TimingCurve, s: real): real
  {
    Cubic1(0.0, c.p1.y, c.p2.y, 1.0, s)
  }

  /** The curve leaves (0, 0) level, so the segment starts at rest. */
  predicate CurveStartsAtRest(c: TimingCurve)
  {
    c.p1.y == 0.0 && c.p1.x > 0.0
  }

  /** The curve arrives at (1, 1) level, so the segment ends at rest. */
  predicate CurveEndsAtRest(c: TimingCurve)
  {
    c.p2.y == 1.0 && c.p2.x < 1.0
  }

  /** The preview's easing starts at rest: it grows no faster than 2t^2,
      so its speed at t = 0 is zero. */
  ghost predicate PreviewStartsAtRest(e: Easing)
  {
    forall t | 0.0 <= t <= 1.0 :: Timeline.ApplyEasing(t, e) <= 2.0 * t * t
  }

  /** The preview's easing ends at rest, by the mirrored bound. */
  ghost predicate PreviewEndsAtRest(e: Easing)
  {
    forall t | 0.0 <= t <= 1.0 :: 1.0 - Timeline.ApplyEasing(t, e) <= 2.0 * (1.0 - t) * (1.0 - t)
  }

  /** Progress `y` and the preview's progress `p` at time `x` lie on the
      same side of linear progress. */
  predicate SameSide(x: real, y: real, p: real)
  {
    (y <= x && p <= x) || (y >= x && p >= x)
  }

  /** Ease-in and ease-in-out start at rest in the preview, ease-out and
      ease-in-out end at rest. */
  lemma PreviewRest(e: Easing)
    ensures PreviewStartsAtRest(e) <==> e == EaseIn || e == EaseInOut
    ensures PreviewEndsAtRest(e) <==> e == EaseOut || e == EaseInOut
  {
    if e == EaseIn || e == EaseInOut {
      forall t | 0.0 <= t <= 1.0 ensures Timeline.ApplyEasing(t, e) <= 2.0 * t * t {
        assert 4.0 * t * t - 4.0 * t + 1.0 == (2.0 * t - 1.0) * (2.0 * t - 1.0);
      }
    } else {
      assert Timeline.ApplyEasing(0.25, e) > 2.0 * 0.25 * 0.25;
    }
    if e == EaseOut || e == EaseInOut {
      forall t | 0.0 <= t <= 1.0 ensures 1.0 - Timeline.ApplyEasing(t, e) <= 2.0 * (1.0 - t) * (1.0 - t) {
        assert 4.0 * t * t - 4.0 * t + 1.0 == (2.0 * t - 1.0) * (2.0 * t - 1.0);
      }
    } else {
      assert 1.0 - Timeline.ApplyEasing(0.75, e) > 2.0 * (1.0 - 0.75) * (1.0 - 0.75);
    }
  }

  /** As written, every named easing is exported the wrong way round for a
      player: the curve starts or ends at rest where the preview does not,
      or the other way about. */
  lemma ExportedEasingDisagreesWithPreview(e: Easing)
    requires e != Linear
    ensures var c := SegmentCurve(GetEasingValues(e));
      CurveStartsAtRest(c) != PreviewStartsAtRest(e) || CurveEndsAtRest(c) != PreviewEndsAtRest(e)
  {
    PreviewRest(e);
  }

  /** As written, exported ease-in-out runs ahead of linear progress early
      in a segment, at parameter 0.1, where the preview lags behind it. */
  lemma ExportedEaseInOutStartsAhead()
    ensures var c := SegmentCurve(GetEasingValues(EaseInOut)); var x := CurveX(c, 0.1);
      0.0 < x < 0.5 && !SameSide(x, CurveY(c, 0.1), Timeline.ApplyEasing(x, EaseInOut))
  {
    var c := SegmentCurve(GetEasingValues(EaseInOut));
    assert CurveX(c, 0.1) == 0.15328;
    assert CurveY(c, 0.1) == 0.244;
  }

  /** The handles the exporter evidently means: the same numbers in the
      order a player reads them, the CSS curve's first control point in `o`
      and its second in `i`. `CorrectedPathShape` carries these. */
  function LottieEasingValues(e: Easing): (h: EasingHandles)
    ensures 0.0 <= h.inX <= 1.0 && 0.0 <= h.inY <= 1.0 && 0.0 <= h.outX <= 1.0 && 0.0 <= h.outY <= 1.0
    ensures SegmentCurve(h).p1 == Point(GetEasingValues(e).inX, GetEasingValues(e).inY)
    ensures SegmentCurve(h).p2 == Point(GetEasingValues(e).outX, GetEasingValues(e).outY)
  {
    var g := GetEasingValues(e);
    EasingHandles(g.outX, g.outY, g.inX, g.inY)
  }

  /** Bernstein form of a timing curve coordinate. */
  lemma CurveTerms(p: real, q: real, s: real)
    ensures Cubic1(0.0, p, q, 1.0, s)
            == 3.0 * (1.0 - s) * (1.0 - s) * s * p + 3.0 * (1.0 - s) * s * s * q + s * s * s
  {
  }

  lemma MulNonneg(a: real, b: real)
    requires 0.0 <= a && 0.0 <= b
    ensures 0.0 <= a * b
  {
  }

  lemma Square(a: real)
    ensures 0.0 <= a * a
  {
    if a < 0.0 {
      MulNonneg(-a, -a);
    } else {
      MulNonneg(a, a);
    }
  }

  lemma MulNonpos(a: real, b: real)
    requires 0.0 <= a && b <= 0.0
    ensures a * b <= 0.0
  {
  }

  lemma UnitPowers(s: real)
    requires 0.0 <= s <= 1.0
    ensures 0.0 <= s * s <= s && 0.0 <= s * s * s <= s * s
  {
    MulNonneg(s, s);
    MulNonneg(s, 1.0 - s);
    MulNonneg(s * s, 1.0 - s);
    MulNonneg(s * s, s);
  }

  /** The CSS ease-in curve stays at times in [0, 1], below the diagonal. */
  lemma EaseInCurve(s: real)
    requires 0.0 <= s <= 1.0
    ensures var c := TimingCurve(Point(0.42, 0.0), Point(1.0, 1.0));
      0.0 <= CurveX(c, s) <= 1.0 && CurveY(c, s) <= CurveX(c, s)
  {
    var c := TimingCurve(Point(0.42, 0.0), Point(1.0, 1.0));
    var x := CurveX(c, s);
    var y := CurveY(c, s);
    CurveTerms(0.42, 1.0, s);
    CurveTerms(0.0, 1.0, s);
    assert x == 1.26 * s + 0.48 * s * s - 0.74 * s * s * s;
    assert y == 3.0 * s * s - 2.0 * s * s * s;
    UnitPowers(s);
    var a := 1.26 + 0.48 * s - 0.74 * s * s;
    assert x == s * a;
    MulNonneg(s, a);
    var u := 1.0 - s;
    assert 1.0 - x == u * u * (1.0 + 0.74 * s);
    Square(u);
    MulNonneg(u * u, 1.0 + 0.74 * s);
    assert y - x == -1.26 * (s * (u * u));
    MulNonneg(s, u * u);
  }

  /** The CSS ease-out curve stays at times in [0, 1], above the diagonal. */
  lemma EaseOutCurve(s: real)
    requires 0.0 <= s <= 1.0
    ensures var c := TimingCurve(Point(0.0, 0.0), Point(0.58, 1.0));
      0.0 <= CurveX(c, s) <= 1.0 && CurveY(c, s) >= CurveX(c, s)
  {
    var c := TimingCurve(Point(0.0, 0.0), Point(0.58, 1.0));
    var x := CurveX(c, s);
    var y := CurveY(c, s);
    CurveTerms(0.0, 0.58, s);
    CurveTerms(0.0, 1.0, s);
    assert x == 1.74 * s * s - 0.74 * s * s * s;
    assert y == 3.0 * s * s - 2.0 * s * s * s;
    UnitPowers(s);
    var u := 1.0 - s;
    assert x == (s * s) * (1.74 - 0.74 * s);
    MulNonneg(s * s, 1.74 - 0.74 * s);
    var b := 1.0 + s - 0.74 * s * s;
    assert 1.0 - x == u * b;
    MulNonneg(u, b);
    assert y - x == 1.26 * ((s * s) * u);
    MulNonneg(s * s, u);
  }

  /** The CSS ease-in-out curve stays at times in [0, 1]; it is below the
      diagonal in its first half and above it in its second, and its halves
      meet at time one half. */
  lemma EaseInOutCurve(s: real)
    requires 0.0 <= s <= 1.0
    ensures var c := TimingCurve(Point(0.42, 0.0), Point(0.58, 1.0));
      0.0 <= CurveX(c, s) <= 1.0 &&
      (s <= 0.5 ==> CurveX(c, s) <= 0.5 && CurveY(c, s) <= CurveX(c, s)) &&
      (s >= 0.5 ==> CurveX(c, s) >= 0.5 && CurveY(c, s) >= CurveX(c, s))
  {
    var c := TimingCurve(Point(0.42, 0.0), Point(0.58, 1.0));
    var x := CurveX(c, s);
    CurveTerms(0.42, 0.58, s);
    assert x == 1.26 * s - 0.78 * s * s + 0.52 * s * s * s;
    UnitPowers(s);
    var a := 1.26 - 0.78 * s + 0.52 * s * s;
    assert x == s * a;
    MulNonneg(s, a);
    var u := 1.0 - s;
    var b := 0.52 * s * s - 0.26 * s + 1.0;
    assert 1.0 - x == u * b;
    MulNonneg(u, b);
    EaseInOutCurveHalves(s);
  }

  lemma EaseInOutCurveHalves(s: real)
    requires 0.0 <= s <= 1.0
    ensures var c := TimingCurve(Point(0.42, 0.0), Point(0.58, 1.0));
      (s <= 0.5 ==> CurveX(c, s) <= 0.5 && CurveY(c, s) <= CurveX(c, s)) &&
      (s >= 0.5 ==> CurveX(c, s) >= 0.5 && CurveY(c, s) >= CurveX(c, s))
  {
    var c := TimingCurve(Point(0.42, 0.0), Point(0.58, 1.0));
    var x := CurveX(c, s);
    var y := CurveY(c, s);
    CurveTerms(0.42, 0.58, s);
    CurveTerms(0.0, 1.0, s);
    assert x == 1.26 * s - 0.78 * s * s + 0.52 * s * s * s;
    assert y == 3.0 * s * s - 2.0 * s * s * s;
    var d := s - 0.5;
    var g := 0.52 * d * d + 0.87;
    assert x - 0.5 == d * g;
    var m := s * (1.0 - s);
    assert y - x == 1.26 * m * (2.0 * s - 1.0);
    MulNonneg(s, 1.0 - s);
    Square(d);
    if s <= 0.5 {
      MulNonpos(g, d);
      MulNonpos(m, 2.0 * s - 1.0);
    } else {
      MulNonneg(g, d);
      MulNonneg(m, 2.0 * s - 1.0);
    }
  }

  /** The exporter's linear handles give the diagonal itself. */
  lemma LinearCurve(s: real)
    requires 0.0 <= s <= 1.0
    ensures var c := TimingCurve(Point(0.167, 0.167), Point(0.167, 0.167));
      0.0 <= CurveX(c, s) <= 1.0 && CurveY(c, s) == CurveX(c, s)
  {
    var c := TimingCurve(Point(0.167, 0.167), Point(0.167, 0.167));
    var x := CurveX(c, s);
    CurveTerms(0.167, 0.167, s);
    assert x == 0.501 * s - 0.501 * s * s + s * s * s;
    UnitPowers(s);
    var a := 0.501 * (1.0 - s) + s * s;
    assert x == s * a;
    MulNonneg(s, a);
    var u := 1.0 - s;
    var b := s * s + 0.499 * s + 1.0;
    assert 1.0 - x == u * b;
    MulNonneg(u, b);
  }

  /** Where the preview's easing stands against linear progress. */
  lemma PreviewSides(x: real)
    requires 0.0 <= x <= 1.0
    ensures Timeline.ApplyEasing(x, EaseIn) <= x && Timeline.ApplyEasing(x, EaseOut) >= x
    ensures x <= 0.5 ==> Timeline.ApplyEasing(x, EaseInOut) <= x
    ensures x >= 0.5 ==> Timeline.ApplyEasing(x, EaseInOut) >= x
  {
    MulNonneg(x, 1.0 - x);
    assert x * (1.0 - x) == x - x * x;
    assert x * (2.0 - x) == x + x * (1.0 - x);
    if x >= 0.5 {
      MulNonneg(2.0 * x - 1.0, 1.0 - x);
      assert -1.0 + (4.0 - 2.0 * x) * x - x == (2.0 * x - 1.0) * (1.0 - x);
    } else {
      MulNonneg(x, 1.0 - 2.0 * x);
      assert x * (1.0 - 2.0 * x) == x - 2.0 * x * x;
    }
  }

  /** With the corrected handles the curve a player reads agrees with the
      preview: it starts at rest exactly when the preview does, ends at
      rest exactly when the preview does, and at every time it is ahead of,
      behind or level with linear progress just as the preview is. */
  lemma CorrectedEasingFollowsPreview(e: Easing, s: real)
    requires 0.0 <= s <= 1.0
    ensures var c := SegmentCurve(LottieEasingValues(e));
      (CurveStartsAtRest(c) <==> PreviewStartsAtRest(e)) &&
      (CurveEndsAtRest(c) <==> PreviewEndsAtRest(e)) &&
      0.0 <= CurveX(c, s) <= 1.0 &&
      SameSide(CurveX(c, s), CurveY(c, s), Timeline.ApplyEasing(CurveX(c, s), e))
  {
    var c := SegmentCurve(LottieEasingValues(e));
    PreviewRest(e);
    match e
    case EaseIn => EaseInCurve(s); PreviewSides(CurveX(c, s));
    case EaseOut => EaseOutCurve(s); PreviewSides(CurveX(c, s));
    case EaseInOut => EaseInOutCurve(s); PreviewSides(CurveX(c, s));
    case Linear => LinearCurve(s);
  }

  // ---------------------------------------------------------------------------
  // createLottiePathShape
  // ---------------------------------------------------------------------------

  /** An entry of an animated shape: time, shape, and the temporal handles,
      absent on the closing hold. */
  datatype ShapeKeyframe = ShapeKeyframe(t: int, s: ShapeData, handles: Option<EasingHandles>)

  /** A shape property: fixed (`a: 0`) or keyframed (`a: 1`). */
  datatype ShapeValue = Static(data: ShapeData) | Animated(frames: seq<ShapeKeyframe>)

  /** Every snapshot of every keyframe respects the arity rule. */
  predicate SnapshotsWellFormed(kfs: seq<Keyframe>)
  {
    forall k, id | k in kfs && id in k.snapshots :: WellFormedPath(k.snapshots[id])
  }

  /** The keyframes holding a snapshot of path `id`, in their order. */
  function Holding(kfs: seq<Keyframe>, id: string): (r: seq<Keyframe>)
    ensures forall k :: k in r <==> k in kfs && id in k.snapshots
    ensures forall k :: multiset(r)[k] == if id in k.snapshots then multiset(kfs)[k] else 0
  {
    if kfs == [] then []
    else
      var k := kfs[|kfs| - 1];
      var init := kfs[..|kfs| - 1];
      assert kfs == init + [k];
      Holding(init, id) + (if id in k.snapshots then [k] else [])
  }

  /** The keyframes of path `id`, sorted by frame. */
  function PathKeyframes(kfs: seq<Keyframe>, id: string): (r: seq<Keyframe>)
    ensures Keyframes.SortedByFrame(r)
    ensures forall k :: k in r <==> k in kfs && id in k.snapshots
    ensures forall k :: multiset(r)[k] == if id in k.snapshots then multiset(kfs)[k] else 0
  {
    Keyframes.SortKeepsMembers(Holding(kfs, id));
    Keyframes.SortByFrame(Holding(kfs, id))
  }

  /** One entry per keyframe of the path: its frame, its snapshot, and the
      handles `GetEasingValues` gives for its easing, as written: the CSS
      curve's first control point in `i` and its second in `o`. */
  function Entry(k: Keyframe, id: string): ShapeKeyframe
    requires id in k.snapshots && WellFormedPath(k.snapshots[id])
  {
    ShapeKeyframe(k.frame, CommandsToLottiePathData(k.snapshots[id]), Some(GetEasingValues(k.easing)))
  }

  /** createLottiePathShape. */
  function CreateLottiePathShape(id: string, commands: seq<Command>, kfs: seq<Keyframe>): (r: ShapeValue)
    requires WellFormedPath(commands) && SnapshotsWellFormed(kfs)
    ensures r.Static? <==> |PathKeyframes(kfs, id)| < 2
    ensures r.Static? ==> r.data == CommandsToLottiePathData(commands)
    ensures r.Animated? ==> |r.frames| == |PathKeyframes(kfs, id)| + 1
  {
    var pk := PathKeyframes(kfs, id);
    if |pk| < 2 then Static(CommandsToLottiePathData(commands))
    else
      assert pk[|pk| - 1] in pk;
      var last := pk[|pk| - 1];
      Animated(Entries(pk, id, kfs) + [ShapeKeyframe(last.frame, CommandsToLottiePathData(last.snapshots[id]), None)])
  }

  /** The entries of the keyframes `pk` of path `id`, one each, in order. */
  function Entries(pk: seq<Keyframe>, id: string, kfs: seq<Keyframe>): (r: seq<ShapeKeyframe>)
    requires SnapshotsWellFormed(kfs) && forall k | k in pk :: k in kfs && id in k.snapshots
    ensures |r| == |pk|
  {
    if pk == [] then [] else [Entry(pk[0], id)] + Entries(pk[1..], id, kfs)
  }

  /** Entry j of `Entries` is keyframe j's entry. */
  lemma {:induction false} EntriesAt(pk: seq<Keyframe>, id: string, kfs: seq<Keyframe>, j: nat)
    requires SnapshotsWellFormed(kfs) && forall k | k in pk :: k in kfs && id in k.snapshots
    requires j < |pk|
    ensures pk[j] in kfs && id in pk[j].snapshots && Entries(pk, id, kfs)[j] == Entry(pk[j], id)
  {
    assert pk[j] in pk;
    if j > 0 {
      assert forall k | k in pk[1..] :: k in pk;
      EntriesAt(pk[1..], id, kfs, j - 1);
    }
  }

  /** A path held by two or more keyframes is exported as one entry per
      keyframe in frame order, each with its keyframe's frame, snapshot and
      easing handles, followed by a hold that repeats the last entry
      without handles. */
  lemma AnimatedShape(id: string, commands: seq<Command>, kfs: seq<Keyframe>)
    requires WellFormedPath(commands) && SnapshotsWellFormed(kfs)
    requires |PathKeyframes(kfs, id)| >= 2
    ensures var r := CreateLottiePathShape(id, commands, kfs); var pk := PathKeyframes(kfs, id);
      r.Animated? && |r.frames| == |pk| + 1 &&
      (forall j | 0 <= j < |pk| :: pk[j] in kfs && id in pk[j].snapshots && r.frames[j] == Entry(pk[j], id)) &&
      (forall j | 0 <= j < |pk| :: r.frames[j].handles == Some(GetEasingValues(pk[j].easing))) &&
      r.frames[|pk|] == r.frames[|pk| - 1].(handles := None)
  {
    var pk := PathKeyframes(kfs, id);
    var r := CreateLottiePathShape(id, commands, kfs);
    forall j | 0 <= j < |pk|
      ensures pk[j] in kfs && id in pk[j].snapshots && r.frames[j] == Entry(pk[j], id)
    {
      EntriesAt(pk, id, kfs, j);
    }
  }

  /** The shape the exporter evidently means: `createLottiePathShape` with
      the handles of every entry swapped into the order a player reads. */
  function CorrectedPathShape(id: string, commands: seq<Command>, kfs: seq<Keyframe>): ShapeValue
    requires WellFormedPath(commands) && SnapshotsWellFormed(kfs)
  {
    match CreateLottiePathShape(id, commands, kfs)
    case Static(d) => Static(d)
    case Animated(fs) => Animated(seq(|fs|, i requires 0 <= i < |fs| => fs[i].(handles := SwapHandles(fs[i].handles))))
  }

  function SwapHandles(h: Option<EasingHandles>): Option<EasingHandles>
  {
    match h
    case None => None
    case Some(g) => Some(EasingHandles(g.outX, g.outY, g.inX, g.inY))
  }

  /** With the corrected shape, entry j of an animated path keeps keyframe
      j's frame and snapshot, and a player reading its handles moves along
      a curve that rests where the preview rests and stays on the preview's
      side of linear progress. */
  lemma CorrectedShapeFollowsPreview(id: string, commands: seq<Command>, kfs: seq<Keyframe>, j: nat, s: real)
    requires WellFormedPath(commands) && SnapshotsWellFormed(kfs)
    requires |PathKeyframes(kfs, id)| >= 2 && j < |PathKeyframes(kfs, id)| && 0.0 <= s <= 1.0
    ensures var r := CorrectedPathShape(id, commands, kfs); var k := PathKeyframes(kfs, id)[j];
      r.Animated? && |r.frames| == |PathKeyframes(kfs, id)| + 1 &&
      k in kfs && id in k.snapshots &&
      r.frames[j].t == k.frame && r.frames[j].s == CommandsToLottiePathData(k.snapshots[id]) &&
      r.frames[j].handles == Some(LottieEasingValues(k.easing)) &&
      var c := SegmentCurve(LottieEasingValues(k.easing));
      (CurveStartsAtRest(c) <==> PreviewStartsAtRest(k.easing)) &&
      (CurveEndsAtRest(c) <==> PreviewEndsAtRest(k.easing)) &&
      SameSide(CurveX(c, s), CurveY(c, s), Timeline.ApplyEasing(CurveX(c, s), k.easing))
  {
    var k := PathKeyframes(kfs, id)[j];
    AnimatedShape(id, commands, kfs);
    CorrectedEasingFollowsPreview(k.easing, s);
  }

  /** The entries of an animated shape are in frame order, the hold
      included. */
  lemma AnimatedInOrder(id: string, commands: seq<Command>, kfs: seq<Keyframe>)
    requires WellFormedPath(commands) && SnapshotsWellFormed(kfs)
    requires |PathKeyframes(kfs, id)| >= 2
    ensures var r := CreateLottiePathShape(id, commands, kfs); r.Animated? && InTimeOrder(r.frames)
  {
    EntryTimes(id, commands, kfs);
    EntriesInOrder(PathKeyframes(kfs, id), CreateLottiePathShape(id, commands, kfs).frames);
  }

  /** One entry per keyframe at its frame, and a hold at the last one's. */
  predicate TimedBy(pk: seq<Keyframe>, fs: seq<ShapeKeyframe>)
  {
    |pk| >= 1 && |fs| == |pk| + 1 && fs[|pk|].t == pk[|pk| - 1].frame &&
    forall q | 0 <= q < |pk| :: fs[q].t == pk[q].frame
  }

  /** Entries whose times never decrease. */
  predicate InTimeOrder(fs: seq<ShapeKeyframe>)
  {
    forall i, j | 0 <= i < j < |fs| :: fs[i].t <= fs[j].t
  }

  /** Entries timed by sorted keyframes, and a hold at the last one's
      frame, are in time order. */
  lemma EntriesInOrder(pk: seq<Keyframe>, fs: seq<ShapeKeyframe>)
    requires Keyframes.SortedByFrame(pk) && TimedBy(pk, fs)
    ensures InTimeOrder(fs)
  {
    forall i, j | 0 <= i < j < |fs|
      ensures fs[i].t <= fs[j].t
    {
      PairInOrder(pk, fs, i, j);
    }
  }

  lemma PairInOrder(pk: seq<Keyframe>, fs: seq<ShapeKeyframe>, i: nat, j: nat)
    requires Keyframes.SortedByFrame(pk) && |pk| >= 1 && |fs| == |pk| + 1
    requires fs[|pk|].t == pk[|pk| - 1].frame && forall q | 0 <= q < |pk| :: fs[q].t == pk[q].frame
    requires i < j < |fs|
    ensures fs[i].t <= fs[j].t
  {
    var j' := if j == |pk| then |pk| - 1 else j;
    assert fs[j].t == pk[j'].frame;
    assert i == j' || pk[i].frame <= pk[j'].frame;
  }

  lemma EntryTimes(id: string, commands: seq<Command>, kfs: seq<Keyframe>)
    requires WellFormedPath(commands) && SnapshotsWellFormed(kfs)
    requires |PathKeyframes(kfs, id)| >= 2
    ensures TimedBy(PathKeyframes(kfs, id), CreateLottiePathShape(id, commands, kfs).frames)
  {
    AnimatedShape(id, commands, kfs);
  }

  lemma HeadIn(s: seq<Keyframe>)
    ensures |s| == 0 || s[0] in s
  {
  }

  /** A path no keyframe holds is exported as its own commands, fixed. */
  lemma UnkeyedShapeIsStatic(id: string, commands: seq<Command>, kfs: seq<Keyframe>)
    requires WellFormedPath(commands) && SnapshotsWellFormed(kfs)
    requires forall k | k in kfs :: id !in k.snapshots
    ensures CreateLottiePathShape(id, commands, kfs) == Static(CommandsToLottiePathData(commands))
  {
    HeadIn(PathKeyframes(kfs, id));
  }

  /** Every keyframe holding the path has an entry in the animated shape at
      its frame, and that entry carries the commands the editor shows at
      that frame when the keyframe is alone there. */
  lemma ExportAgreesWithPreview(path: PathData, kfs: seq<Keyframe>, k: Keyframe)
    requires WellFormedPath(path.commands) && SnapshotsWellFormed(kfs)
    requires Timeline.AloneAtFrame(kfs, k) && path.id in k.snapshots
    requires |PathKeyframes(kfs, path.id)| >= 2
    ensures var r := CreateLottiePathShape(path.id, path.commands, kfs);
      var shown := Timeline.InterpolatePathAtFrame(kfs, path, k.frame);
      WellFormedPath(shown.commands) &&
      exists j | 0 <= j < |r.frames| :: r.frames[j].t == k.frame && r.frames[j].s == CommandsToLottiePathData(shown.commands)
  {
    var pk := PathKeyframes(kfs, path.id);
    var r := CreateLottiePathShape(path.id, path.commands, kfs);
    Timeline.AtKeyframe(kfs, path, k);
    assert k in pk;
    var j :| 0 <= j < |pk| && pk[j] == k;
    AnimatedShape(path.id, path.commands, kfs);
    assert r.frames[j] == Entry(k, path.id);
  }

  // ---------------------------------------------------------------------------
  // exportToLottie
  // ---------------------------------------------------------------------------

  /** The items of a path's group. Colours are channel lists; opacity is a
      percentage. */
  datatype ShapeItem =
    | PathItem(ks: ShapeValue)
    | StrokeItem(color: seq<Option<real>>, opacity: real, width: real)
    | FillItem(color: seq<Option<real>>, opacity: real)
    | TransformItem

  /** A group named "Path <number>". */
  datatype Group = Group(number: nat, items: seq<ShapeItem>)

  datatype ShapeLayer = ShapeLayer(ind: int, name: string, shapes: seq<Group>, ip: int, op: int, st: int)

  datatype Animation = Animation(
    version: string, fr: int, ip: int, op: int, w: real, h: real, name: string, layers: seq<ShapeLayer>)

  /** A colour attribute that is set and not empty, as JavaScript truth
      reads it. */
  predicate Present(s: Option<string>)
  {
    s.Some? && s.value != ""
  }

  /** `strokeWidth || 1`: an absent or zero width becomes 1. */
  function StrokeWidthOf(w: Option<real>): (r: real)
    ensures r != 0.0
    ensures w.Some? && w.value != 0.0 ==> r == w.value
    ensures w.None? || w.value == 0.0 ==> r == 1.0
  {
    if w.Some? && w.value != 0.0 then w.value else 1.0
  }

  /** A path the exporter can write: its commands respect the arity rule.
      Any colour text is written, channels it cannot read as null. */
  predicate PathExportable(p: PathData)
  {
    WellFormedPath(p.commands)
  }

  predicate LayerExportable(l: Layer)
  {
    forall j | 0 <= j < |l.paths| :: PathExportable(l.paths[j])
  }

  /** Hidden layers are skipped, so only the visible ones need to be
      exportable. */
  predicate Exportable(st: AnimationState)
  {
    SnapshotsWellFormed(st.keyframes) &&
    forall i | 0 <= i < |st.layers| :: st.layers[i].visible ==> LayerExportable(st.layers[i])
  }

  function GroupItems(p: PathData, kfs: seq<Keyframe>): (items: seq<ShapeItem>)
    requires PathExportable(p) && SnapshotsWellFormed(kfs)
  {
    [PathItem(CreateLottiePathShape(p.id, p.commands, kfs))] + StrokePart(p) + FillPart(p) + [TransformItem]
  }

  /** The stroke item, written only for a set stroke. */
  function StrokePart(p: PathData): seq<ShapeItem>
  {
    if Present(p.stroke) then [StrokeItem(Color.HexToRgba(p.stroke.value), 100.0, StrokeWidthOf(p.strokeWidth))] else []
  }

  /** The fill item, written only for a set fill. */
  function FillPart(p: PathData): seq<ShapeItem>
  {
    if Present(p.fill) then [FillItem(Color.HexToRgba(p.fill.value), 100.0)] else []
  }

  function Groups(paths: seq<PathData>, kfs: seq<Keyframe>): (gs: seq<Group>)
    requires (forall j | 0 <= j < |paths| :: PathExportable(paths[j])) && SnapshotsWellFormed(kfs)
    ensures |gs| == |paths|
  {
    seq(|paths|, j requires 0 <= j < |paths| => Group(j + 1, GroupItems(paths[j], kfs)))
  }

  function MakeLayer(l: Layer, index: nat, st: AnimationState): ShapeLayer
    requires LayerExportable(l) && SnapshotsWellFormed(st.keyframes)
  {
    ShapeLayer(index + 1, l.name, Groups(l.paths, st.keyframes), 0, st.totalFrames, 0)
  }

  function ExportLayers(st: AnimationState, from: nat): seq<ShapeLayer>
    requires Exportable(st)
    decreases |st.layers| - from
  {
    if from >= |st.layers| then []
    else
      (if st.layers[from].visible then [MakeLayer(st.layers[from], from, st)] else [])
      + ExportLayers(st, from + 1)
  }

  /** exportToLottie. */
  function ExportToLottie(st: AnimationState): (a: Animation)
    requires Exportable(st)
    ensures a.version == "5.7.4" && a.name == "Nottie Export"
    ensures a.fr == st.fps && a.ip == 0 && a.op == st.totalFrames
    ensures a.w == st.width && a.h == st.height
  {
    Animation("5.7.4", st.fps, 0, st.totalFrames, st.width, st.height, "Nottie Export", ExportLayers(st, 0))
  }

  // ---------------------------------------------------------------------------
  // Export properties
  // ---------------------------------------------------------------------------

  /** The indices of the visible layers from `from` on, in increasing order. */
  function VisibleIndices(layers: seq<Layer>, from: nat): (r: seq<nat>)
    ensures forall j | 0 <= j < |r| :: from <= r[j] < |layers| && layers[r[j]].visible
    ensures forall i | from <= i < |layers| && layers[i].visible :: i in r
    ensures forall a, b | 0 <= a < b < |r| :: r[a] < r[b]
    decreases |layers| - from
  {
    if from >= |layers| then []
    else (if layers[from].visible then [from] else []) + VisibleIndices(layers, from + 1)
  }

  lemma {:induction false} ExportLayersAreVisible(st: AnimationState, from: nat)
    requires Exportable(st)
    ensures var out := ExportLayers(st, from); var vi := VisibleIndices(st.layers, from);
      |out| == |vi| &&
      forall j | 0 <= j < |vi| :: st.layers[vi[j]].visible && out[j] == MakeLayer(st.layers[vi[j]], vi[j], st)
    decreases |st.layers| - from
  {
    if from < |st.layers| {
      ExportLayersAreVisible(st, from + 1);
    }
  }

  /** The exported layers are the visible layers in their order; each keeps
      its name, is numbered by its position among all layers counting from
      1, and spans the whole timeline. */
  lemma ExportedLayers(st: AnimationState)
    requires Exportable(st)
    ensures var out := ExportToLottie(st).layers; var vi := VisibleIndices(st.layers, 0);
      |out| == |vi| &&
      (forall j | 0 <= j < |out| ::
        out[j].ind == vi[j] + 1 && out[j].name == st.layers[vi[j]].name &&
        out[j].ip == 0 && out[j].op == st.totalFrames &&
        |out[j].shapes| == |st.layers[vi[j]].paths|) &&
      (forall a, b | 0 <= a < b < |out| :: out[a].ind < out[b].ind)
  {
    ExportLayersAreVisible(st, 0);
  }

  /** A path's group: its shape first, then the stroke if it has one, then
      the fill if it has one, then the transform; the stroke carries the
      stroke colour and a width that is never zero; the group is numbered
      from 1 in path order. */
  lemma GroupLayout(paths: seq<PathData>, kfs: seq<Keyframe>, j: nat)
    requires (forall q | 0 <= q < |paths| :: PathExportable(paths[q])) && SnapshotsWellFormed(kfs)
    requires j < |paths|
    ensures Groups(paths, kfs)[j].number == j + 1
    ensures ItemsLaidOut(paths[j], kfs, Groups(paths, kfs)[j].items)
  {
    ItemsLayout(paths[j], kfs);
  }

  /** The item order of a path's group, as stated above. */
  predicate ItemsLaidOut(p: PathData, kfs: seq<Keyframe>, items: seq<ShapeItem>)
    requires PathExportable(p) && SnapshotsWellFormed(kfs)
  {
    LaidOutAround(p, PathItem(CreateLottiePathShape(p.id, p.commands, kfs)), items)
  }

  /** The item order with the shape item `sh` first. */
  predicate LaidOutAround(p: PathData, sh: ShapeItem, items: seq<ShapeItem>)
  {
    var s := if Present(p.stroke) then 1 else 0;
    var f := if Present(p.fill) then 1 else 0;
    |items| == 2 + s + f &&
    items[0] == sh &&
    items[|items| - 1] == TransformItem &&
    (Present(p.stroke) ==> items[1] == StrokeItem(Color.HexToRgba(p.stroke.value), 100.0, StrokeWidthOf(p.strokeWidth))) &&
    (Present(p.fill) ==> items[1 + s] == FillItem(Color.HexToRgba(p.fill.value), 100.0)) &&
    (forall q | 0 <= q < |items| :: items[q].StrokeItem? ==> Present(p.stroke)) &&
    (forall q | 0 <= q < |items| :: items[q].FillItem? ==> Present(p.fill))
  }

  lemma ItemsLayout(p: PathData, kfs: seq<Keyframe>)
    requires PathExportable(p) && SnapshotsWellFormed(kfs)
    ensures ItemsLaidOut(p, kfs, GroupItems(p, kfs))
  {
    var sh := PathItem(CreateLottiePathShape(p.id, p.commands, kfs));
    PartsLaidOut(p, sh);
    assert GroupItems(p, kfs) == [sh] + StrokePart(p) + FillPart(p) + [TransformItem];
  }

  lemma PartsLaidOut(p: PathData, sh: ShapeItem)
    requires sh.PathItem?
    ensures LaidOutAround(p, sh, [sh] + StrokePart(p) + FillPart(p) + [TransformItem])
  {
    Sandwich(sh, StrokePart(p), FillPart(p), TransformItem);
  }

  /** A fill the exporter cannot read, such as the "none" that basic shapes
      keep, is still written, as a fill item whose colour channels are
      null. */
  lemma NoneFillExportsNull(p: PathData, kfs: seq<Keyframe>)
    requires PathExportable(p) && SnapshotsWellFormed(kfs) && p.fill == Some("none")
    ensures FillItem([None, None, None, Some(1.0)], 100.0) in GroupItems(p, kfs)
  {
    FillExported(p, kfs);
    Color.NoneHasNoChannels();
  }

  /** A set fill is written with the colour read from it. */
  lemma FillExported(p: PathData, kfs: seq<Keyframe>)
    requires PathExportable(p) && SnapshotsWellFormed(kfs) && Present(p.fill)
    ensures FillItem(Color.HexToRgba(p.fill.value), 100.0) in GroupItems(p, kfs)
  {
    ItemsLayout(p, kfs);
    var items := GroupItems(p, kfs);
    var s := if Present(p.stroke) then 1 else 0;
    assert items[1 + s] in items;
  }

  /** Positions in `[a] + s + f + [z]` for at most one item in each middle
      part. */
  lemma Sandwich(a: ShapeItem, s: seq<ShapeItem>, f: seq<ShapeItem>, z: ShapeItem)
    requires |s| <= 1 && |f| <= 1
    ensures var r := [a] + s + f + [z];
      |r| == 2 + |s| + |f| && r[0] == a && r[|r| - 1] == z &&
      (|s| == 1 ==> r[1] == s[0]) && (|f| == 1 ==> r[1 + |s|] == f[0]) &&
      forall q | 0 <= q < |r| :: r[q] == a || r[q] in s || r[q] in f || r[q] == z
  {
  }

  /** Without keyframes every path is exported fixed, as its own commands. */
  lemma NoKeyframesStatic(st: AnimationState, j: nat, q: nat)
    requires Exportable(st) && st.keyframes == []
    requires j < |VisibleIndices(st.layers, 0)|
    requires q < |st.layers[VisibleIndices(st.layers, 0)[j]].paths|
    ensures var out := ExportToLottie(st).layers; var l := st.layers[VisibleIndices(st.layers, 0)[j]];
      j < |out| && q < |out[j].shapes| && 0 < |out[j].shapes[q].items| &&
      out[j].shapes[q].items[0] == PathItem(Static(CommandsToLottiePathData(l.paths[q].commands)))
  {
    ExportLayersAreVisible(st, 0);
    var vi := VisibleIndices(st.layers, 0);
    var l := st.layers[vi[j]];
    UnkeyedShapeIsStatic(l.paths[q].id, l.paths[q].commands, st.keyframes);
    GroupLayout(l.paths, st.keyframes, q);
  }
}

=== FILE: svg_path.dfy ===
/** The SVG path-data parser and its inverse (src/lib/utils/svg-parser.ts).
    It follows the path grammar of section 8.3 of SVG 1.1 over an already
    lexed token list: moveto with implicit lineto repeats, closepath, the
    H/V shorthands, smooth cubic and quadratic reflection, and elliptical arcs
    degraded to straight lines. The output is always in absolute coordinates. */
module SvgPath {
  import opened Types

  /** A lexed token: a command letter or an already converted number. */
  datatype Token = Letter(c: char) | Number(v: real)

  function Upper(c: char): char
  {
    if 'a' <= c <= 'z' then (c as int - 32) as char else c
  }

  function Lower(c: char): char
  {
    if 'A' <= c <= 'Z' then (c as int + 32) as char else c
  }

  /** The parser's relative test: a letter equal to its own lower case, except `z`. */
  predicate IsRelative(c: char)
  {
    Lower(c) == c && c != 'z'
  }

  /** Upper-case letters whose numbers the parser consumes in a loop of repetitions. */
  predicate Repeats(op: char)
  {
    op in "LHVCSQTA"
  }

  /** Numbers one repetition of a command consumes. */
  function GroupSize(op: char): nat
  {
    if op == 'M' || op == 'L' || op == 'T' then 2
    else if op == 'H' || op == 'V' then 1
    else if op == 'C' then 6
    else if op == 'S' || op == 'Q' then 4
    else if op == 'A' then 7
    else 0
  }

  /** Tokens the parser's loop guard asks to remain before it reads a repetition:
      one for L, H, V and the moveto repeats, the whole group for the others. */
  function GuardLength(op: char): nat
  {
    if op == 'C' then 6
    else if op == 'S' || op == 'Q' then 4
    else if op == 'T' then 2
    else if op == 'A' then 7
    else 1
  }

  /** The command tag one repetition emits: H, V and A become L, S becomes C and
      T becomes Q. */
  function EmittedKind(op: char): Kind
  {
    if op == 'M' then MoveTo
    else if op == 'C' || op == 'S' then CubicTo
    else if op == 'Q' || op == 'T' then QuadTo
    else if op == 'Z' then ClosePath
    else LineTo
  }

  /** Length of the run of numbers a token list starts with. */
  function NumRun(toks: seq<Token>): (n: nat)
    ensures n <= |toks|
  {
    if toks == [] || toks[0].Letter? then 0 else 1 + NumRun(toks[1..])
  }

  /** The run is made of numbers and ends at a letter or at the end. */
  lemma {:induction false} NumRunShape(toks: seq<Token>)
    ensures forall j | 0 <= j < NumRun(toks) :: toks[j].Number?
    ensures NumRun(toks) < |toks| ==> toks[NumRun(toks)].Letter?
  {
    if toks != [] && toks[0].Number? {
      NumRunShape(toks[1..]);
      assert forall j | 1 <= j < NumRun(toks) :: toks[j] == toks[1..][j - 1];
    }
  }

  /** A run of `n` numbers is a whole number of repetitions of `op`; a moveto
      needs at least one pair. Z and unknown letters take any run: the parser
      skips those numbers. */
  predicate ArgsFit(op: char, n: nat)
  {
    if op == 'M' then n > 0 && n % 2 == 0
    else if Repeats(op) then n % GroupSize(op) == 0
    else true
  }

  /** Every command letter is followed by a whole number of its argument groups.
      Outside this set `parsePathData` of svg-parser.ts reads letters or
      missing tokens as numbers and produces NaN coordinates. */
  predicate WellFormedTokens(toks: seq<Token>)
    decreases |toks|
  {
    toks == [] ||
    ((toks[0].Letter? ==> ArgsFit(Upper(toks[0].c), NumRun(toks[1..])))
     && WellFormedTokens(toks[1..]))
  }

  lemma {:induction false} WellFormedSuffix(toks: seq<Token>, k: nat)
    requires WellFormedTokens(toks) && k <= |toks|
    ensures WellFormedTokens(toks[k..])
    decreases k
  {
    if k > 0 {
      WellFormedSuffix(toks[1..], k - 1);
      assert toks[1..][k - 1..] == toks[k..];
    }
  }

  lemma {:induction false} NumRunDrop(toks: seq<Token>, k: nat)
    requires k <= NumRun(toks)
    ensures NumRun(toks[k..]) == NumRun(toks) - k
    decreases k
  {
    if k > 0 {
      NumRunDrop(toks[1..], k - 1);
      assert toks[1..][k - 1..] == toks[k..];
    }
  }

  /** The values of a list of number tokens. */
  function Numbers(toks: seq<Token>): (vs: seq<real>)
    requires forall j | 0 <= j < |toks| :: toks[j].Number?
    ensures |vs| == |toks|
  {
    seq(|toks|, j requires 0 <= j < |toks| => toks[j].v)
  }

  /** The parser's state: the commands emitted so far, the current point and
      the start of the current subpath. */
  datatype ParseState = ParseState(out: seq<Command>, cur: Point, start: Point)

  const Initial: ParseState := ParseState([], Origin, Origin)

  /** One coordinate: offset by the current point's coordinate when relative. */
  function Resolve(v: real, base: real, rel: bool): real
  {
    if rel then base + v else v
  }

  /** The point given by arguments `i` and `i + 1`. */
  function ArgPoint(args: seq<real>, i: nat, cur: Point, rel: bool): Point
    requires i + 1 < |args|
  {
    Point(Resolve(args[i], cur.x, rel), Resolve(args[i + 1], cur.y, rel))
  }

  /** `p` reflected about `about`. */
  function Mirror(p: Point, about: Point): Point
  {
    Point(2.0 * about.x - p.x, 2.0 * about.y - p.y)
  }

  function Midpoint(a: Point, b: Point): Point
  {
    Point((a.x + b.x) / 2.0, (a.y + b.y) / 2.0)
  }

  predicate LastIs(out: seq<Command>, k: Kind)
  {
    |out| > 0 && out[|out| - 1].kind == k
  }

  /** First control point of a smooth curve: control `idx` of the last emitted
      command mirrored about the current point when that command has tag `k`,
      otherwise the current point itself. */
  function SmoothControl(st: ParseState, k: Kind, idx: nat): Point
    requires WellFormedPath(st.out) && idx < Arity(k)
  {
    if LastIs(st.out, k) then Mirror(st.out[|st.out| - 1].points[idx], st.cur) else st.cur
  }

  /** Appends a drawing command; its end point becomes the current point. */
  function Emit(st: ParseState, c: Command): ParseState
    requires WellFormed(c) && c.kind != ClosePath
  {
    ParseState(st.out + [c], EndPoint(c), st.start)
  }

  /** One repetition of command `op` over its `GroupSize(op)` numbers. */
  function Repetition(op: char, rel: bool, args: seq<real>, st: ParseState): (r: ParseState)
    requires op == 'M' || Repeats(op)
    requires |args| == GroupSize(op)
    requires WellFormedPath(st.out)
    ensures |r.out| == |st.out| + 1 && st.out <= r.out
    ensures WellFormedPath(r.out)
    ensures r.out[|st.out|].kind == EmittedKind(op)
    ensures r.cur == EndPoint(r.out[|st.out|])
    ensures r.start == (if op == 'M' then r.cur else st.start)
    ensures op == 'S' && LastIs(st.out, CubicTo) ==>
              Midpoint(r.out[|st.out|].points[0], st.out[|st.out| - 1].points[1]) == st.cur
    ensures op == 'T' && LastIs(st.out, QuadTo) ==>
              Midpoint(r.out[|st.out|].points[0], st.out[|st.out| - 1].points[0]) == st.cur
    ensures (op == 'S' && !LastIs(st.out, CubicTo)) || (op == 'T' && !LastIs(st.out, QuadTo)) ==>
              r.out[|st.out|].points[0] == st.cur
  {
    var cur := st.cur;
    if op == 'M' then
      var p := ArgPoint(args, 0, cur, rel);
      ParseState(st.out + [Command(MoveTo, [p])], p, p)
    else if op == 'L' then
      Emit(st, Command(LineTo, [ArgPoint(args, 0, cur, rel)]))
    else if op == 'H' then
      Emit(st, Command(LineTo, [Point(Resolve(args[0], cur.x, rel), cur.y)]))
    else if op == 'V' then
      Emit(st, Command(LineTo, [Point(cur.x, Resolve(args[0], cur.y, rel))]))
    else if op == 'C' then
      Emit(st, Command(CubicTo, [ArgPoint(args, 0, cur, rel), ArgPoint(args, 2, cur, rel), ArgPoint(args, 4, cur, rel)]))
    else if op == 'S' then
      Emit(st, Command(CubicTo, [SmoothControl(st, CubicTo, 1), ArgPoint(args, 0, cur, rel), ArgPoint(args, 2, cur, rel)]))
    else if op == 'Q' then
      Emit(st, Command(QuadTo, [ArgPoint(args, 0, cur, rel), ArgPoint(args, 2, cur, rel)]))
    else if op == 'T' then
      Emit(st, Command(QuadTo, [SmoothControl(st, QuadTo, 0), ArgPoint(args, 0, cur, rel)]))
    else
      // an arc: rx, ry, rotation and the two flags are read and dropped
      Emit(st, Command(LineTo, [ArgPoint(args, 5, cur, rel)]))
  }

  /** Whether point `j` of a repetition of `op` takes its x (resp. y)
      coordinate from the arguments, and so is offset in relative mode. */
  predicate OffsetsX(op: char, j: nat)
  {
    op != 'V' && !((op == 'S' || op == 'T') && j == 0)
  }

  predicate OffsetsY(op: char, j: nat)
  {
    op != 'H' && !((op == 'S' || op == 'T') && j == 0)
  }

  /** A relative repetition emits the absolute one moved by the current point
      as it stood at the start of the repetition: every point of a `c` shares
      one offset, `h` and `v` move one axis only, and a smooth curve's
      reflected control is not offset. */
  lemma RelativeOffsetsByCurrentPoint(op: char, args: seq<real>, st: ParseState)
    requires (op == 'M' || Repeats(op)) && |args| == GroupSize(op) && WellFormedPath(st.out)
    ensures var n := |st.out|;
            var rel := Repetition(op, true, args, st).out[n];
            var abs := Repetition(op, false, args, st).out[n];
            rel.kind == abs.kind && |rel.points| == |abs.points| &&
            forall j | 0 <= j < |rel.points| ::
              rel.points[j] == Point(abs.points[j].x + (if OffsetsX(op, j) then st.cur.x else 0.0),
                                     abs.points[j].y + (if OffsetsY(op, j) then st.cur.y else 0.0))
  {
  }

  /** An arc's radii, rotation and flags never reach the output. */
  lemma ArcIgnoresRadiiAndFlags(rel: bool, a: seq<real>, b: seq<real>, st: ParseState)
    requires |a| == 7 && |b| == 7 && a[5] == b[5] && a[6] == b[6]
    requires WellFormedPath(st.out)
    ensures Repetition('A', rel, a, st) == Repetition('A', rel, b, st)
    ensures Repetition('A', rel, a, st).out[|st.out|].points == [ArgPoint(a, 5, st.cur, rel)]
  {
  }

  /** A positive run that is a whole number of groups holds at least one group. */
  lemma ModStep(n: nat, g: nat)
    requires g == 1 || g == 2 || g == 4 || g == 6 || g == 7
    requires n >= 1 && n % g == 0
    ensures n >= g && (n - g) % g == 0
  {
  }

  lemma GroupAvailable(op: char, toks: seq<Token>)
    requires Repeats(op) && WellFormedTokens(toks) && NumRun(toks) % GroupSize(op) == 0
    requires |toks| >= GuardLength(op) && toks[0].Number?
    ensures NumRun(toks) >= GroupSize(op) >= 1
    ensures NumRun(toks[GroupSize(op)..]) == NumRun(toks) - GroupSize(op)
    ensures NumRun(toks[GroupSize(op)..]) % GroupSize(op) == 0
    ensures WellFormedTokens(toks[GroupSize(op)..])
    ensures forall j | 0 <= j < GroupSize(op) :: toks[j].Number?
  {
    NumRunShape(toks);
    var g := GroupSize(op);
    var n := NumRun(toks);
    assert n >= 1;
    assert g == 1 || g == 2 || g == 4 || g == 6 || g == 7;
    ModStep(n, g);
    NumRunDrop(toks, g);
    WellFormedSuffix(toks, g);
  }

  lemma MoveToAvailable(toks: seq<Token>)
    requires WellFormedTokens(toks) && |toks| > 0 && toks[0].Letter? && Upper(toks[0].c) == 'M'
    ensures |toks| >= 3 && toks[1].Number? && toks[2].Number?
    ensures WellFormedTokens(toks[3..]) && NumRun(toks[3..]) % 2 == 0
  {
    var ts := toks[1..];
    var n := NumRun(ts);
    assert ArgsFit('M', n);
    ModStep(n, 2);
    NumRunShape(ts);
    assert ts[0].Number? && ts[1].Number?;
    NumRunDrop(ts, 2);
    assert ts[2..] == toks[3..];
    WellFormedSuffix(toks, 3);
  }

  /** The parser's outer loop at token list `toks`: a number outside any
      command is skipped, a letter starts its command. */
  function ParseFrom(toks: seq<Token>, st: ParseState): (r: ParseState)
    requires WellFormedTokens(toks) && WellFormedPath(st.out)
    ensures st.out <= r.out
    ensures WellFormedPath(r.out)
    decreases |toks|, 0
  {
    if toks == [] then st
    else if toks[0].Number? then ParseFrom(toks[1..], st)
    else
      var c := toks[0].c;
      var op := Upper(c);
      if op == 'M' then
        // the first pair is read unconditionally, further pairs are linetos
        MoveToAvailable(toks);
        var st1 := Repetition('M', IsRelative(c), [toks[1].v, toks[2].v], st);
        Run('L', IsRelative(c), toks[3..], st1)
      else if op == 'Z' then
        ParseFrom(toks[1..], ParseState(st.out + [Command(ClosePath, [])], st.start, st.start))
      else if Repeats(op) then
        Run(op, IsRelative(c), toks[1..], st)
      else
        ParseFrom(toks[1..], st)
  }

  /** The inner loop of command `op`: repetitions while its guard holds. */
  function Run(op: char, rel: bool, toks: seq<Token>, st: ParseState): (r: ParseState)
    requires Repeats(op)
    requires WellFormedTokens(toks) && NumRun(toks) % GroupSize(op) == 0
    requires WellFormedPath(st.out)
    ensures st.out <= r.out
    ensures WellFormedPath(r.out)
    decreases |toks|, 1
  {
    if |toks| >= GuardLength(op) && toks[0].Number? then
      GroupAvailable(op, toks);
      var g := GroupSize(op);
      var st1 := Repetition(op, rel, Numbers(toks[..g]), st);
      Run(op, rel, toks[g..], st1)
    else
      ParseFrom(toks, st)
  }

  /** parsePathData: the absolute, well-formed command list of a token list. */
  function ParsePathData(toks: seq<Token>): (r: seq<Command>)
    requires WellFormedTokens(toks)
    ensures WellFormedPath(r)
  {
    ParseFrom(toks, Initial).out
  }

  /** The tokens commandsToPathString writes for one command. */
  function CommandTokens(c: Command): seq<Token>
    requires WellFormed(c)
  {
    match c.kind
    case MoveTo => [Letter('M'), Number(c.points[0].x), Number(c.points[0].y)]
    case LineTo => [Letter('L'), Number(c.points[0].x), Number(c.points[0].y)]
    case CubicTo =>
      [Letter('C'), Number(c.points[0].x), Number(c.points[0].y), Number(c.points[1].x),
       Number(c.points[1].y), Number(c.points[2].x), Number(c.points[2].y)]
    case QuadTo =>
      [Letter('Q'), Number(c.points[0].x), Number(c.points[0].y), Number(c.points[1].x), Number(c.points[1].y)]
    case ClosePath => [Letter('Z')]
  }

  /** commandsToPathString at token level: the commands' tokens in order. */
  function ToTokens(cs: seq<Command>): seq<Token>
    requires WellFormedPath(cs)
  {
    if cs == [] then [] else CommandTokens(cs[0]) + ToTokens(cs[1..])
  }

  lemma {:induction false} NumbersThen(ns: seq<Token>, rest: seq<Token>)
    requires forall j | 0 <= j < |ns| :: ns[j].Number?
    ensures NumRun(ns + rest) == |ns| + NumRun(rest)
    ensures WellFormedTokens(rest) ==> WellFormedTokens(ns + rest)
    decreases |ns|
  {
    if ns != [] {
      var all := ns + rest;
      assert all[0] == ns[0];
      assert all[1..] == ns[1..] + rest;
      NumbersThen(ns[1..], rest);
      assert NumRun(all) == 1 + NumRun(all[1..]);
      if WellFormedTokens(rest) {
        assert WellFormedTokens(all[1..]);
        assert !all[0].Letter?;
      }
    } else {
      assert ns + rest == rest;
    }
  }

  /** The letter commandsToPathString writes for each tag. */
  function LetterOf(k: Kind): char
  {
    match k
    case MoveTo => 'M'
    case LineTo => 'L'
    case CubicTo => 'C'
    case QuadTo => 'Q'
    case ClosePath => 'Z'
  }

  /** A command's tokens: its letter, then both coordinates of each point. */
  lemma CommandTokensShape(c: Command)
    requires WellFormed(c)
    ensures var t := CommandTokens(c);
            |t| == 1 + 2 * Arity(c.kind) && t[0] == Letter(LetterOf(c.kind)) &&
            (forall j | 1 <= j < |t| :: t[j].Number?) &&
            ArgsFit(Upper(LetterOf(c.kind)), |t| - 1)
  {
  }

  /** The parser's state after reading one absolute command. */
  function Absorb(st: ParseState, c: Command): (r: ParseState)
    requires WellFormed(c)
    ensures r.out == st.out + [c]
  {
    match c.kind
    case MoveTo => ParseState(st.out + [c], c.points[0], c.points[0])
    case ClosePath => ParseState(st.out + [c], st.start, st.start)
    case _ => ParseState(st.out + [c], EndPoint(c), st.start)
  }

  /** A letter in front of a well-formed token list whose numeric run fits the
      letter. */
  lemma LetterThen(l: char, body: seq<Token>)
    requires WellFormedTokens(body) && ArgsFit(Upper(l), NumRun(body))
    ensures WellFormedTokens([Letter(l)] + body)
    ensures NumRun(([Letter(l)] + body)[1..]) == NumRun(body)
  {
    assert ([Letter(l)] + body)[1..] == body;
  }

  /** A letter and a run of numbers that fits it, followed by tokens that start
      with a letter, are well-formed when the rest is. */
  lemma GroupThen(t: seq<Token>, rest: seq<Token>)
    requires t != [] && t[0].Letter? && (forall j | 1 <= j < |t| :: t[j].Number?)
    requires ArgsFit(Upper(t[0].c), |t| - 1)
    requires WellFormedTokens(rest) && (rest == [] || rest[0].Letter?)
    ensures WellFormedTokens(t + rest)
    ensures NumRun((t + rest)[1..]) == |t| - 1
  {
    assert NumRun(rest) == 0;
    TailNumbers(t);
    NumbersThen(t[1..], rest);
    ConsSplit(t, rest);
    LetterThen(t[0].c, t[1..] + rest);
  }

  lemma TailNumbers(t: seq<Token>)
    requires t != [] && forall j | 1 <= j < |t| :: t[j].Number?
    ensures forall j | 0 <= j < |t[1..]| :: t[1..][j].Number?
  {
  }

  lemma ConsSplit(t: seq<Token>, rest: seq<Token>)
    requires t != [] && t[0].Letter?
    ensures t + rest == [Letter(t[0].c)] + (t[1..] + rest)
  {
  }

  /** A command's tokens followed by tokens that start with a letter are
      well-formed when the rest is. */
  lemma TokensThen(c: Command, rest: seq<Token>)
    requires WellFormed(c) && WellFormedTokens(rest) && (rest == [] || rest[0].Letter?)
    ensures WellFormedTokens(CommandTokens(c) + rest)
    ensures NumRun((CommandTokens(c) + rest)[1..]) == |CommandTokens(c)| - 1
  {
    CommandTokensShape(c);
    GroupThen(CommandTokens(c), rest);
  }

  lemma ParseRepeatedThen(c: Command, rest: seq<Token>, st: ParseState)
    requires WellFormed(c) && (c.kind == LineTo || c.kind == CubicTo || c.kind == QuadTo)
    requires WellFormedTokens(rest) && (rest == [] || rest[0].Letter?) && WellFormedPath(st.out)
    ensures WellFormedTokens(CommandTokens(c) + rest)
    ensures ParseFrom(CommandTokens(c) + rest, st) == ParseFrom(rest, Absorb(st, c))
  {
    TokensThen(c, rest);
    var t := CommandTokens(c);
    var toks := t + rest;
    CommandTokensShape(c);
    var g := |t| - 1;
    assert toks[0] == Letter(LetterOf(c.kind));
    assert forall j | 1 <= j <= g :: toks[j] == t[j];
    assert toks[1..1 + g] == t[1..];
    assert toks[1 + g..] == rest;
    OneGroupThen(LetterOf(c.kind), toks, st);
    RepetitionAbsorbs(c, st);
  }

  /** An uppercase repeating letter with exactly one group of numbers, then a
      letter: the inner loop runs once and hands back to the outer loop. */
  lemma OneGroupThen(op: char, toks: seq<Token>, st: ParseState)
    requires op in "LCQ" && |toks| > GroupSize(op) && toks[0] == Letter(op)
    requires WellFormedTokens(toks) && WellFormedPath(st.out)
    requires NumRun(toks[1..]) == GroupSize(op)
    requires forall j | 1 <= j <= GroupSize(op) :: toks[j].Number?
    ensures WellFormedTokens(toks[1 + GroupSize(op)..])
    ensures ParseFrom(toks, st)
            == ParseFrom(toks[1 + GroupSize(op)..],
                         Repetition(op, false, Numbers(toks[1..1 + GroupSize(op)]), st))
  {
    var g := GroupSize(op);
    OneGroupRun(op, toks, st);
    RunAtLetter(op, false, toks[1 + g..], Repetition(op, false, Numbers(toks[1..1 + g]), st));
  }

  /** The inner loop reads the one group and reaches the rest of the list. */
  lemma OneGroupRun(op: char, toks: seq<Token>, st: ParseState)
    requires op in "LCQ" && |toks| > GroupSize(op) && toks[0] == Letter(op)
    requires WellFormedTokens(toks) && WellFormedPath(st.out)
    requires NumRun(toks[1..]) == GroupSize(op)
    requires forall j | 1 <= j <= GroupSize(op) :: toks[j].Number?
    ensures WellFormedTokens(toks[1 + GroupSize(op)..]) && NumRun(toks[1 + GroupSize(op)..]) == 0
    ensures WellFormedPath(Repetition(op, false, Numbers(toks[1..1 + GroupSize(op)]), st).out)
    ensures ParseFrom(toks, st)
            == Run(op, false, toks[1 + GroupSize(op)..],
                   Repetition(op, false, Numbers(toks[1..1 + GroupSize(op)]), st))
  {
    EnterGroup(op, toks, st);
    RunOneGroupAfter(op, toks, st);
  }

  /** The outer loop at the letter hands its one group to the inner loop,
      whose guard holds. */
  lemma EnterGroup(op: char, toks: seq<Token>, st: ParseState)
    requires op in "LCQ" && |toks| > GroupSize(op) && toks[0] == Letter(op)
    requires WellFormedTokens(toks) && WellFormedPath(st.out)
    requires NumRun(toks[1..]) == GroupSize(op)
    requires forall j | 1 <= j <= GroupSize(op) :: toks[j].Number?
    ensures Repeats(op) && WellFormedTokens(toks[1..]) && NumRun(toks[1..]) % GroupSize(op) == 0
    ensures |toks[1..]| >= GuardLength(op) && toks[1..][0].Number?
    ensures ParseFrom(toks, st) == Run(op, false, toks[1..], st)
  {
    LetterStartsRun(op, toks, st);
    WholeGroup(op, toks[1..]);
  }

  /** One pass of the inner loop, stated on the list that holds the letter. */
  lemma RunOneGroupAfter(op: char, toks: seq<Token>, st: ParseState)
    requires op in "LCQ" && |toks| > GroupSize(op) && WellFormedPath(st.out)
    requires NumRun(toks[1..]) == GroupSize(op)
    requires Repeats(op) && WellFormedTokens(toks[1..]) && NumRun(toks[1..]) % GroupSize(op) == 0
    requires |toks[1..]| >= GuardLength(op) && toks[1..][0].Number?
    requires forall j | 1 <= j <= GroupSize(op) :: toks[j].Number?
    ensures WellFormedTokens(toks[1 + GroupSize(op)..]) && NumRun(toks[1 + GroupSize(op)..]) == 0
    ensures Run(op, false, toks[1..], st)
            == Run(op, false, toks[1 + GroupSize(op)..],
                   Repetition(op, false, Numbers(toks[1..1 + GroupSize(op)]), st))
  {
    var g := GroupSize(op);
    RunOneGroup(op, false, toks[1..], st);
    SliceShift(toks, g);
  }

  /** Exactly one group of L, C or Q numbers is a whole number of groups and
      passes the loop guard. */
  lemma WholeGroup(op: char, ts: seq<Token>)
    requires op in "LCQ" && NumRun(ts) == GroupSize(op)
    ensures NumRun(ts) % GroupSize(op) == 0 && |ts| >= GuardLength(op)
  {
    if op == 'L' {
      assert NumRun(ts) == 2;
    } else if op == 'C' {
      assert NumRun(ts) == 6;
    } else {
      assert NumRun(ts) == 4;
    }
  }

  lemma SliceShift(toks: seq<Token>, g: nat)
    requires 1 + g <= |toks|
    ensures toks[1..][..g] == toks[1..1 + g] && toks[1..][g..] == toks[1 + g..]
  {
  }

  /** One pass of an inner loop whose guard holds. */
  lemma RunOneGroup(op: char, rel: bool, ts: seq<Token>, st: ParseState)
    requires Repeats(op) && WellFormedTokens(ts) && NumRun(ts) % GroupSize(op) == 0
    requires |ts| >= GuardLength(op) && ts[0].Number? && WellFormedPath(st.out)
    ensures NumRun(ts) >= GroupSize(op) >= 1
    ensures NumRun(ts[GroupSize(op)..]) == NumRun(ts) - GroupSize(op)
    ensures NumRun(ts[GroupSize(op)..]) % GroupSize(op) == 0
    ensures WellFormedTokens(ts[GroupSize(op)..])
    ensures forall j | 0 <= j < GroupSize(op) :: ts[j].Number?
    ensures Run(op, rel, ts, st)
            == Run(op, rel, ts[GroupSize(op)..], Repetition(op, rel, Numbers(ts[..GroupSize(op)]), st))
  {
    GroupAvailable(op, ts);
  }

  /** The outer loop at an uppercase repeating letter other than M enters its
      inner loop. */
  lemma LetterStartsRun(op: char, toks: seq<Token>, st: ParseState)
    requires op in "LCQ" && toks != [] && toks[0] == Letter(op)
    requires WellFormedTokens(toks) && WellFormedPath(st.out)
    ensures WellFormedTokens(toks[1..]) && NumRun(toks[1..]) % GroupSize(op) == 0
    ensures ParseFrom(toks, st) == Run(op, false, toks[1..], st)
  {
    assert Upper(op) == op && !IsRelative(op) && Repeats(op) && op != 'M' && op != 'Z';
  }

  /** An inner loop that meets a letter or the end hands back to the outer loop. */
  lemma RunAtLetter(op: char, rel: bool, toks: seq<Token>, st: ParseState)
    requires Repeats(op) && WellFormedTokens(toks) && WellFormedPath(st.out)
    requires NumRun(toks) == 0
    ensures Run(op, rel, toks, st) == ParseFrom(toks, st)
  {
    assert toks == [] || toks[0].Letter?;
  }

  /** Replaying a serialized L, C or Q command's numbers appends it. */
  lemma RepetitionAbsorbs(c: Command, st: ParseState)
    requires WellFormed(c) && (c.kind == LineTo || c.kind == CubicTo || c.kind == QuadTo)
    requires WellFormedPath(st.out)
    ensures Repetition(LetterOf(c.kind), false, Numbers(CommandTokens(c)[1..]), st) == Absorb(st, c)
  {
    var args := Numbers(CommandTokens(c)[1..]);
    if c.kind == LineTo {
      assert args == [c.points[0].x, c.points[0].y];
      assert c.points == [c.points[0]];
    } else if c.kind == QuadTo {
      assert args == [c.points[0].x, c.points[0].y, c.points[1].x, c.points[1].y];
      assert c.points == [c.points[0], c.points[1]];
    } else {
      assert args == [c.points[0].x, c.points[0].y, c.points[1].x, c.points[1].y,
                      c.points[2].x, c.points[2].y];
      assert c.points == [c.points[0], c.points[1], c.points[2]];
    }
  }

  /** Reading one moveto and then a letter. */
  lemma ParseMoveThen(c: Command, rest: seq<Token>, st: ParseState)
    requires WellFormed(c) && c.kind == MoveTo
    requires WellFormedTokens(rest) && (rest == [] || rest[0].Letter?) && WellFormedPath(st.out)
    ensures WellFormedTokens(CommandTokens(c) + rest)
    ensures ParseFrom(CommandTokens(c) + rest, st) == ParseFrom(rest, Absorb(st, c))
  {
    TokensThen(c, rest);
    var toks := CommandTokens(c) + rest;
    assert c.points == [c.points[0]];
    var st1 := Repetition('M', false, [c.points[0].x, c.points[0].y], st);
    assert st1 == Absorb(st, c);
    assert toks[3..] == rest;
    assert ParseFrom(toks, st) == Run('L', false, rest, st1);
    assert Run('L', false, rest, st1) == ParseFrom(rest, st1);
  }

  /** Reading one closepath and then a letter. */
  lemma ParseCloseThen(c: Command, rest: seq<Token>, st: ParseState)
    requires WellFormed(c) && c.kind == ClosePath
    requires WellFormedTokens(rest) && (rest == [] || rest[0].Letter?) && WellFormedPath(st.out)
    ensures WellFormedTokens(CommandTokens(c) + rest)
    ensures ParseFrom(CommandTokens(c) + rest, st) == ParseFrom(rest, Absorb(st, c))
  {
    TokensThen(c, rest);
    var toks := CommandTokens(c) + rest;
    assert c == Command(ClosePath, []);
    assert toks[1..] == rest;
  }

  /** Serialized commands are well-formed path data that starts with a letter. */
  lemma {:induction false} SerializedWellFormed(cs: seq<Command>)
    requires WellFormedPath(cs)
    ensures WellFormedTokens(ToTokens(cs))
    ensures cs != [] ==> ToTokens(cs)[0].Letter?
    decreases |cs|
  {
    if cs != [] {
      SerializedWellFormed(cs[1..]);
      TokensThen(cs[0], ToTokens(cs[1..]));
      CommandTokensShape(cs[0]);
    }
  }

  /** Reading one absolute command and then a letter. */
  lemma ParseCommandThen(c: Command, rest: seq<Token>, st: ParseState)
    requires WellFormed(c)
    requires WellFormedTokens(rest) && (rest == [] || rest[0].Letter?) && WellFormedPath(st.out)
    ensures WellFormedTokens(CommandTokens(c) + rest)
    ensures ParseFrom(CommandTokens(c) + rest, st) == ParseFrom(rest, Absorb(st, c))
  {
    if c.kind == MoveTo {
      ParseMoveThen(c, rest, st);
    } else if c.kind == ClosePath {
      ParseCloseThen(c, rest, st);
    } else {
      ParseRepeatedThen(c, rest, st);
    }
  }

  /** Serializing a non-empty list and parsing one command of it. */
  lemma ParseFirstCommand(cs: seq<Command>, st: ParseState)
    requires WellFormedPath(cs) && cs != [] && WellFormedPath(st.out)
    ensures WellFormedTokens(ToTokens(cs)) && WellFormedTokens(ToTokens(cs[1..]))
    ensures WellFormedPath(Absorb(st, cs[0]).out)
    ensures ParseFrom(ToTokens(cs), st) == ParseFrom(ToTokens(cs[1..]), Absorb(st, cs[0]))
  {
    var rest := ToTokens(cs[1..]);
    SerializedWellFormed(cs[1..]);
    assert ToTokens(cs) == CommandTokens(cs[0]) + rest;
    ParseCommandThen(cs[0], rest, st);
  }

  /** Parsing the serialization of a well-formed command list, from any
      state, appends exactly that list. */
  lemma {:induction false} ParseSerializedFrom(cs: seq<Command>, st: ParseState)
    requires WellFormedPath(cs) && WellFormedPath(st.out)
    ensures WellFormedTokens(ToTokens(cs))
    ensures ParseFrom(ToTokens(cs), st).out == st.out + cs
    decreases |cs|
  {
    if cs == [] {
      assert ToTokens(cs) == [];
      assert st.out + cs == st.out;
    } else {
      ParseFirstCommand(cs, st);
      var st1 := Absorb(st, cs[0]);
      ParseSerializedFrom(cs[1..], st1);
      AppendAfterFirst(ParseFrom(ToTokens(cs), st), ParseFrom(ToTokens(cs[1..]), st1), st1.out, st.out, cs);
    }
  }

  lemma AppendAfterFirst(a: ParseState, b: ParseState, out1: seq<Command>, base: seq<Command>, cs: seq<Command>)
    requires cs != [] && a == b && b.out == out1 + cs[1..] && out1 == base + [cs[0]]
    ensures a.out == base + cs
  {
    assert cs == [cs[0]] + cs[1..];
  }

  /** A moveto reads its first pair unconditionally: the point, offset by
      the current point when relative, becomes both the current point and
      the subpath start, and further pairs are read as linetos in the same
      mode. */
  lemma MoveToStartsSubpath(c: char, x: real, y: real, rest: seq<Token>, st: ParseState)
    requires Upper(c) == 'M' && WellFormedPath(st.out)
    requires WellFormedTokens([Letter(c), Number(x), Number(y)] + rest)
    ensures var p := Point(Resolve(x, st.cur.x, IsRelative(c)), Resolve(y, st.cur.y, IsRelative(c)));
      WellFormedTokens(rest) && NumRun(rest) % GroupSize('L') == 0 &&
      ParseFrom([Letter(c), Number(x), Number(y)] + rest, st)
        == Run('L', IsRelative(c), rest, ParseState(st.out + [Command(MoveTo, [p])], p, p))
  {
    var toks := [Letter(c), Number(x), Number(y)] + rest;
    MoveToAvailable(toks);
    assert toks[3..] == rest;
  }

  /** A closepath emits Z and moves the current point back to the subpath
      start. */
  lemma ClosePathResets(c: char, rest: seq<Token>, st: ParseState)
    requires Upper(c) == 'Z' && WellFormedPath(st.out)
    requires WellFormedTokens([Letter(c)] + rest)
    ensures WellFormedTokens(rest)
    ensures ParseFrom([Letter(c)] + rest, st)
            == ParseFrom(rest, ParseState(st.out + [Command(ClosePath, [])], st.start, st.start))
  {
    assert ([Letter(c)] + rest)[1..] == rest;
  }

  /** Round trip: the token stream commandsToPathString writes for a
      well-formed command list parses back to exactly that list. */
  lemma RoundTrip(cs: seq<Command>)
    requires WellFormedPath(cs)
    ensures WellFormedTokens(ToTokens(cs))
    ensures ParsePathData(ToTokens(cs)) == cs
  {
    ParseSerializedFrom(cs, Initial);
  }
}

=== FILE: svg_shapes.dfy ===
/** The SVG importer (src/lib/utils/svg-parser.ts): the document's size, the
    per-element style attributes, the conversion of the basic shapes of
    chapter 9 of SVG 1.1 (rect, circle, ellipse, polygon, polyline, line) to
    path commands, and the assembly of everything into one imported layer.
    The DOM is modelled by its already read attributes; a fresh uuid is the
    element's `uid`. */
module SvgShapes {
  import opened Types
  import SvgPath

  /** Cubic-Bezier constant for a quarter circle. */
  const Kappa: real := 0.5522847498

  // ---------------------------------------------------------------------------
  // Attributes and style
  // ---------------------------------------------------------------------------

  /** A text attribute read with `|| undefined`: absent and empty are both
      undefined. */
  function TextAttr(a: Option<string>): Option<string>
  {
    if a.None? || a.value == "" then None else a
  }

  /** `stroke-width` read as `parseFloat(v || '0') || undefined`: a missing
      value and zero both give undefined. */
  function StrokeWidthAttr(a: Option<real>): Option<real>
  {
    if a.None? || a.value == 0.0 then None else a
  }

  /** A numeric geometry attribute read as `parseFloat(v || default)`. */
  function NumAttr(a: Option<real>, default: real): real
  {
    if a.Some? then a.value else default
  }

  /** The three presentation attributes as they stand on the element:
      `None` is an absent attribute. */
  datatype Style = Style(fill: Option<string>, stroke: Option<string>, strokeWidth: Option<real>)

  /** The path record every shape converter builds. */
  function ShapePath(uid: string, commands: seq<Command>, s: Style): PathData
  {
    PathData(uid, commands, TextAttr(s.fill), TextAttr(s.stroke), StrokeWidthAttr(s.strokeWidth))
  }

  /** `<path>` elements alone also turn a literal "none" fill or stroke into
      undefined. */
  function NoneAsAbsent(a: Option<string>): Option<string>
  {
    if a == Some("none") then None else a
  }

  // ---------------------------------------------------------------------------
  // Geometry predicates used by the shape lemmas
  // ---------------------------------------------------------------------------

  predicate InRect(p: Point, lo: Point, hi: Point)
  {
    lo.x <= p.x <= hi.x && lo.y <= p.y <= hi.y
  }

  /** Every point any command carries, control points included, lies in the
      axis-aligned box from `lo` to `hi`. */
  predicate AllPointsIn(cs: seq<Command>, lo: Point, hi: Point)
  {
    forall c | c in cs :: PointsIn(c, lo, hi)
  }

  predicate PointsIn(c: Command, lo: Point, hi: Point)
  {
    forall p | p in c.points :: InRect(p, lo, hi)
  }

  /** `a`, `b` and `c` lie on one line. */
  predicate Collinear(a: Point, b: Point, c: Point)
  {
    (b.x - a.x) * (c.y - a.y) == (b.y - a.y) * (c.x - a.x)
  }

  /** `p` lies on the ellipse of centre `(cx, cy)` and radii `rx`, `ry`. */
  predicate OnEllipse(p: Point, cx: real, cy: real, rx: real, ry: real)
  {
    (p.x - cx) * (p.x - cx) * (ry * ry) + (p.y - cy) * (p.y - cy) * (rx * rx) == rx * rx * (ry * ry)
  }

  function MoveCmd(p: Point): Command { Command(MoveTo, [p]) }

  function LineCmd(p: Point): Command { Command(LineTo, [p]) }

  function CubicCmd(c1: Point, c2: Point, e: Point): Command { Command(CubicTo, [c1, c2, e]) }

  const Close: Command := Command(ClosePath, [])

  lemma CubicIn(c1: Point, c2: Point, e: Point, lo: Point, hi: Point)
    requires InRect(c1, lo, hi) && InRect(c2, lo, hi) && InRect(e, lo, hi)
    ensures PointsIn(CubicCmd(c1, c2, e), lo, hi)
  {
  }

  // ---------------------------------------------------------------------------
  // rect
  // ---------------------------------------------------------------------------

  /** The smaller of a corner radius and half the side it sits on. */
  function Clamp(r: real, half: real): (c: real)
    ensures c <= r && c <= half && (c == r || c == half)
  {
    if r <= half then r else half
  }

  /** Four straight sides clockwise from `(x, y)`. */
  function SharpOutline(x: real, y: real, w: real, h: real): (cs: seq<Command>)
    ensures WellFormedPath(cs)
  {
    [MoveCmd(Point(x, y)), LineCmd(Point(x + w, y)), LineCmd(Point(x + w, y + h)),
     LineCmd(Point(x, y + h)), Close]
  }

  /** Four sides joined by quarter-ellipse corners of radii `crx` and `cry`,
      clockwise from the top side; `kx` and `ky` are the lengths of the
      corner curves' control handles. */
  function RoundedOutline(x: real, y: real, w: real, h: real, crx: real, cry: real, kx: real, ky: real): (cs: seq<Command>)
    ensures WellFormedPath(cs) && |cs| == 10
  {
    [ MoveCmd(Point(x + crx, y)),
      LineCmd(Point(x + w - crx, y)),
      CubicCmd(Point(x + w - crx + kx, y), Point(x + w, y + cry - ky), Point(x + w, y + cry)),
      LineCmd(Point(x + w, y + h - cry)),
      CubicCmd(Point(x + w, y + h - cry + ky), Point(x + w - crx + kx, y + h), Point(x + w - crx, y + h)),
      LineCmd(Point(x + crx, y + h)),
      CubicCmd(Point(x + crx - kx, y + h), Point(x, y + h - cry + ky), Point(x, y + h - cry)),
      LineCmd(Point(x, y + cry)),
      CubicCmd(Point(x, y + cry - ky), Point(x + crx - kx, y), Point(x + crx, y)),
      Close ]
  }

  /** The outline of a rectangle: straight sides when both radii are zero,
      otherwise rounded corners whose radii are clamped to half the width and
      half the height. */
  function RectCommands(x: real, y: real, w: real, h: real, rx: real, ry: real): (cs: seq<Command>)
    ensures WellFormedPath(cs)
  {
    if rx == 0.0 && ry == 0.0 then SharpOutline(x, y, w, h)
    else
      var crx, cry := Clamp(rx, w / 2.0), Clamp(ry, h / 2.0);
      RoundedOutline(x, y, w, h, crx, cry, crx * Kappa, cry * Kappa)
  }

  /** rectToPath: nothing for a zero width or height; `ry` defaults to `rx`. */
  function RectToPath(uid: string, x: Option<real>, y: Option<real>, width: Option<real>, height: Option<real>,
                      rx: Option<real>, ry: Option<real>, s: Style): (r: Option<PathData>)
    ensures r.None? <==> NumAttr(width, 0.0) == 0.0 || NumAttr(height, 0.0) == 0.0
    ensures r.Some? ==> r.value.id == uid && WellFormedPath(r.value.commands) && |r.value.commands| >= 5
  {
    var w := NumAttr(width, 0.0);
    var h := NumAttr(height, 0.0);
    var rxv := NumAttr(rx, 0.0);
    var ryv := NumAttr(ry, rxv);
    if w == 0.0 || h == 0.0 then None
    else Some(ShapePath(uid, RectCommands(NumAttr(x, 0.0), NumAttr(y, 0.0), w, h, rxv, ryv), s))
  }

  /** A missing `ry` takes the value of `rx`: a rect with only `rx` has
      circular corners. */
  lemma RectRyDefaultsToRx(uid: string, x: Option<real>, y: Option<real>, width: Option<real>, height: Option<real>,
                           rx: Option<real>, s: Style)
    ensures RectToPath(uid, x, y, width, height, rx, None, s) == RectToPath(uid, x, y, width, height, rx, Some(NumAttr(rx, 0.0)), s)
  {
  }

  /** A sharp rectangle visits its four corners clockwise from `(x, y)`. */
  lemma SharpRectCorners(x: real, y: real, w: real, h: real)
    ensures var cs := RectCommands(x, y, w, h, 0.0, 0.0);
            Kinds(cs) == [MoveTo, LineTo, LineTo, LineTo, ClosePath] &&
            cs[0].points == [Point(x, y)] && cs[1].points == [Point(x + w, y)] &&
            cs[2].points == [Point(x + w, y + h)] && cs[3].points == [Point(x, y + h)]
  {
  }

  /** Scaling a non-negative length by the constant keeps it between zero
      and itself. */
  lemma KappaShrinks(v: real)
    requires v >= 0.0
    ensures 0.0 <= v * Kappa <= v
  {
  }

  lemma RoundedInsideBox(x: real, y: real, w: real, h: real, crx: real, cry: real, kx: real, ky: real)
    requires 0.0 <= crx <= w / 2.0 && 0.0 <= cry <= h / 2.0
    requires 0.0 <= kx <= crx && 0.0 <= ky <= cry
    ensures AllPointsIn(RoundedOutline(x, y, w, h, crx, cry, kx, ky), Point(x, y), Point(x + w, y + h))
  {
    var lo, hi := Point(x, y), Point(x + w, y + h);
    CubicIn(Point(x + w - crx + kx, y), Point(x + w, y + cry - ky), Point(x + w, y + cry), lo, hi);
    CubicIn(Point(x + w, y + h - cry + ky), Point(x + w - crx + kx, y + h), Point(x + w - crx, y + h), lo, hi);
    CubicIn(Point(x + crx - kx, y + h), Point(x, y + h - cry + ky), Point(x, y + h - cry), lo, hi);
    CubicIn(Point(x, y + cry - ky), Point(x + crx - kx, y), Point(x + crx, y), lo, hi);
    assert PointsIn(MoveCmd(Point(x + crx, y)), lo, hi);
    assert PointsIn(LineCmd(Point(x + w - crx, y)), lo, hi);
    assert PointsIn(LineCmd(Point(x + w, y + h - cry)), lo, hi);
    assert PointsIn(LineCmd(Point(x + crx, y + h)), lo, hi);
    assert PointsIn(LineCmd(Point(x, y + cry)), lo, hi);
  }

  /** For a positive size and non-negative radii, every point of the outline,
      the corner control points included, stays inside the rectangle. */
  lemma RectInsideBox(x: real, y: real, w: real, h: real, rx: real, ry: real)
    requires w > 0.0 && h > 0.0 && rx >= 0.0 && ry >= 0.0
    ensures AllPointsIn(RectCommands(x, y, w, h, rx, ry), Point(x, y), Point(x + w, y + h))
  {
    if !(rx == 0.0 && ry == 0.0) {
      var crx, cry := Clamp(rx, w / 2.0), Clamp(ry, h / 2.0);
      assert 0.0 <= crx <= w / 2.0 && 0.0 <= cry <= h / 2.0;
      var kx, ky := crx * Kappa, cry * Kappa;
      KappaShrinks(crx);
      KappaShrinks(cry);
      RoundedInsideBox(x, y, w, h, crx, cry, kx, ky);
      assert RectCommands(x, y, w, h, rx, ry) == RoundedOutline(x, y, w, h, crx, cry, kx, ky);
    } else {
      var lo, hi := Point(x, y), Point(x + w, y + h);
      assert PointsIn(MoveCmd(Point(x, y)), lo, hi);
      assert PointsIn(LineCmd(Point(x + w, y)), lo, hi);
      assert PointsIn(LineCmd(Point(x + w, y + h)), lo, hi);
      assert PointsIn(LineCmd(Point(x, y + h)), lo, hi);
    }
  }

  lemma HorizontalCollinear(a: Point, b: Point, c: Point)
    requires a.y == b.y == c.y
    ensures Collinear(a, b, c)
  {
  }

  lemma VerticalCollinear(a: Point, b: Point, c: Point)
    requires a.x == b.x == c.x
    ensures Collinear(a, b, c)
  {
  }

  /** The ten commands of a rounded outline, with the curve of corner `j`
      leaving along the side before it and arriving along the side after it. */
  predicate SmoothCorner(cs: seq<Command>, j: nat)
    requires WellFormedPath(cs) && j < 4
    requires Kinds(cs) == [MoveTo, LineTo, CubicTo, LineTo, CubicTo, LineTo, CubicTo, LineTo, CubicTo, ClosePath]
  {
    var side := cs[1 + 2 * j];
    var corner := cs[2 + 2 * j];
    var next := cs[if j == 3 then 1 else 3 + 2 * j];
    assert Kinds(cs)[2 * j] == cs[2 * j].kind;
    Collinear(EndPoint(cs[2 * j]), EndPoint(side), corner.points[0]) &&
    Collinear(corner.points[1], EndPoint(corner), EndPoint(next))
  }

  lemma RoundedKinds(x: real, y: real, w: real, h: real, crx: real, cry: real, kx: real, ky: real)
    ensures Kinds(RoundedOutline(x, y, w, h, crx, cry, kx, ky))
            == [MoveTo, LineTo, CubicTo, LineTo, CubicTo, LineTo, CubicTo, LineTo, CubicTo, ClosePath]
  {
  }

  lemma RoundedSmooth(x: real, y: real, w: real, h: real, crx: real, cry: real, kx: real, ky: real)
    ensures Kinds(RoundedOutline(x, y, w, h, crx, cry, kx, ky))
            == [MoveTo, LineTo, CubicTo, LineTo, CubicTo, LineTo, CubicTo, LineTo, CubicTo, ClosePath]
    ensures var cs := RoundedOutline(x, y, w, h, crx, cry, kx, ky);
            EndPoint(cs[8]) == cs[0].points[0] && forall j | 0 <= j < 4 :: SmoothCorner(cs, j)
  {
    var cs := RoundedOutline(x, y, w, h, crx, cry, kx, ky);
    RoundedKinds(x, y, w, h, crx, cry, kx, ky);
    forall j | 0 <= j < 4
      ensures SmoothCorner(cs, j)
    {
      RoundedCorner(x, y, w, h, crx, cry, kx, ky, j);
    }
  }

  /** Corner j of the rounded outline: the side before it and the side
      after it are tangent to its curve. */
  lemma RoundedCorner(x: real, y: real, w: real, h: real, crx: real, cry: real, kx: real, ky: real, j: nat)
    requires j < 4
    ensures Kinds(RoundedOutline(x, y, w, h, crx, cry, kx, ky))
            == [MoveTo, LineTo, CubicTo, LineTo, CubicTo, LineTo, CubicTo, LineTo, CubicTo, ClosePath]
    ensures SmoothCorner(RoundedOutline(x, y, w, h, crx, cry, kx, ky), j)
  {
    RoundedKinds(x, y, w, h, crx, cry, kx, ky);
    if j == 0 {
      HorizontalCollinear(Point(x + crx, y), Point(x + w - crx, y), Point(x + w - crx + kx, y));
      VerticalCollinear(Point(x + w, y + cry - ky), Point(x + w, y + cry), Point(x + w, y + h - cry));
    } else if j == 1 {
      VerticalCollinear(Point(x + w, y + cry), Point(x + w, y + h - cry), Point(x + w, y + h - cry + ky));
      HorizontalCollinear(Point(x + w - crx + kx, y + h), Point(x + w - crx, y + h), Point(x + crx, y + h));
    } else if j == 2 {
      HorizontalCollinear(Point(x + w - crx, y + h), Point(x + crx, y + h), Point(x + crx - kx, y + h));
      VerticalCollinear(Point(x, y + h - cry + ky), Point(x, y + h - cry), Point(x, y + cry));
    } else {
      VerticalCollinear(Point(x, y + h - cry), Point(x, y + cry), Point(x, y + cry - ky));
      HorizontalCollinear(Point(x + crx - kx, y), Point(x + crx, y), Point(x + w - crx, y));
    }
  }

  /** A rounded rectangle's last corner ends where its moveto started, and
      the outline has no kink at any corner. */
  lemma RoundedRectClosedAndSmooth(x: real, y: real, w: real, h: real, rx: real, ry: real)
    requires !(rx == 0.0 && ry == 0.0)
    ensures var cs := RectCommands(x, y, w, h, rx, ry);
            Kinds(cs) == [MoveTo, LineTo, CubicTo, LineTo, CubicTo, LineTo, CubicTo, LineTo, CubicTo, ClosePath] &&
            EndPoint(cs[8]) == cs[0].points[0] && forall j | 0 <= j < 4 :: SmoothCorner(cs, j)
  {
    var crx, cry := Clamp(rx, w / 2.0), Clamp(ry, h / 2.0);
    var kx, ky := crx * Kappa, cry * Kappa;
    RoundedSmooth(x, y, w, h, crx, cry, kx, ky);
    assert RectCommands(x, y, w, h, rx, ry) == RoundedOutline(x, y, w, h, crx, cry, kx, ky);
  }

  // ---------------------------------------------------------------------------
  // circle and ellipse
  // ---------------------------------------------------------------------------

  /** Four cubic quarter arcs counter-clockwise from the rightmost point;
      `kx` and `ky` are the lengths of the control handles. */
  function EllipseOutline(cx: real, cy: real, rx: real, ry: real, kx: real, ky: real): (cs: seq<Command>)
    ensures WellFormedPath(cs) && |cs| == 6
  {
    [ MoveCmd(Point(cx + rx, cy)),
      CubicCmd(Point(cx + rx, cy + ky), Point(cx + kx, cy + ry), Point(cx, cy + ry)),
      CubicCmd(Point(cx - kx, cy + ry), Point(cx - rx, cy + ky), Point(cx - rx, cy)),
      CubicCmd(Point(cx - rx, cy - ky), Point(cx - kx, cy - ry), Point(cx, cy - ry)),
      CubicCmd(Point(cx + kx, cy - ry), Point(cx + rx, cy - ky), Point(cx + rx, cy)),
      Close ]
  }

  /** The ellipse outline with the quarter-circle handle constant. */
  function EllipseCommands(cx: real, cy: real, rx: real, ry: real): (cs: seq<Command>)
    ensures WellFormedPath(cs) && |cs| == 6
  {
    EllipseOutline(cx, cy, rx, ry, Kappa * rx, Kappa * ry)
  }

  /** ellipseToPath: nothing when either radius is zero. */
  function EllipseToPath(uid: string, cx: Option<real>, cy: Option<real>, rx: Option<real>, ry: Option<real>,
                         s: Style): (r: Option<PathData>)
    ensures r.None? <==> NumAttr(rx, 0.0) == 0.0 || NumAttr(ry, 0.0) == 0.0
    ensures r.Some? ==> r.value.id == uid && WellFormedPath(r.value.commands) && |r.value.commands| == 6
  {
    var rxv := NumAttr(rx, 0.0);
    var ryv := NumAttr(ry, 0.0);
    if rxv == 0.0 || ryv == 0.0 then None
    else Some(ShapePath(uid, EllipseCommands(NumAttr(cx, 0.0), NumAttr(cy, 0.0), rxv, ryv), s))
  }

  /** circleToPath: nothing for a zero radius. */
  function CircleToPath(uid: string, cx: Option<real>, cy: Option<real>, r: Option<real>, s: Style): (res: Option<PathData>)
    ensures res.None? <==> NumAttr(r, 0.0) == 0.0
  {
    var rv := NumAttr(r, 0.0);
    if rv == 0.0 then None
    else Some(ShapePath(uid, EllipseCommands(NumAttr(cx, 0.0), NumAttr(cy, 0.0), rv, rv), s))
  }

  /** A circle converts exactly as the ellipse with both radii equal to `r`. */
  lemma CircleIsEllipse(uid: string, cx: Option<real>, cy: Option<real>, r: Option<real>, s: Style)
    ensures CircleToPath(uid, cx, cy, r, s) == EllipseToPath(uid, cx, cy, r, r, s)
  {
  }

  /** The outline starts and ends on the rightmost point, and the start and
      end of every quarter arc lie on the ellipse. */
  lemma EllipseAnchorsOnEllipse(cx: real, cy: real, rx: real, ry: real)
    ensures var cs := EllipseCommands(cx, cy, rx, ry);
            EndPoint(cs[4]) == cs[0].points[0] &&
            OnEllipse(cs[0].points[0], cx, cy, rx, ry) &&
            forall j | 1 <= j <= 4 :: OnEllipse(EndPoint(cs[j]), cx, cy, rx, ry)
  {
    var cs := EllipseCommands(cx, cy, rx, ry);
    assert OnEllipse(Point(cx + rx, cy), cx, cy, rx, ry);
    assert OnEllipse(Point(cx - rx, cy), cx, cy, rx, ry);
    assert OnEllipse(Point(cx, cy + ry), cx, cy, rx, ry);
    assert OnEllipse(Point(cx, cy - ry), cx, cy, rx, ry);
  }

  /** At every anchor, the control point arriving and the one leaving are
      mirror images about the anchor: the outline is smooth all round. */
  lemma EllipseSmoothAtAnchors(cx: real, cy: real, rx: real, ry: real)
    ensures var cs := EllipseCommands(cx, cy, rx, ry);
            forall j | 1 <= j <= 4 ::
              var next := cs[if j == 4 then 1 else j + 1];
              SvgPath.Midpoint(cs[j].points[1], next.points[0]) == EndPoint(cs[j])
  {
  }

  /** Each point of a list turned half a turn about `c`. */
  function MirrorPoints(ps: seq<Point>, c: Point): (r: seq<Point>)
    ensures |r| == |ps|
  {
    seq(|ps|, i requires 0 <= i < |ps| => SvgPath.Mirror(ps[i], c))
  }

  /** The second half of the outline is the first half turned half a turn
      about the centre. */
  lemma EllipsePointSymmetric(cx: real, cy: real, rx: real, ry: real)
    ensures var cs := EllipseCommands(cx, cy, rx, ry);
            cs[3].points == MirrorPoints(cs[1].points, Point(cx, cy)) &&
            cs[4].points == MirrorPoints(cs[2].points, Point(cx, cy))
  {
  }

  /** For positive radii every point, control points included, lies in the
      bounding box of the ellipse. */
  lemma EllipseInsideBox(cx: real, cy: real, rx: real, ry: real)
    requires rx > 0.0 && ry > 0.0
    ensures AllPointsIn(EllipseCommands(cx, cy, rx, ry), Point(cx - rx, cy - ry), Point(cx + rx, cy + ry))
  {
    var kx, ky := Kappa * rx, Kappa * ry;
    KappaShrinks(rx);
    KappaShrinks(ry);
    EllipseOutlineInsideBox(cx, cy, rx, ry, kx, ky);
  }

  lemma EllipseOutlineInsideBox(cx: real, cy: real, rx: real, ry: real, kx: real, ky: real)
    requires 0.0 <= kx <= rx && 0.0 <= ky <= ry
    ensures AllPointsIn(EllipseOutline(cx, cy, rx, ry, kx, ky), Point(cx - rx, cy - ry), Point(cx + rx, cy + ry))
  {
    var lo, hi := Point(cx - rx, cy - ry), Point(cx + rx, cy + ry);
    assert PointsIn(MoveCmd(Point(cx + rx, cy)), lo, hi);
    CubicIn(Point(cx + rx, cy + ky), Point(cx + kx, cy + ry), Point(cx, cy + ry), lo, hi);
    CubicIn(Point(cx - kx, cy + ry), Point(cx - rx, cy + ky), Point(cx - rx, cy), lo, hi);
    CubicIn(Point(cx - rx, cy - ky), Point(cx - kx, cy - ry), Point(cx, cy - ry), lo, hi);
    CubicIn(Point(cx + kx, cy - ry), Point(cx + rx, cy - ky), Point(cx + rx, cy), lo, hi);
  }

  // ---------------------------------------------------------------------------
  // polygon, polyline, line
  // ---------------------------------------------------------------------------

  /** parsePoints: consecutive pairs of numbers; an odd number left over is
      dropped. */
  function ParsePoints(nums: seq<real>): (pts: seq<Point>)
    ensures |pts| == |nums| / 2
    decreases |nums|
  {
    if |nums| < 2 then [] else [Point(nums[0], nums[1])] + ParsePoints(nums[2..])
  }

  /** The coordinates of a point list, x before y. */
  function Flatten(pts: seq<Point>): (nums: seq<real>)
    ensures |nums| == 2 * |pts|
  {
    if pts == [] then [] else [pts[0].x, pts[0].y] + Flatten(pts[1..])
  }

  /** Reading points and writing their coordinates back gives the numbers,
      less an odd one at the end. */
  lemma {:induction false} ParsePointsFlatten(nums: seq<real>)
    ensures Flatten(ParsePoints(nums)) == nums[..2 * (|nums| / 2)]
    decreases |nums|
  {
    if |nums| >= 2 {
      ParsePointsFlatten(nums[2..]);
      assert nums[2..][..2 * (|nums[2..]| / 2)] == nums[2..2 * (|nums| / 2)];
      assert nums[..2 * (|nums| / 2)] == [nums[0], nums[1]] + nums[2..2 * (|nums| / 2)];
    } else {
      assert 2 * (|nums| / 2) == 0;
    }
  }

  /** And the other way round: flattening a point list and reading it gives
      the same points. */
  lemma {:induction false} FlattenParsePoints(pts: seq<Point>)
    ensures ParsePoints(Flatten(pts)) == pts
  {
    if pts != [] {
      var f := Flatten(pts);
      assert f[..2] == [pts[0].x, pts[0].y];
      assert f[2..] == Flatten(pts[1..]);
      FlattenParsePoints(pts[1..]);
      assert pts == [pts[0]] + pts[1..];
    }
  }

  /** One lineto per point. */
  function LinesThrough(pts: seq<Point>): (cs: seq<Command>)
    ensures |cs| == |pts| && WellFormedPath(cs)
    ensures forall i | 0 <= i < |cs| :: cs[i].kind == LineTo
  {
    if pts == [] then [] else [LineCmd(pts[0])] + LinesThrough(pts[1..])
  }

  /** A moveto to the first point and a lineto to each further one. */
  function PolylineCommands(pts: seq<Point>): (cs: seq<Command>)
    requires pts != []
    ensures |cs| == |pts| && WellFormedPath(cs)
    ensures forall i | 0 <= i < |cs| :: cs[i].kind != ClosePath
  {
    [MoveCmd(pts[0])] + LinesThrough(pts[1..])
  }

  /** The points a list of movetos and linetos visits. */
  function Vertices(cs: seq<Command>): (pts: seq<Point>)
    requires WellFormedPath(cs) && forall i | 0 <= i < |cs| :: cs[i].kind != ClosePath
    ensures |pts| == |cs|
  {
    if cs == [] then [] else [cs[0].points[0]] + Vertices(cs[1..])
  }

  lemma {:induction false} LinesThroughVertices(pts: seq<Point>)
    ensures Vertices(LinesThrough(pts)) == pts
  {
    if pts != [] {
      LinesThroughVertices(pts[1..]);
      assert pts == [pts[0]] + pts[1..];
      var cs := LinesThrough(pts);
      assert cs[1..] == LinesThrough(pts[1..]);
    }
  }

  /** A polyline's commands start with a moveto, continue with linetos only,
      and visit exactly the given points in order. */
  lemma PolylineVisitsPoints(pts: seq<Point>)
    requires pts != []
    ensures var cs := PolylineCommands(pts);
            Vertices(cs) == pts && cs[0].kind == MoveTo &&
            forall i | 1 <= i < |cs| :: cs[i].kind == LineTo
  {
    var cs := PolylineCommands(pts);
    LinesThroughVertices(pts[1..]);
    assert cs[1..] == LinesThrough(pts[1..]);
    assert pts == [pts[0]] + pts[1..];
  }

  /** polylineToPath: nothing when `points` is absent or empty or yields
      fewer than two points. */
  function PolylineToPath(uid: string, points: Option<seq<real>>, s: Style): (r: Option<PathData>)
    ensures r.None? <==> points.None? || |points.value| < 4
    ensures r.Some? ==> r.value.id == uid && WellFormedPath(r.value.commands) &&
                        |r.value.commands| == |points.value| / 2
  {
    if points.None? then None
    else
      var pts := ParsePoints(points.value);
      if |pts| < 2 then None else Some(ShapePath(uid, PolylineCommands(pts), s))
  }

  /** polygonToPath: the polyline closed with a closepath. */
  function PolygonToPath(uid: string, points: Option<seq<real>>, s: Style): (r: Option<PathData>)
    ensures r.None? <==> points.None? || |points.value| < 4
    ensures r.Some? ==> r.value.id == uid && WellFormedPath(r.value.commands)
  {
    if points.None? then None
    else
      var pts := ParsePoints(points.value);
      if |pts| < 2 then None else Some(ShapePath(uid, PolylineCommands(pts) + [Close], s))
  }

  /** A polygon is the polyline through the same points followed by one
      closepath, with the same id and style. */
  lemma PolygonClosesPolyline(uid: string, points: Option<seq<real>>, s: Style)
    ensures PolygonToPath(uid, points, s).Some? <==> PolylineToPath(uid, points, s).Some?
    ensures PolygonToPath(uid, points, s).Some? ==>
              var g := PolygonToPath(uid, points, s).value;
              var l := PolylineToPath(uid, points, s).value;
              g == l.(commands := l.commands + [Close])
  {
  }

  /** lineToPath: always a moveto and one lineto, missing coordinates being 0. */
  function LineToPath(uid: string, x1: Option<real>, y1: Option<real>, x2: Option<real>, y2: Option<real>,
                      s: Style): (r: PathData)
    ensures r.id == uid && WellFormedPath(r.commands)
    ensures Kinds(r.commands) == [MoveTo, LineTo]
  {
    ShapePath(uid, [MoveCmd(Point(NumAttr(x1, 0.0), NumAttr(y1, 0.0))),
                    LineCmd(Point(NumAttr(x2, 0.0), NumAttr(y2, 0.0)))], s)
  }

  /** A line is the two-point polyline between its ends. */
  lemma LineIsTwoPointPolyline(uid: string, x1: real, y1: real, x2: real, y2: real, s: Style)
    ensures LineToPath(uid, Some(x1), Some(y1), Some(x2), Some(y2), s)
            == PolylineToPath(uid, Some([x1, y1, x2, y2]), s).value
  {
    assert ParsePoints([x1, y1, x2, y2]) == [Point(x1, y1), Point(x2, y2)] by {
      assert [x1, y1, x2, y2][2..] == [x2, y2];
      assert [x2, y2][2..] == [];
    }
  }

  /** Only `<path>` elements drop a "none" fill; a basic shape such as a
      line keeps the text. */
  lemma NoneFillKeptByShapes(uid: string, d: seq<SvgPath.Token>, x1: Option<real>, y1: Option<real>,
                             x2: Option<real>, y2: Option<real>, stroke: Option<string>, w: Option<real>)
    requires SvgPath.WellFormedTokens(d) && SvgPath.ParsePathData(d) != []
    ensures LineToPath(uid, x1, y1, x2, y2, Style(Some("none"), stroke, w)).fill == Some("none")
    ensures PathElementToPath(uid, Some(d), Style(Some("none"), stroke, w)).value.fill.None?
  {
  }

  // ---------------------------------------------------------------------------
  // Elements and the whole document
  // ---------------------------------------------------------------------------

  /** The geometry attributes of each element kind parseSVG reads. `None`
      stands for an absent or empty attribute; `d` and `points` are already
      lexed. */
  datatype Shape =
    | PathEl(d: Option<seq<SvgPath.Token>>)
    | RectEl(x: Option<real>, y: Option<real>, width: Option<real>, height: Option<real>,
             rx: Option<real>, ry: Option<real>)
    | CircleEl(cx: Option<real>, cy: Option<real>, r: Option<real>)
    | EllipseEl(ecx: Option<real>, ecy: Option<real>, erx: Option<real>, ery: Option<real>)
    | PolygonEl(points: Option<seq<real>>)
    | PolylineEl(linePoints: Option<seq<real>>)
    | LineEl(x1: Option<real>, y1: Option<real>, x2: Option<real>, y2: Option<real>)

  /** An element with the uuid it receives if it becomes a path. */
  datatype Element = Element(uid: string, shape: Shape, style: Style)

  /** The position of an element kind in parseSVG's collection order. */
  function TagRank(sh: Shape): nat
  {
    match sh
    case PathEl(_) => 0
    case RectEl(_, _, _, _, _, _) => 1
    case CircleEl(_, _, _) => 2
    case EllipseEl(_, _, _, _) => 3
    case PolygonEl(_) => 4
    case PolylineEl(_) => 5
    case LineEl(_, _, _, _) => 6
  }

  /** Path data must be well-formed where present. */
  predicate ValidElement(e: Element)
  {
    e.shape.PathEl? && e.shape.d.Some? ==> SvgPath.WellFormedTokens(e.shape.d.value)
  }

  /** A `<path>` element: nothing without path data or when it parses to no
      command; "none" colours become undefined. */
  function PathElementToPath(uid: string, d: Option<seq<SvgPath.Token>>, s: Style): (r: Option<PathData>)
    requires d.Some? ==> SvgPath.WellFormedTokens(d.value)
    ensures r.None? <==> d.None? || SvgPath.ParsePathData(d.value) == []
    ensures r.Some? ==> r.value.commands == SvgPath.ParsePathData(d.value)
    ensures r.Some? ==> r.value.fill == NoneAsAbsent(TextAttr(s.fill))
                        && r.value.stroke == NoneAsAbsent(TextAttr(s.stroke))
  {
    if d.None? then None
    else
      var cs := SvgPath.ParsePathData(d.value);
      if cs == [] then None
      else
        var p := ShapePath(uid, cs, s);
        Some(p.(fill := NoneAsAbsent(p.fill), stroke := NoneAsAbsent(p.stroke)))
  }

  /** The path an element converts to, if any. */
  function ElementToPath(e: Element): (r: Option<PathData>)
    requires ValidElement(e)
    ensures r.Some? ==> r.value.id == e.uid && WellFormedPath(r.value.commands) && r.value.commands != []
  {
    match e.shape
    case PathEl(d) => PathElementToPath(e.uid, d, e.style)
    case RectEl(x, y, w, h, rx, ry) => RectToPath(e.uid, x, y, w, h, rx, ry, e.style)
    case CircleEl(cx, cy, r) =>
      var res := CircleToPath(e.uid, cx, cy, r, e.style);
      assert res.Some? ==> |res.value.commands| == 6 by { CircleIsEllipse(e.uid, cx, cy, r, e.style); }
      res
    case EllipseEl(cx, cy, rx, ry) => EllipseToPath(e.uid, cx, cy, rx, ry, e.style)
    case PolygonEl(pts) => PolygonToPath(e.uid, pts, e.style)
    case PolylineEl(pts) => PolylineToPath(e.uid, pts, e.style)
    case LineEl(x1, y1, x2, y2) => Some(LineToPath(e.uid, x1, y1, x2, y2, e.style))
  }

  /** In document order, the paths made from the elements of one kind. */
  function Collect(es: seq<Element>, rank: nat): (ps: seq<PathData>)
    requires forall i | 0 <= i < |es| :: ValidElement(es[i])
    ensures |ps| <= |es|
    ensures forall p | p in ps :: WellFormedPath(p.commands) && p.commands != []
    ensures forall p | p in ps :: exists i | 0 <= i < |es| :: TagRank(es[i].shape) == rank && ElementToPath(es[i]) == Some(p)
  {
    if es == [] then []
    else
      var here := if TagRank(es[0].shape) == rank then ElementToPath(es[0]) else None;
      var rest := Collect(es[1..], rank);
      assert forall p | p in rest :: exists i | 0 <= i < |es| :: TagRank(es[i].shape) == rank && ElementToPath(es[i]) == Some(p) by {
        forall p | p in rest
          ensures exists i | 0 <= i < |es| :: TagRank(es[i].shape) == rank && ElementToPath(es[i]) == Some(p)
        {
          var i :| 0 <= i < |es[1..]| && TagRank(es[1..][i].shape) == rank && ElementToPath(es[1..][i]) == Some(p);
          assert es[i + 1] == es[1..][i];
        }
      }
      if here.Some? then [here.value] + rest else rest
  }

  /** Collecting from two runs of elements one after the other collects
      from the first run, then from the second: document order and one
      path per converting element. */
  lemma {:induction false} CollectConcat(a: seq<Element>, b: seq<Element>, rank: nat)
    requires forall i | 0 <= i < |a| :: ValidElement(a[i])
    requires forall i | 0 <= i < |b| :: ValidElement(b[i])
    ensures forall i | 0 <= i < |a + b| :: ValidElement((a + b)[i])
    ensures Collect(a + b, rank) == Collect(a, rank) + Collect(b, rank)
  {
    assert forall i | 0 <= i < |a + b| :: ValidElement((a + b)[i]) by {
      forall i | 0 <= i < |a + b|
        ensures ValidElement((a + b)[i])
      {
        if i < |a| { assert (a + b)[i] == a[i]; } else { assert (a + b)[i] == b[i - |a|]; }
      }
    }
    if a == [] {
      assert a + b == b;
    } else {
      assert (a + b)[0] == a[0];
      assert (a + b)[1..] == a[1..] + b;
      CollectConcat(a[1..], b, rank);
    }
  }

  /** One element contributes its path when it is of the kind and converts,
      and nothing otherwise. */
  lemma CollectOne(e: Element, rank: nat)
    requires ValidElement(e)
    ensures Collect([e], rank)
            == if TagRank(e.shape) == rank && ElementToPath(e).Some? then [ElementToPath(e).value] else []
  {
    assert [e][1..] == [];
  }

  /** A collected path carries the uid of the element it came from. */
  lemma CollectedFromElement(es: seq<Element>, rank: nat, p: PathData)
    requires forall i | 0 <= i < |es| :: ValidElement(es[i])
    requires p in Collect(es, rank)
    ensures exists i | 0 <= i < |es| :: es[i].uid == p.id
  {
    var i :| 0 <= i < |es| && TagRank(es[i].shape) == rank && ElementToPath(es[i]) == Some(p);
  }

  /** Conversely, every element of the kind that converts has its path
      collected. */
  lemma {:induction false} CollectComplete(es: seq<Element>, rank: nat, i: nat)
    requires forall j | 0 <= j < |es| :: ValidElement(es[j])
    requires i < |es| && TagRank(es[i].shape) == rank && ElementToPath(es[i]).Some?
    ensures ElementToPath(es[i]).value in Collect(es, rank)
  {
    if i > 0 {
      assert es[1..][i - 1] == es[i];
      CollectComplete(es[1..], rank, i - 1);
    }
  }

  /** All converted paths: paths first, then rects, circles, ellipses,
      polygons, polylines and lines, each kind in document order. */
  function AllPaths(es: seq<Element>): (ps: seq<PathData>)
    requires forall i | 0 <= i < |es| :: ValidElement(es[i])
  {
    Collect(es, 0) + Collect(es, 1) + Collect(es, 2) + Collect(es, 3)
    + Collect(es, 4) + Collect(es, 5) + Collect(es, 6)
  }

  /** Size attributes of the root: absent, present but empty, or a number. */
  datatype SizeAttr = Absent | Blank | Given(v: real)

  datatype ViewBox = ViewBox(x: real, y: real, width: real, height: real)

  datatype ParsedSvg = ParsedSvg(layers: seq<Layer>, width: real, height: real, viewBox: Option<ViewBox>)

  /** The viewBox, when its attribute splits into exactly four numbers. */
  function ReadViewBox(parts: Option<seq<real>>): Option<ViewBox>
  {
    if parts.Some? && |parts.value| == 4 then
      Some(ViewBox(parts.value[0], parts.value[1], parts.value[2], parts.value[3]))
    else None
  }

  /** One side of the canvas: the attribute's number; failing that its
      default; and the viewBox's size only when the attribute is absent
      altogether. */
  function Side(attr: SizeAttr, default: real, fromViewBox: Option<real>): real
  {
    match attr
    case Given(v) => v
    case Blank => default
    case Absent => if fromViewBox.Some? then fromViewBox.value else default
  }

  /** parseSVG over the root's size attributes and its elements. Each side
      is the attribute's number; an empty attribute gives the default
      (800 by 600); an absent one gives the viewBox's size when the viewBox
      has four numbers, and the default otherwise. The document yields one
      layer "Imported SVG", visible and unlocked, holding every converted
      path, or no layer at all when nothing converted. */
  function ParseSvg(widthAttr: SizeAttr, heightAttr: SizeAttr, viewBoxAttr: Option<seq<real>>,
                    layerUid: string, es: seq<Element>): (r: ParsedSvg)
    requires forall i | 0 <= i < |es| :: ValidElement(es[i])
    ensures r.viewBox.Some? <==> viewBoxAttr.Some? && |viewBoxAttr.value| == 4
    ensures r.viewBox.Some? ==> r.viewBox.value == ViewBox(viewBoxAttr.value[0], viewBoxAttr.value[1],
                                                           viewBoxAttr.value[2], viewBoxAttr.value[3])
    ensures widthAttr.Given? ==> r.width == widthAttr.v
    ensures widthAttr.Blank? ==> r.width == 800.0
    ensures widthAttr.Absent? && r.viewBox.Some? ==> r.width == r.viewBox.value.width
    ensures widthAttr.Absent? && r.viewBox.None? ==> r.width == 800.0
    ensures heightAttr.Given? ==> r.height == heightAttr.v
    ensures heightAttr.Blank? ==> r.height == 600.0
    ensures heightAttr.Absent? && r.viewBox.Some? ==> r.height == r.viewBox.value.height
    ensures heightAttr.Absent? && r.viewBox.None? ==> r.height == 600.0
    ensures |r.layers| <= 1
    ensures r.layers == [] <==> AllPaths(es) == []
    ensures r.layers != [] ==> r.layers[0] == Layer(layerUid, "Imported SVG", AllPaths(es), true, false)
  {
    var vb := ReadViewBox(viewBoxAttr);
    var w := Side(widthAttr, 800.0, if vb.Some? then Some(vb.value.width) else None);
    var h := Side(heightAttr, 600.0, if vb.Some? then Some(vb.value.height) else None);
    var paths := AllPaths(es);
    ParsedSvg(if |paths| > 0 then [Layer(layerUid, "Imported SVG", paths, true, false)] else [], w, h, vb)
  }

  /** Every imported path is well-formed, non-empty and carries the uid of an
      element of the document. */
  lemma {:induction false} ImportedPathsWellFormed(widthAttr: SizeAttr, heightAttr: SizeAttr, viewBoxAttr: Option<seq<real>>,
                                                 layerUid: string, es: seq<Element>)
    requires forall i | 0 <= i < |es| :: ValidElement(es[i])
    ensures forall l, p | l in ParseSvg(widthAttr, heightAttr, viewBoxAttr, layerUid, es).layers && p in l.paths ::
              WellFormedPath(p.commands) && p.commands != [] &&
              exists i | 0 <= i < |es| :: es[i].uid == p.id
  {
    var ps := AllPaths(es);
    forall p | p in ps
      ensures WellFormedPath(p.commands) && p.commands != [] && exists i | 0 <= i < |es| :: es[i].uid == p.id
    {
      var rank :| 0 <= rank <= 6 && p in Collect(es, rank);
      CollectedFromElement(es, rank, p);
    }
  }

  /** The imported paths are exactly the conversions of the elements: each
      element that converts contributes its path, and every imported path is
      the conversion of some element. */
  lemma {:induction false} ImportedPathsAreConversions(widthAttr: SizeAttr, heightAttr: SizeAttr, viewBoxAttr: Option<seq<real>>,
                                                     layerUid: string, es: seq<Element>)
    requires forall i | 0 <= i < |es| :: ValidElement(es[i])
    ensures var r := ParseSvg(widthAttr, heightAttr, viewBoxAttr, layerUid, es);
      forall i | 0 <= i < |es| && ElementToPath(es[i]).Some? :: r.layers != [] && ElementToPath(es[i]).value in r.layers[0].paths
    ensures var r := ParseSvg(widthAttr, heightAttr, viewBoxAttr, layerUid, es);
      forall p | r.layers != [] && p in r.layers[0].paths :: exists i | 0 <= i < |es| :: ElementToPath(es[i]) == Some(p)
  {
    var ps := AllPaths(es);
    forall i | 0 <= i < |es| && ElementToPath(es[i]).Some?
      ensures ElementToPath(es[i]).value in ps
    {
      CollectComplete(es, TagRank(es[i].shape), i);
    }
    forall p | p in ps
      ensures exists i | 0 <= i < |es| :: ElementToPath(es[i]) == Some(p)
    {
      var rank :| 0 <= rank <= 6 && p in Collect(es, rank);
    }
  }

  /** Every element of a kind that converts comes before every element of a
      later kind: a rect's path follows all paths from `<path>` elements. */
  lemma PathElementsComeFirst(es: seq<Element>)
    requires forall i | 0 <= i < |es| :: ValidElement(es[i])
    ensures AllPaths(es)[..|Collect(es, 0)|] == Collect(es, 0)
  {
  }
}

=== FILE: timeline.dfy ===
/** The timeline engine of the animation store
    (src/lib/stores/animation.svelte.ts): easing curves, per-coordinate
    interpolation of command lists, the search for the keyframes around a
    frame, and the paths shown at the current frame. */
module Timeline {
  import opened Types
  import Keyframes

  // ---------------------------------------------------------------------------
  // Easing
  // ---------------------------------------------------------------------------

  /** applyEasing: quadratic ease-in, ease-out and ease-in-out. */
  function ApplyEasing(t: real, e: Easing): real
  {
    match e
    case Linear => t
    case EaseIn => t * t
    case EaseOut => t * (2.0 - t)
    case EaseInOut => if t < 0.5 then 2.0 * t * t else -1.0 + (4.0 - 2.0 * t) * t
  }

  /** Every easing starts at 0 and ends at 1, and the two halves of
      ease-in-out meet at one half. */
  lemma EasingEnds(e: Easing)
    ensures ApplyEasing(0.0, e) == 0.0 && ApplyEasing(1.0, e) == 1.0
    ensures ApplyEasing(0.5, EaseInOut) == 2.0 * 0.5 * 0.5 == -1.0 + (4.0 - 2.0 * 0.5) * 0.5
  {
  }

  lemma SquareMonotone(s: real, t: real)
    requires 0.0 <= s <= t
    ensures s * s <= t * t
  {
    assert t * t - s * s == (t - s) * (t + s);
    assert (t - s) * (t + s) >= 0.0;
  }

  /** On [0, 1] every easing is non-decreasing. */
  lemma EasingMonotone(s: real, t: real, e: Easing)
    requires 0.0 <= s <= t <= 1.0
    ensures ApplyEasing(s, e) <= ApplyEasing(t, e)
  {
    match e
    case Linear =>
    case EaseIn => SquareMonotone(s, t);
    case EaseOut =>
      // t(2 - t) = 1 - (1 - t)^2
      SquareMonotone(1.0 - t, 1.0 - s);
      assert s * (2.0 - s) == 1.0 - (1.0 - s) * (1.0 - s);
      assert t * (2.0 - t) == 1.0 - (1.0 - t) * (1.0 - t);
    case EaseInOut =>
      SquareMonotone(s, t);
      SquareMonotone(1.0 - t, 1.0 - s);
      // the second branch is 1 - 2(1 - t)^2
      assert -1.0 + (4.0 - 2.0 * s) * s == 1.0 - 2.0 * ((1.0 - s) * (1.0 - s));
      assert -1.0 + (4.0 - 2.0 * t) * t == 1.0 - 2.0 * ((1.0 - t) * (1.0 - t));
      if s < 0.5 && t >= 0.5 {
        SquareMonotone(s, 0.5);
        SquareMonotone(1.0 - t, 0.5);
      }
  }

  /** On [0, 1] every easing stays in [0, 1]. */
  lemma EasingInUnit(t: real, e: Easing)
    requires 0.0 <= t <= 1.0
    ensures 0.0 <= ApplyEasing(t, e) <= 1.0
  {
    EasingEnds(e);
    EasingMonotone(0.0, t, e);
    EasingMonotone(t, 1.0, e);
  }

  /** Ease-out is ease-in run backwards, and ease-in-out is symmetric about
      its midpoint. */
  lemma EasingSymmetry(t: real)
    ensures ApplyEasing(t, EaseOut) == 1.0 - ApplyEasing(1.0 - t, EaseIn)
    ensures 0.0 <= t <= 1.0 ==> ApplyEasing(1.0 - t, EaseInOut) == 1.0 - ApplyEasing(t, EaseInOut)
  {
    assert t * (2.0 - t) == 1.0 - (1.0 - t) * (1.0 - t);
    assert -1.0 + (4.0 - 2.0 * (1.0 - t)) * (1.0 - t) == 1.0 - 2.0 * t * t;
    assert -1.0 + (4.0 - 2.0 * t) * t == 1.0 - 2.0 * (1.0 - t) * (1.0 - t);
  }

  // ---------------------------------------------------------------------------
  // interpolateCommands
  // ---------------------------------------------------------------------------

  function Lerp(a: real, b: real, t: real): real
  {
    a + (b - a) * t
  }

  function LerpPoint(a: Point, b: Point, t: real): Point
  {
    Point(Lerp(a.x, b.x, t), Lerp(a.y, b.y, t))
  }

  /** Two commands are interpolated point by point only when their tags and
      point counts agree. */
  predicate Matching(a: Command, b: Command)
  {
    a.kind == b.kind && |a.points| == |b.points|
  }

  /** One command of the in-between list: below one half a mismatched pair
      gives the earlier command, otherwise the later one. */
  function InterpolateCommand(a: Command, b: Command, t: real): (r: Command)
    ensures Matching(a, b) ==> r.kind == a.kind && |r.points| == |a.points|
    ensures !Matching(a, b) ==> r == a || r == b
  {
    if !Matching(a, b) then (if t < 0.5 then a else b)
    else Command(a.kind, seq(|a.points|, j requires 0 <= j < |a.points| => LerpPoint(a.points[j], b.points[j], t)))
  }

  /** interpolateCommands: lists of different lengths are not blended at all. */
  function InterpolateCommands(prev: seq<Command>, next: seq<Command>, t: real): (r: seq<Command>)
    ensures |prev| == |next| ==> |r| == |prev|
    ensures |prev| != |next| ==> r == prev || r == next
  {
    if |prev| != |next| then (if t < 0.5 then prev else next)
    else seq(|prev|, i requires 0 <= i < |prev| => InterpolateCommand(prev[i], next[i], t))
  }

  /** At t = 0 the result is the earlier list exactly. */
  lemma InterpolateAtZero(prev: seq<Command>, next: seq<Command>)
    ensures InterpolateCommands(prev, next, 0.0) == prev
  {
    if |prev| == |next| {
      var r := InterpolateCommands(prev, next, 0.0);
      forall i | 0 <= i < |prev| ensures r[i] == prev[i] {
        var a := prev[i];
        if Matching(a, next[i]) {
          assert r[i].points == a.points;
        }
      }
    }
  }

  /** At t = 1 the result is the later list exactly. */
  lemma InterpolateAtOne(prev: seq<Command>, next: seq<Command>)
    ensures InterpolateCommands(prev, next, 1.0) == next
  {
    if |prev| == |next| {
      var r := InterpolateCommands(prev, next, 1.0);
      forall i | 0 <= i < |prev| ensures r[i] == next[i] {
        var a, b := prev[i], next[i];
        if Matching(a, b) {
          assert r[i].points == b.points;
        }
      }
    }
  }

  /** What cannot be blended is taken whole from the nearer keyframe: the
      earlier one below one half, the later one from one half on. This holds
      for lists of different lengths and for a mismatched pair inside lists
      of equal length. */
  lemma MismatchPicksNearer(prev: seq<Command>, next: seq<Command>, t: real)
    ensures |prev| != |next| ==> InterpolateCommands(prev, next, t) == (if t < 0.5 then prev else next)
    ensures |prev| == |next| ==>
              forall i | 0 <= i < |prev| && !Matching(prev[i], next[i]) ::
                InterpolateCommands(prev, next, t)[i] == (if t < 0.5 then prev[i] else next[i])
  {
  }

  /** Blending two well-formed lists gives a well-formed list; for equal
      lengths every command keeps the tag of the earlier list when the pair
      matches. */
  lemma InterpolateWellFormed(prev: seq<Command>, next: seq<Command>, t: real)
    requires WellFormedPath(prev) && WellFormedPath(next)
    ensures WellFormedPath(InterpolateCommands(prev, next, t))
    ensures |prev| == |next| ==>
              forall i | 0 <= i < |prev| && Matching(prev[i], next[i]) ::
                InterpolateCommands(prev, next, t)[i].kind == prev[i].kind
  {
  }

  function Min(a: real, b: real): real { if a <= b then a else b }

  function Max(a: real, b: real): real { if a <= b then b else a }

  /** For t in [0, 1] each blended coordinate lies between the two it blends. */
  lemma InterpolateBetween(prev: seq<Command>, next: seq<Command>, t: real, i: nat, j: nat)
    requires 0.0 <= t <= 1.0 && |prev| == |next| && i < |prev| && Matching(prev[i], next[i])
    requires j < |prev[i].points|
    ensures var p, a, b := InterpolateCommands(prev, next, t)[i].points[j], prev[i].points[j], next[i].points[j];
            Min(a.x, b.x) <= p.x <= Max(a.x, b.x) && Min(a.y, b.y) <= p.y <= Max(a.y, b.y)
  {
    var a, b := prev[i].points[j], next[i].points[j];
    LerpBetween(a.x, b.x, t);
    LerpBetween(a.y, b.y, t);
  }

  lemma MulNonneg(x: real, y: real)
    ensures x >= 0.0 && y >= 0.0 ==> x * y >= 0.0
  {
  }

  lemma LerpBetween(a: real, b: real, t: real)
    requires 0.0 <= t <= 1.0
    ensures Min(a, b) <= Lerp(a, b, t) <= Max(a, b)
  {
    MulNonneg(b - a, t);
    MulNonneg(b - a, 1.0 - t);
    MulNonneg(a - b, t);
    MulNonneg(a - b, 1.0 - t);
    assert (b - a) * (1.0 - t) == (b - a) - (b - a) * t;
    assert (a - b) * t == -((b - a) * t);
    assert (a - b) * (1.0 - t) == (a - b) + (b - a) * t;
  }

  // ---------------------------------------------------------------------------
  // The keyframes around a frame
  // ---------------------------------------------------------------------------

  /** The scan over sorted keyframes: every keyframe at or before `f`
      becomes the previous one; the first one after `f` is the next one and
      ends the scan. */
  function Scan(s: seq<Keyframe>, f: int, prev: Option<Keyframe>): (r: (Option<Keyframe>, Option<Keyframe>))
  {
    if s == [] then (prev, None)
    else if s[0].frame <= f then Scan(s[1..], f, Some(s[0]))
    else (prev, Some(s[0]))
  }

  /** The number of leading keyframes at or before `f`. */
  function Leading(s: seq<Keyframe>, f: int): (n: nat)
    ensures n <= |s|
    ensures forall i | 0 <= i < n :: s[i].frame <= f
    ensures n < |s| ==> s[n].frame > f
  {
    if s == [] || s[0].frame > f then 0 else 1 + Leading(s[1..], f)
  }

  /** The scan yields the last of the leading keyframes at or before `f`
      and the keyframe just after them. */
  lemma {:induction false} ScanIsSplit(s: seq<Keyframe>, f: int, prev: Option<Keyframe>)
    ensures var n := Leading(s, f);
            Scan(s, f, prev) == (if n == 0 then prev else Some(s[n - 1]), if n == |s| then None else Some(s[n]))
  {
    if s != [] && s[0].frame <= f {
      ScanIsSplit(s[1..], f, Some(s[0]));
      var n := Leading(s, f);
      assert n == 1 + Leading(s[1..], f);
      if n > 1 { assert s[1..][n - 2] == s[n - 1]; }
      if n < |s| { assert s[1..][n - 1] == s[n]; }
    }
  }

  /** In a sorted list, the leading keyframes are exactly those at or before `f`. */
  lemma LeadingSorted(s: seq<Keyframe>, f: int)
    requires Keyframes.SortedByFrame(s)
    ensures forall i | Leading(s, f) <= i < |s| :: s[i].frame > f
  {
    var n := Leading(s, f);
    forall i | n <= i < |s| ensures s[i].frame > f {
      assert s[n].frame <= s[i].frame;
    }
  }

  /** A keyframe list in which `k` is the only keyframe at its frame. */
  predicate AloneAtFrame(kfs: seq<Keyframe>, k: Keyframe)
  {
    k in kfs && forall x | x in kfs && x.frame == k.frame :: x == k
  }

  // ---------------------------------------------------------------------------
  // interpolatePathAtFrame
  // ---------------------------------------------------------------------------

  /** The path with a keyframe's snapshot of it, if the keyframe has one. */
  function Hold(path: PathData, k: Keyframe): (r: PathData)
  {
    if path.id in k.snapshots then path.(commands := k.snapshots[path.id]) else path
  }

  /** The eased position of `f` between two keyframe frames. */
  function Progress(f: int, a: int, b: int): real
    requires a < b
  {
    (f - a) as real / (b - a) as real
  }

  /** The path blended between the snapshots of two keyframes, or the path
      itself when either lacks a snapshot of it. */
  function Blend(path: PathData, a: Keyframe, b: Keyframe, f: int): (r: PathData)
    requires a.frame < b.frame
  {
    if path.id in a.snapshots && path.id in b.snapshots then
      var t := ApplyEasing(Progress(f, a.frame, b.frame), a.easing);
      path.(commands := InterpolateCommands(a.snapshots[path.id], b.snapshots[path.id], t))
    else path
  }

  /** interpolatePathAtFrame: sort the keyframes, find the ones around `f`,
      hold a snapshot at or after the last one or at an exact keyframe, blend
      strictly between two. Only the commands ever change. */
  function InterpolatePathAtFrame(kfs: seq<Keyframe>, path: PathData, f: int): (r: PathData)
    ensures r == path.(commands := r.commands)
  {
    var sorted := Keyframes.SortByFrame(kfs);
    if sorted == [] then path
    else
      var (prev, next) := Scan(sorted, f, None);
      if prev.None? then path
      else if next.None? || prev.value.frame == f then Hold(path, prev.value)
      else
        ScanIsSplit(sorted, f, None);
        LeadingSorted(sorted, f);
        Blend(path, prev.value, next.value, f)
  }

  /** Facts about the sorted list and the split at `f` used by the lemmas below. */
  lemma SplitFacts(kfs: seq<Keyframe>, f: int) returns (sorted: seq<Keyframe>, n: nat)
    ensures sorted == Keyframes.SortByFrame(kfs) && n == Leading(sorted, f)
    ensures forall x :: x in sorted <==> x in kfs
    ensures Keyframes.SortedByFrame(sorted)
    ensures Scan(sorted, f, None) == (if n == 0 then None else Some(sorted[n - 1]), if n == |sorted| then None else Some(sorted[n]))
    ensures forall i | 0 <= i < n :: sorted[i].frame <= f
    ensures forall i | n <= i < |sorted| :: sorted[i].frame > f
  {
    sorted := Keyframes.SortByFrame(kfs);
    n := Leading(sorted, f);
    Keyframes.SortKeepsMembers(kfs);
    ScanIsSplit(sorted, f, None);
    LeadingSorted(sorted, f);
  }

  /** With no keyframes, or before the first one, the path is returned as is. */
  lemma BeforeFirstKeyframe(kfs: seq<Keyframe>, path: PathData, f: int)
    requires forall k | k in kfs :: k.frame > f
    ensures InterpolatePathAtFrame(kfs, path, f) == path
  {
    var sorted, n := SplitFacts(kfs, f);
  }

  /** At the frame of a keyframe alone at its frame, that keyframe's
      snapshot of the path is shown, or the path when it has none. */
  lemma AtKeyframe(kfs: seq<Keyframe>, path: PathData, k: Keyframe)
    requires AloneAtFrame(kfs, k)
    ensures InterpolatePathAtFrame(kfs, path, k.frame) == Hold(path, k)
  {
    var f := k.frame;
    var sorted, n := SplitFacts(kfs, f);
    var i :| 0 <= i < |sorted| && sorted[i] == k;
    assert i < n;
    var prev := sorted[n - 1];
    assert sorted[i].frame <= prev.frame <= f;
    assert prev in kfs;
  }

  /** At or after the last keyframe, when it is alone at its frame, its
      snapshot is held. */
  lemma AfterLastKeyframe(kfs: seq<Keyframe>, path: PathData, k: Keyframe, f: int)
    requires AloneAtFrame(kfs, k) && k.frame <= f
    requires forall x | x in kfs :: x.frame <= k.frame
    ensures InterpolatePathAtFrame(kfs, path, f) == Hold(path, k)
  {
    var sorted, n := SplitFacts(kfs, f);
    var i :| 0 <= i < |sorted| && sorted[i] == k;
    LastIsLatest(kfs, sorted, k, i);
    assert n == |sorted|;
  }

  lemma LastIsLatest(kfs: seq<Keyframe>, sorted: seq<Keyframe>, k: Keyframe, i: nat)
    requires AloneAtFrame(kfs, k) && forall x | x in kfs :: x.frame <= k.frame
    requires forall x :: x in sorted <==> x in kfs
    requires Keyframes.SortedByFrame(sorted) && i < |sorted| && sorted[i] == k
    ensures sorted[|sorted| - 1] == k
  {
    var last := sorted[|sorted| - 1];
    assert last in kfs;
    assert k.frame <= last.frame;
  }

  /** Strictly between two keyframes with no keyframe in between, the path
      is blended from the earlier snapshot toward the later one with the
      earlier keyframe's easing, at a progress strictly between 0 and 1. */
  lemma BetweenKeyframes(kfs: seq<Keyframe>, path: PathData, a: Keyframe, b: Keyframe, f: int)
    requires AloneAtFrame(kfs, a) && AloneAtFrame(kfs, b) && a.frame < f < b.frame
    requires forall x | x in kfs :: x.frame <= a.frame || x.frame >= b.frame
    ensures InterpolatePathAtFrame(kfs, path, f) == Blend(path, a, b, f)
    ensures 0.0 < Progress(f, a.frame, b.frame) < 1.0
  {
    Bracket(kfs, a, b, f);
    ProgressInside(f, a.frame, b.frame);
  }

  /** The scan finds exactly the two keyframes around `f`. */
  lemma Bracket(kfs: seq<Keyframe>, a: Keyframe, b: Keyframe, f: int)
    requires AloneAtFrame(kfs, a) && AloneAtFrame(kfs, b) && a.frame < f < b.frame
    requires forall x | x in kfs :: x.frame <= a.frame || x.frame >= b.frame
    ensures Keyframes.SortByFrame(kfs) != []
    ensures Scan(Keyframes.SortByFrame(kfs), f, None) == (Some(a), Some(b))
  {
    var sorted, n := SplitFacts(kfs, f);
    var i :| 0 <= i < |sorted| && sorted[i] == a;
    var j :| 0 <= j < |sorted| && sorted[j] == b;
    assert i < n <= j;
    PrevIs(kfs, sorted, a, b, f, i, n);
    NextIs(kfs, sorted, a, b, f, j, n);
  }

  lemma PrevIs(kfs: seq<Keyframe>, sorted: seq<Keyframe>, a: Keyframe, b: Keyframe, f: int, i: nat, n: nat)
    requires AloneAtFrame(kfs, a) && f < b.frame
    requires forall x | x in kfs :: x.frame <= a.frame || x.frame >= b.frame
    requires forall x :: x in sorted <==> x in kfs
    requires Keyframes.SortedByFrame(sorted) && i < n <= |sorted| && sorted[i] == a
    requires sorted[n - 1].frame <= f
    ensures sorted[n - 1] == a
  {
    var prev := sorted[n - 1];
    assert prev in kfs;
    assert a.frame <= prev.frame;
  }

  lemma NextIs(kfs: seq<Keyframe>, sorted: seq<Keyframe>, a: Keyframe, b: Keyframe, f: int, j: nat, n: nat)
    requires AloneAtFrame(kfs, b) && a.frame < f
    requires forall x | x in kfs :: x.frame <= a.frame || x.frame >= b.frame
    requires forall x :: x in sorted <==> x in kfs
    requires Keyframes.SortedByFrame(sorted) && n <= j < |sorted| && sorted[j] == b
    requires sorted[n].frame > f
    ensures sorted[n] == b
  {
    var next := sorted[n];
    assert next in kfs;
    assert next.frame <= b.frame;
  }

  lemma ProgressInside(f: int, a: int, b: int)
    requires a < f < b
    ensures 0.0 < Progress(f, a, b) < 1.0
  {
    var num, den := (f - a) as real, (b - a) as real;
    assert 0.0 < num < den;
    assert num / den < 1.0 by {
      assert num / den * den == num;
    }
  }

  // ---------------------------------------------------------------------------
  // getInterpolatedPaths
  // ---------------------------------------------------------------------------

  /** The paths of the visible layers, in layer order. */
  function VisiblePaths(layers: seq<Layer>): seq<PathData>
  {
    if layers == [] then []
    else (if layers[0].visible then layers[0].paths else []) + VisiblePaths(layers[1..])
  }

  function InterpolateEach(kfs: seq<Keyframe>, ps: seq<PathData>, f: int): seq<PathData>
  {
    seq(|ps|, i requires 0 <= i < |ps| => InterpolatePathAtFrame(kfs, ps[i], f))
  }

  /** getInterpolatedPaths: for each visible layer in order, each of its
      paths at the current frame. */
  function GetInterpolatedPaths(st: AnimationState): seq<PathData>
  {
    PathsOfLayers(st.keyframes, st.layers, st.currentFrame)
  }

  function PathsOfLayers(kfs: seq<Keyframe>, layers: seq<Layer>, f: int): seq<PathData>
  {
    if layers == [] then []
    else if !layers[0].visible then PathsOfLayers(kfs, layers[1..], f)
    else InterpolateEach(kfs, layers[0].paths, f) + PathsOfLayers(kfs, layers[1..], f)
  }

  /** The shown paths are the visible layers' paths, one for one and in
      order, each at the current frame. */
  lemma {:induction false} InterpolatedPathsAreVisiblePaths(kfs: seq<Keyframe>, layers: seq<Layer>, f: int)
    ensures PathsOfLayers(kfs, layers, f) == InterpolateEach(kfs, VisiblePaths(layers), f)
  {
    if layers != [] {
      InterpolatedPathsAreVisiblePaths(kfs, layers[1..], f);
      var head := if layers[0].visible then layers[0].paths else [];
      var rest := VisiblePaths(layers[1..]);
      assert VisiblePaths(layers) == head + rest;
      EachOfConcat(kfs, head, rest, f);
      if !layers[0].visible {
        assert InterpolateEach(kfs, [], f) == [];
      }
    }
  }

  lemma EachOfConcat(kfs: seq<Keyframe>, a: seq<PathData>, b: seq<PathData>, f: int)
    ensures InterpolateEach(kfs, a + b, f) == InterpolateEach(kfs, a, f) + InterpolateEach(kfs, b, f)
  {
    var l, r := InterpolateEach(kfs, a + b, f), InterpolateEach(kfs, a, f) + InterpolateEach(kfs, b, f);
    assert |l| == |r|;
    forall i | 0 <= i < |l|
      ensures l[i] == r[i]
    {
      if i < |a| {
        assert (a + b)[i] == a[i];
      } else {
        assert (a + b)[i] == b[i - |a|];
      }
    }
  }

  /** A layer appended after the others shows its paths after theirs. */
  lemma {:induction false} PathsOfAppendedLayer(kfs: seq<Keyframe>, layers: seq<Layer>, l: Layer, f: int)
    ensures PathsOfLayers(kfs, layers + [l], f)
            == PathsOfLayers(kfs, layers, f) + (if l.visible then InterpolateEach(kfs, l.paths, f) else [])
  {
    if layers == [] {
      assert PathsOfLayers(kfs, [l][1..], f) == [];
    } else {
      assert (layers + [l])[1..] == layers[1..] + [l];
      PathsOfAppendedLayer(kfs, layers[1..], l, f);
    }
  }

  /** The store's view: with no keyframe at or before the current frame the
      visible paths are shown untouched. */
  lemma ShownBeforeAnyKeyframe(st: AnimationState)
    requires forall k | k in st.keyframes :: k.frame > st.currentFrame
    ensures GetInterpolatedPaths(st) == VisiblePaths(st.layers)
  {
    InterpolatedPathsAreVisiblePaths(st.keyframes, st.layers, st.currentFrame);
    var ps := VisiblePaths(st.layers);
    forall i | 0 <= i < |ps| ensures InterpolatePathAtFrame(st.keyframes, ps[i], st.currentFrame) == ps[i] {
      BeforeFirstKeyframe(st.keyframes, ps[i], st.currentFrame);
    }
  }
}

=== FILE: types.dfy ===
/** The path intermediate representation shared by the parser, the timeline
    engine and the Lottie exporter (src/lib/types.ts). Coordinates are
    mathematical reals; frame numbers and frame rates are integers. */
module Types {

  datatype Option<+T> = None | Some(value: T)

  /** A point in canvas coordinates. */
  datatype Point = Point(x: real, y: real)

  const Origin: Point := Point(0.0, 0.0)

  function Plus(a: Point, b: Point): Point { Point(a.x + b.x, a.y + b.y) }

  function Minus(a: Point, b: Point): Point { Point(a.x - b.x, a.y - b.y) }

  /** The five tags a stored path command can have: M, L, C, Q and Z. */
  datatype Kind = MoveTo | LineTo | CubicTo | QuadTo | ClosePath

  /** Number of points a command of each tag carries: M and L carry the target,
      C carries control1, control2 and the end point, Q carries the control
      and the end point, Z carries nothing. */
  function Arity(k: Kind): nat
  {
    match k
    case MoveTo => 1
    case LineTo => 1
    case CubicTo => 3
    case QuadTo => 2
    case ClosePath => 0
  }

  /** A path command. The point list is not tied to the tag by the type, as
      in `PathCommand` of types.ts; `WellFormed` states the arity rule. */
  datatype Command = Command(kind: Kind, points: seq<Point>)

  predicate WellFormed(c: Command)
  {
    |c.points| == Arity(c.kind)
  }

  predicate WellFormedPath(cs: seq<Command>)
  {
    forall i | 0 <= i < |cs| :: WellFormed(cs[i])
  }

  /** The point a drawing command ends at: the last point it carries. */
  function EndPoint(c: Command): Point
    requires WellFormed(c) && c.kind != ClosePath
  {
    c.points[|c.points| - 1]
  }

  /** The sequence of tags of a command list. */
  function Kinds(cs: seq<Command>): (ks: seq<Kind>)
    ensures |ks| == |cs|
    ensures forall i | 0 <= i < |cs| :: ks[i] == cs[i].kind
  {
    if cs == [] then [] else Kinds(cs[..|cs| - 1]) + [cs[|cs| - 1].kind]
  }

  datatype PathData = PathData(
    id: string,
    commands: seq<Command>,
    fill: Option<string>,
    stroke: Option<string>,
    strokeWidth: Option<real>)

  datatype Layer = Layer(
    id: string,
    name: string,
    paths: seq<PathData>,
    visible: bool,
    locked: bool)

  /** The easing used from a keyframe toward the next one. */
  datatype Easing = Linear | EaseIn | EaseOut | EaseInOut

  /** A keyframe: its frame, a copy of every path's commands keyed by path id,
      and the easing toward the next keyframe. */
  datatype Keyframe = Keyframe(
    frame: int,
    snapshots: map<string, seq<Command>>,
    easing: Easing)

  datatype AnimationState = AnimationState(
    layers: seq<Layer>,
    keyframes: seq<Keyframe>,
    currentFrame: int,
    totalFrames: int,
    fps: int,
    width: real,
    height: real,
    playing: bool)

  datatype EditorState = EditorState(
    selectedLayerId: Option<string>,
    selectedPathId: Option<string>,
    selectedPointIndex: Option<int>,
    zoom: real,
    panX: real,
    panY: real)
}
